=== FILE: README.md ===
# DRV2605 haptic driver — a Dafny model

This project models the STM32-style driver for the TI DRV2605 haptic motor
driver (`User/drv2605.c`, `User/drv2605.h`) and proves properties of that model.
The driver talks to the chip over I2C at address 0x5A. It provides:

- register access;
- mode and library selection;
- the eight-slot waveform sequencer;
- real-time (RTP) action groups;
- the auto-calibration routine;
- voltage code conversions;
- continuous real-time drive;
- a software square wave ("frequency/amplitude drive") on the real-time input.

Layers of the model:

- **Chip** (`chip.dfy`): the register map, the mode and library enumerations and
  the ROM effect range of the header. It includes the address byte with its
  direction bit.
- **I2C engine** (`i2c.dfy`): the driver's private I2C routines.
  - Every polling loop consumes one observation from an injected stream
    (`Hit(data)`, `Miss`, `Fault`).
  - A routine's effect is the list of controller commands it issues (START,
    address, data, STOP, acknowledge on/off, error-flag clearing).
  - Reads use the combined write-then-read format with a repeated START
    (section 3.1.10 of the NXP I2C-bus specification, UM10204).
  - `i2cruns.dfy` counts how many waits of a transaction succeed before the
    first one gives up, which fixes where a failed transaction stopped.
- **Adequacy** (`adequacy.dfy`): a register write is a two-byte engine write and
  a register read is a one-byte engine read. Every reply the register layer can
  see is produced by the engine on an observation stream that the transaction
  consumes exactly. So every sequence of replies, in any order, is produced by
  one stream for the transactions run one after another.
- **Register layer** (`bus.dfy`): a `Bus` is a reply oracle plus a trace.
  - The oracle is the replies the next transactions receive: `Ack(data)` or
    `Nak`. An exhausted oracle answers `Nak`.
  - The trace holds transactions with their outcome, plus delays.
  - Fixed abort-on-first-failure sequences are `Run(bus, plan)`. Their outcome
    and traffic are characterised once, by `RunSpec` and `RunTransfers`.
  - `Apply` replays a trace onto a register file, so "this write landed" can be
    stated.
- **Operations**, one module per part of the source:
  - `device.dfy`: single-register helpers;
  - `init.dfy`: default start-up;
  - `actiongroup.dfy`: action groups;
  - `autocal.dfy`: auto-calibration;
  - `continuous.dfy`: continuous drive;
  - `freqamp.dfy`: frequency/amplitude drive;
  - `conversions.dfy`: voltage and amplitude arithmetic.
- **Driver state** (`driverstate.dfy`): the file-scope statics become an
  explicit `Driver` record. Operations that use it take it and return it.

Byte and 16-bit quantities are the subset types `byte` and `u16`. Where the
source computes in 32 bits, the contracts state that the intermediate values
stay below 2^32, so no wrap-around can occur.

## Model

| member | source | states |
|---|---|---|
| Chip.AddressByte | User/drv2605.h:11 | The address byte carries the 7-bit device address 0x5A above the direction bit, and that bit is set exactly for a read. |
| Chip.AddressDecodes | User/drv2605.h:16-49 | Every register's address in the register map decodes back to that register. |
| Chip.AddressInjective | User/drv2605.h:16-49 | Two registers share an address only if they are the same register. |
| Chip.WaveSeqBlock | User/drv2605.h:21-29 | Addresses 0x04..0x0B are exactly the eight sequencer slots, each at its own address, and none of them is GO. |
| Chip.ModeCodeBijective | User/drv2605.h:241-250 | Every mode code fits the 3-bit mode field, and mode codes and 3-bit values are in one-to-one correspondence. |
| Chip.LibraryCodeBijective | User/drv2605.h:52-61 | Library codes and 3-bit values are in one-to-one correspondence, so masking a library code with 7 keeps it. |
| Chip.AutoCalDefaults | User/drv2605.c:183-190 | The recommended auto-calibration request: rated code 0x50, clamp code 0x90, control words 0x20, 0xF5, 0x80, 0x20, 0x80 and a 2000 ms timeout. |
| Chip.RomEffectsAreNotTerminators | User/drv2605.h:64-188 | Every ROM effect identifier differs from the end-of-sequence value 0 and fits in 7 bits; there are 123 of them, and the strong click is one. |
| Conversions.EncodeRatedVoltageMv | User/drv2605.c:246-253 | The rated-voltage code is the round-half-up quotient of the microvolts by the 21330 µV step, saturated at 0xFF; the microvolt product fits in 32 bits. |
| Conversions.EncodeClampVoltageMv | User/drv2605.c:255-262 | The same for the clamp voltage, with the 5600 µV step. |
| Conversions.DecodeRatedVoltageMv | User/drv2605.c:264-267 | The decoded value is the nearest millivolt (half up) to code × 21330 µV, and never above 5439 mV, so it fits the 16-bit result. |
| Conversions.DecodeClampVoltageMv | User/drv2605.c:269-272 | The same for the clamp voltage, never above 1428 mV. |
| Conversions.EncodeDecodeIdentity | User/drv2605.c:246-272 | Encoding a decoded code gives back the code, for every byte and both voltages. |
| Conversions.RatedRoundTripWithinHalfStep | User/drv2605.c:246-267 | Decoding an encoded rated voltage lands within 11 mV of the input whenever the code did not saturate, and never more than 11 mV above it. |
| Conversions.ClampRoundTripWithinHalfStep | User/drv2605.c:255-272 | The same for the clamp voltage, within 3 mV. |
| Conversions.EncodeMonotone | User/drv2605.c:246-262 | A higher voltage never encodes to a lower code. |
| Conversions.RatedExample | User/drv2605.c:246-267 | 3300 mV encodes to 155, which decodes to 3306 mV. |
| Conversions.VoltageToAmplitude | User/drv2605.c:418-425 | The amplitude is the rounded ratio of the clamped voltage to the range, scaled to 0x7F and raised to at least 1; a voltage at or above the range gives full scale; the 32-bit intermediate cannot overflow. |
| Conversions.AmplitudeMonotone | User/drv2605.c:418-425 | A higher voltage never gives a lower amplitude. |
| Conversions.BurstFor | User/drv2605.c:379-392 | The period is the floor of 10^6 µs over the frequency, and at least 15 µs for a 16-bit frequency. The half period is at least 1 µs and is half the period, rounded down. The cycle count is the number of whole periods in the burst, and at least 1. |
| I2c.WaitOutcome | User/drv2605.c:716-738 | Characterises `I2c.Wait`, the polling loop. A wait succeeds exactly when the first observation that ends waiting comes within timeout + 1 iterations and sees the condition; the data is that observation's. |
| I2c.WaitRest | User/drv2605.c:716-738 | A wait consumes the observations up to and including the one that decides it, or timeout + 1 of them. |
| I2c.Start | User/drv2605.c:688-714 | A successful START issues START and the address byte for the direction. A busy bus issues nothing. Any later failure leaves the bus recovered: STOP, then error clearing. |
| I2c.SendBytes | User/drv2605.c:593-611 | The byte loop sends the payload and then STOP. When it fails, it sends a prefix of the payload, then STOP and error clearing. |
| I2c.WriteBytes | User/drv2605.c:583-612 | An empty payload succeeds with no traffic. A failed START is the write's outcome. Otherwise a successful write is START, the write address, the payload, then STOP, and a failed one stops after a payload prefix. |
| I2c.WriteBytesFraming | User/drv2605.c:583-612 | A write that reached the bus starts with START and issues exactly one STOP; it clears the error flags exactly when it fails. |
| I2c.WriteBytesRecovers | User/drv2605.c:583-612 | A failed write either never took the bus or left it recovered. |
| I2c.WaitSucceeds | User/drv2605.c:716-738 | A successful wait ended at the first observation that ends waiting. That observation saw the condition with the reported data, and the wait leaves exactly the observations after it. |
| I2c.Receive | User/drv2605.c:655-668 | The receive loop issues only acknowledge-off then STOP, and issues them exactly when it reaches the last byte's wait, even when that wait then fails. It succeeds exactly when every requested byte arrived. Byte i is the data seen by the observation that ended the i-th receive wait. |
| I2c.Closing | User/drv2605.c:672-685 | The cleanup of a read re-enables acknowledge, issues STOP only if the loop did not, and clears the error flags exactly on failure. |
| I2c.Transfer | User/drv2605.c:630-668 | After START, a successful read sends the register, a repeated START and the read address, then delivers every byte. Once STOP is issued, the commands are exactly those three, then acknowledge-off, then STOP. Byte i is the data seen by the observation that ended wait 4 + i: the first four waits are for the empty buffer, the register's acknowledgement, the repeated START and the read address. |
| I2c.StartDelivers | User/drv2605.c:688-714 | A successful START's three waits come first, so what the later waits deliver moves three waits on. |
| I2c.ReadRegisters | User/drv2605.c:614-686 | A zero-length read succeeds with no traffic. A failed START is the read's outcome. A successful read delivers exactly the requested number of bytes, and a failed one none. Byte i is the data seen by the observation that ended wait 7 + i of the read: three waits for START, then four for the switch to reception. |
| I2cRuns.ReceiveCount | User/drv2605.c:655-668 | The receive loop gets one byte per wait that succeeds before the first wait gives up. So it falls short exactly when the wait after the delivering ones gives up, and the number of bytes is fixed by the observations. |
| I2cRuns.TransferCount | User/drv2605.c:630-668 | A transfer succeeds exactly when none of its waits gives up. Past the switch to reception, the waits that succeed are the switch's four plus one per byte received. A transfer that fails before the switch completes receives nothing. |
| I2cRuns.ReadRegistersCount | User/drv2605.c:614-686 | A read of at least one register succeeds exactly when none of its waits gives up: three for START, four for the switch to reception, one per byte. |
| I2c.ReadRegistersAddressing | User/drv2605.c:626-653 | A successful read issued START, the write address, the register, a repeated START and the read address, in that order. |
| I2c.ReadRegistersFraming | User/drv2605.c:614-686 | A read that reached the bus starts with START, issues exactly one STOP and re-enables acknowledge; it clears the error flags exactly when it fails. |
| Adequacy.WriteRepliesRealizable | User/drv2605.c:47-50 | Both replies a register write can receive, acknowledged and refused, come from the engine on an observation stream that the write consumes exactly, whatever observations follow. |
| Adequacy.ReadRepliesRealizable | User/drv2605.c:55-60 | Every reply a register read can receive, whatever byte it carries, comes from the engine on an observation stream that the read consumes exactly, whatever observations follow. |
| Adequacy.ReplyRealizable | User/drv2605.c:47-60 | The same for any one register transaction and any admissible reply. |
| Adequacy.ReplySequencesRealizable | User/drv2605.c:47-60 | Any sequence of admissible replies, in any order, is what the engine gives on one observation stream for the transactions run one after another. |
| Adequacy.WriteOutcomes | User/drv2605.c:583-612 | A write succeeds when every wait is satisfied at once. It fails when START sees an error latched after the idle bus. Both consume exactly their observations. It also fails, without touching the bus, when the bus is never idle. |
| Adequacy.ReadAllAcked | User/drv2605.c:614-686 | A one-byte read with every wait satisfied delivers the byte the controller received. It consumes exactly its observations, including the cleanup's final wait for an idle bus. |
| Adequacy.ReadRefused | User/drv2605.c:614-628 | A read fails without touching the bus when the bus is never idle. When START sees an error latched after the idle bus, it fails consuming exactly two observations. |
| Bus.WriteRegister | User/drv2605.c:47-50 | A register write is one transaction: it succeeds exactly when acknowledged, is recorded with its outcome, and uses one reply. |
| Bus.ReadRegister | User/drv2605.c:55-60 | A register read is one transaction: it yields a value exactly when acknowledged, and that value is the byte received. |
| Bus.RunSpec | User/drv2605.c:30-42 | A fixed sequence that stops at its first failure succeeds exactly when enough leading replies are acknowledged to cover its writes. It uses one reply per attempted write. |
| Bus.RunTransfers | User/drv2605.c:30-42 | A fixed sequence attempts its writes in order, up to and including the first refused one. |
| Bus.RunAppend | User/drv2605.c:30-42 | Two sequences in a row behave as their concatenation: the second runs only if the first succeeded. |
| Bus.ApplyLastWrite | User/drv2605.c:47-50 | In the register file after a trace, a register holds the value of its last acknowledged write. |
| Device.SetMode | User/drv2605.c:72-74 | Setting a mode writes that mode's code to MODE and succeeds exactly when acknowledged. |
| Device.GetMode | User/drv2605.c:79-89 | Reading the mode yields a mode exactly when the read is acknowledged, decoded from the low three bits of the byte. |
| Device.ModeReadsBack | User/drv2605.c:72-89 | A MODE register holding a mode's code reads back as that mode. |
| Device.SetLibrary | User/drv2605.c:94-96 | Setting a library writes the identifier's low three bits to LIBRARY. |
| Device.GetLibrary | User/drv2605.c:101-111 | Reading the library yields a library exactly when acknowledged, decoded from the low three bits. |
| Device.LibraryRoundTrip | User/drv2605.c:94-111 | A library's code is written unchanged and reads back as the same library. |
| Device.Start | User/drv2605.c:432-434 | Start writes 1 to GO. |
| Device.Stop | User/drv2605.c:439-441 | Stop writes 0 to GO. |
| Device.GoLands | User/drv2605.c:432-441 | After an acknowledged start or stop, GO holds 1 or 0. A refused one changes no register. |
| Device.SelectionLands | User/drv2605.c:570-579 | After an acknowledged selection, the actuator-type bit of FEEDBACK is 1 for LRA and 0 for ERM. |
| Device.FeedbackSelectsActuator | User/drv2605.c:570-579 | The two feedback values differ only in the actuator-type bit. |
| Device.TargetInjective | User/drv2605.c:446-551 | Distinct single-register setters write distinct registers. None of them writes STATUS, MODE, LIBRARY, GO, FEEDBACK, the read-only registers or a sequencer slot. |
| Device.Set | User/drv2605.c:446-551 | A setter writes its value to its own register in one transaction and uses one reply. |
| Device.SetLands | User/drv2605.c:446-551 | After an acknowledged setter, its register holds the value and every other register is unchanged. A refused setter changes nothing. |
| Device.SetSustainLevel | User/drv2605.c:467-472 | Writes the positive, then the negative sustain time. It skips the second write when the first fails, and succeeds exactly when both are acknowledged. |
| Device.SustainLands | User/drv2605.c:467-472 | After a successful call, both sustain registers hold the values given. |
| Device.SourceInjective | User/drv2605.c:446-563 | Distinct single-register getters read distinct registers. |
| Device.Get | User/drv2605.c:446-563 | A getter reads its own register once and yields the byte exactly when acknowledged. |
| Device.GetLeavesFile | User/drv2605.c:446-563 | A getter changes no register. |
| Device.SetWaveform | User/drv2605.c:116-122 | A slot above 7 is refused with no traffic. Otherwise the effect is written to the slot's register, address 0x04 + slot. |
| Device.GetWaveform | User/drv2605.c:127-138 | A slot above 7 is refused with no traffic. Otherwise the slot's register is read and the byte is yielded exactly when acknowledged. |
| Device.ClearWaveformsSpec | User/drv2605.c:143-151 | Characterises `Device.ClearWaveforms`. Clearing writes 0 to slots 1..7 in order and stops at the first refused write. It succeeds exactly when all seven are acknowledged. |
| Device.ClearWaveformsLands | User/drv2605.c:143-151 | After a successful clear, slots 1..7 hold 0 and slot 0 keeps its value. |
| ActionGroups.RunActionGroup | User/drv2605.c:156-174 | A missing group, missing frames or a zero count is refused with nothing changed. While frames remain, the step writes the frame's amplitude, and the hold follows only an acknowledged write; the cursor advances either way. At the end of a round the step writes 0, pauses and resets the cursor, whatever the write gave. |
| ActionGroups.StepKeepsCursorInRange | User/drv2605.c:161-172 | After a step, the cursor is either advanced by one or reset to 0, and never exceeds the frame count. |
| ActionGroups.RoundResetsCursor | User/drv2605.c:156-174 | From any cursor position, the remaining frames plus the closing step bring the cursor back to the first frame, whatever the bus answers. |
| ActionGroups.RoundWrites | User/drv2605.c:156-174 | The rest of a round writes the remaining frames' amplitudes in order and then 0, even when some writes fail. |
| ActionGroups.RoundAllAcked | User/drv2605.c:156-174 | With every write acknowledged, the rest of a round succeeds. It leaves each remaining frame followed by its hold, then the silencing write and the pause. |
| DriverState.Initial | User/drv2605.c:18-23 | At reset there is no configured session and no prepared direct drive. The strength is 0, the burst 800 ms, the pause 300 ms and the range 5000 mV, so the state is valid. |
| Init.InitStages | User/drv2605.c:30-42 | Start-up is the opening steps, then the sequencer clear, then the closing steps. Each stage runs only if the previous one succeeded. |
| Init.OpeningRuns | User/drv2605.c:31-35 | The opening steps do exactly what the driver's calls do: set the mode, wait 5 ms, select LRA, set the library, then put the strong click in slot 0. They stop at the first failure. |
| Init.ClosingRuns | User/drv2605.c:37-41 | The closing steps do exactly what the driver's setter calls do: overdrive clamp, the two-write sustain setter, brake, audio maximum, then real-time mode. They stop at the first failure. |
| Init.InitIsSetterCalls | User/drv2605.c:30-42 | Start-up gives the same outcome, trace and remaining replies as the driver's chain of setter calls. |
| Init.InitSpec | User/drv2605.c:30-42 | Characterises `Init.InitDefaults`. Start-up succeeds exactly when all seventeen writes are acknowledged. It attempts them in order up to the first refused one, and none after it. |
| Continuous.MergeDriveTime | User/drv2605.c:300 | The new CONTROL2 keeps the prior value's upper two bits and takes the drive time's lower six bits. |
| Continuous.MergeIsMaskedOr | User/drv2605.c:300 | On bits, the merge equals the prior value masked with 0xC0, or-ed with the drive time masked with 0x3F. |
| Continuous.MergeKeepsFields | User/drv2605.c:300 | Two drive times give the same CONTROL2 exactly when their low six bits agree, and a drive time in 0..63 lands unchanged. |
| Continuous.RewriteControl2 | User/drv2605.c:296-304 | CONTROL2 is read and written back with the new drive time. A failed read falls back to 0xF5 for the upper bits and does not stop the write. |
| Continuous.ConfigureContinuous | User/drv2605.c:277-308 | A missing request is refused with no traffic, and any failure leaves the driver state unchanged. A request succeeds exactly when the actuator selection, library and CONTROL2 writes are acknowledged; the CONTROL2 read may fail. On success, the strength is latched, capped at 0x7F, and the session is marked configured. |
| Continuous.ConfigureLogs | User/drv2605.c:282-307 | Configuration logs, in order, the actuator selection, the library write, the CONTROL2 read and the merged CONTROL2 write, each with its reply's outcome. It stops after the first refused write; a failed read does not stop it. |
| Continuous.ConfigureSpec | User/drv2605.c:282-307 | Configuration succeeds exactly when its three writes are acknowledged. Its transfers are the prefix of selection, library, CONTROL2 read and merged write that ends at the first refused write. The merge starts from the byte read, or 0xF5 when the read fails. |
| Continuous.ConfigureWhenAcked | User/drv2605.c:282-307 | With the three writes acknowledged, configuration succeeds. Its traffic is the actuator selection, the library's low three bits, the CONTROL2 read and the merged CONTROL2 write. |
| Continuous.ConfiguredIsSticky | User/drv2605.c:277-308 | Once configured, a session stays configured through any later configuration attempt. |
| Continuous.ConfigureKeepsValid | User/drv2605.c:277-308 | Configuration keeps the driver state valid. |
| Continuous.SessionStrengthInRange | User/drv2605.c:305-317 | The latched strength never exceeds 0x7F. After a successful configuration, a later start writes the requested strength, capped at 0x7F, to the real-time input as soon as its mode change is acknowledged, whatever the bus state. |
| Continuous.StartContinuous | User/drv2605.c:310-321 | Start is refused with no traffic until a session is configured. Then it writes real-time mode, the strength and GO in order, stopping at the first failure, and succeeds exactly when all three are acknowledged. |
| Continuous.StopContinuous | User/drv2605.c:323-328 | Stop writes 0 to the real-time input, then 0 to GO, skipping the second write when the first fails. |
| FreqAmp.SetFreqAmpTiming | User/drv2605.c:332-338 | A missing request changes nothing. Otherwise the pause is taken as given and the burst too, except that a zero burst becomes 1 ms; nothing else changes and validity is kept. |
| FreqAmp.SetFreqAmpVoltageRange | User/drv2605.c:340-345 | A zero range is ignored; any other value becomes the range. |
| FreqAmp.PrepareFreqAmpRealtime | User/drv2605.c:347-366 | Once prepared, nothing is sent. Otherwise the four preparation writes are attempted in order up to the first failure, and the latch is set exactly when all four succeed. |
| FreqAmp.ReadyLatchIsOneWay | User/drv2605.c:347-366 | The readiness latch goes from off to on and never back, and preparation changes nothing else. |
| FreqAmp.ToneWrites | User/drv2605.c:396-405 | A burst of n periods writes the drive value and 0 alternately on the real-time input, 2n writes in all. |
| FreqAmp.PlayFreqAmp | User/drv2605.c:368-412 | A zero frequency or amplitude is refused with no traffic. A successful call leaves direct drive prepared, and only the readiness latch of the driver state can change. |
| FreqAmp.PlayWhenReady | User/drv2605.c:379-411 | Once prepared, a burst alternates min(amplitude, 0x7F) and 0, once each per cycle. It stops at the first refused write and succeeds exactly when all are acknowledged. |
| FreqAmp.PlayPrepareFails | User/drv2605.c:373-377 | A failed preparation ends the call with the latch off and only the preparation writes attempted. |
| FreqAmp.PlayAfterPrepare | User/drv2605.c:368-411 | On the first call, a successful preparation latches readiness and the call then plays exactly the burst a prepared driver plays on the replies left, as stated by PlayWhenReady. |
| FreqAmp.PlayFreqVoltage | User/drv2605.c:414-427 | A zero voltage is refused with no traffic; otherwise the range afterwards is at least 1. |
| FreqAmp.VoltagePlaysAmplitude | User/drv2605.c:414-427 | A nonzero voltage plays the scaled amplitude, which lies in 1..0x7F and is full scale at or above the range. |
| AutoCal.FillAutoCalDefaults | User/drv2605.c:179-191 | Without a request nothing happens. Otherwise the request gets the recommended values: rated code 0x50, clamp code 0x90, control words 0x20, 0xF5, 0x80, 0x20, 0x80 and a 2000 ms timeout. |
| AutoCal.DefaultSetupTraffic | User/drv2605.c:179-219 | A request filled with the recommended values, once its set-up writes are acknowledged, opens with twelve writes. They are the stop, LRA feedback 0xB6, library 6, rated 0x50, clamp 0x90, the control words 0x20, 0xF5, 0x80, 0x20, 0x80, auto-calibration mode 7 and GO = 1. |
| AutoCal.SetupPlanWrites | User/drv2605.c:202-219 | Set-up writes internal-trigger mode, LRA feedback, the LRA library, the rated and clamp codes, CONTROL1..5, auto-calibration mode and GO = 1, in that order. |
| AutoCal.PollSpec | User/drv2605.c:752-766 | Characterises `AutoCal.PollGo`; `AutoCal.WaitGoClear` is `PollGo` with the budget `PollBudget`. Polling succeeds exactly when one of the first `remaining` reads shows GO cleared (acknowledged, bit 0 clear). It reads GO once per poll, up to and including that read; a failed read counts as a poll. |
| AutoCal.PollReplies | User/drv2605.c:752-766 | Successful polling has used exactly the replies up to the one showing GO cleared. |
| AutoCal.Polls | User/drv2605.c:221 | Polling makes between 1 and the request's timeout reads, 2000 for a timeout of 0. |
| AutoCal.ReadFieldsSpec | User/drv2605.c:229-233 | Reading the required fields succeeds exactly when the next reads are all acknowledged. Each field read before the first failure holds the byte received; the others keep their contents. |
| AutoCal.ReadFieldsTrace | User/drv2605.c:229-233 | The required fields are read once each, in order, up to and including the first failed read. |
| AutoCal.ReadOptional | User/drv2605.c:234-237 | Battery and resonance are each reset to 0 and overwritten only by a successful read, and their failures do not fail the call. |
| AutoCal.ReadResultsSpec | User/drv2605.c:228-238 | Reading results succeeds exactly when the five required reads are acknowledged. On success, battery and resonance hold their best-effort readings; on failure they are left alone. |
| AutoCal.ReadResultsTrace | User/drv2605.c:228-238 | The results are read in the order STATUS, compensation, back-EMF, rated, clamp, stopping at the first failure. After all five come battery and resonance. |
| AutoCal.RunAutoCalibration | User/drv2605.c:196-241 | A missing request is refused with no traffic. Without a result record, no record is produced. |
| AutoCal.AutoCalNoStopBeforeGo | User/drv2605.c:202-219 | A failure while setting up, up to and including GO = 1, fails the call and leaves the record alone. The set-up writes are attempted only up to the first refused one, and no STOP is sent. |
| AutoCal.AutoCalStopsAfterGo | User/drv2605.c:219-226 | Once GO = 1 is acknowledged, GO is polled within the timeout and then written back to 0 whatever polling gave. A timeout fails the call there and leaves the record alone; without a record, a cleared GO succeeds there. |
| AutoCal.AutoCalReadsResults | User/drv2605.c:219-238 | When GO clears in time and a record is given, the results come from the replies after the STOP. The call succeeds exactly when the five required reads are acknowledged. |
| AutoCal.AutoCalResultsTrace | User/drv2605.c:196-241 | When GO clears in time and a record is given, the whole traffic is set-up, polls and STOP, then the result reads up to the first failure, or all seven. |

## Left out

- `User/main.c` and any board wrapper around the driver are not part of this
  model.
- Hardware status flags are not modelled as hardware. The I2C engine sees an
  injected stream of observations, and the register layer sees an injected
  reply oracle. `Adequacy` connects the two.
- Delays (`Delay_Ms`, `Delay_Us`) appear only as trace entries. Timing
  accuracy, interrupts and concurrency are out of scope.
- The engine's final wait for an idle bus in a read's cleanup ignores its
  result. The model runs it on the observation stream, so it consumes
  observations like any other wait. It issues no command, and its outcome
  changes neither the read's result nor its commands.
- Null out-pointers of the single-value getters are not modelled, because the
  model returns values instead of writing through pointers. Null request
  pointers (configuration, group, frames, result record, timing) are modelled
  as `Option`.
- Dead branches are left out: `periodUs == 0` and `halfPeriodUs == 0` in
  burst arithmetic (the period is at least 15 µs for a 16-bit frequency), a
  zero timeout reaching the GO poll from auto-calibration (the caller
  substitutes 2000), and a zero voltage range in `PlayFreqVoltage` from a
  valid driver state. `PollBudget` and `PlayFreqVoltage` still model the
  source's guards.
- The `useLRA` field of a continuous configuration is a boolean: the code
  selects LRA for `ENABLE` and ERM for any other value.
- Code behaviour a caller might not expect, which the model keeps:
  - Auto-calibration sends no STOP when it fails before GO is set, including a
    refused GO = 1 write.
  - Action-group amplitudes are written as stored, without clamping to 0x7F.
  - The action-group cursor advances even when the frame's write fails.
  - The end of a round resets the cursor and pauses even when the silencing
    write fails.
  - A failed `ConfigureContinuous` leaves the session flag as it was; it does
    not clear it.
  - Battery and resonance readings are best-effort after calibration: each is
    set to 0 first, and their failures do not fail the call.
  - A failed single-byte read does not change the caller's value; the model
    yields no value.
- AutoCal.RunAutoCalibration: its own contract states only the refusal and
  the "no record in, no record out" facts. The full behaviour is stated by
  AutoCalNoStopBeforeGo, AutoCalStopsAfterGo, AutoCalReadsResults and
  AutoCalResultsTrace.
- FreqAmp.PlayFreqAmp: its own contract states the refusal and the
  driver-state facts. The traffic is stated by PlayWhenReady and
  PlayPrepareFails, and by PlayAfterPrepare composed with PlayWhenReady for
  a first call whose preparation succeeds.
- I2c.ReadRegisters: a failed read yields no bytes. In the code, a failed
  read of more than one byte keeps the bytes already stored in the caller's
  buffer (User/drv2605.c:666). The driver only ever reads one byte
  (User/drv2605.c:59), so that case cannot arise.
- FreqAmp.PlayFreqVoltage: its own contract states the refusal and the range
  update. VoltagePlaysAmplitude states the amplitude played, for a valid
  driver state.
- I2c.Receive: commands and observations are two separate lists, not one
  interleaved trace. That acknowledge-off and STOP come before the last
  byte's wait is stated through STOP being issued even when that wait fails.

=== FILE: actiongroup.dfy ===
/** Frame-by-frame playback of a real-time action group
    (User/drv2605.c:156-174). Each call plays one step: the next frame's
    amplitude is written to the real-time input and held, or, after the last
    frame, the output is silenced, the pause is observed and the cursor goes
    back to the first frame. */
module ActionGroups {
  import opened Types
  import opened Chip
  import opened Bus

  /** The outcome of one step: success, the bus, and the group with its
      cursor moved (absent when no group was given). */
  datatype Ticked = Ticked(ok: bool, bus: Bus, group: Option<ActionGroup>)

  /** A group that can be played: present, with frames and a nonzero count. */
  predicate Playable(group: Option<ActionGroup>)
  {
    group.Some? && group.value.frames.Some? && group.value.frameCount > 0
  }

  /** The same group apart from its cursor. */
  predicate SameShape(a: ActionGroup, b: ActionGroup)
  {
    a.frames == b.frames && a.frameCount == b.frameCount && a.pauseMs == b.pauseMs
  }

  /** One playback step. A missing group, missing frames or a zero count is
      refused with no traffic and nothing changed. While frames remain, the
      cursor moves on whether or not the write succeeds, and the hold delay
      follows only a successful write. At the end of a round, 0 is written,
      the pause is observed and the cursor is reset even when that write
      fails. The amplitude is written as stored, without clamping. */
  function RunActionGroup(bus: Bus, group: Option<ActionGroup>): (t: Ticked)
    requires group.Some? ==> WellFormed(group.value)
    ensures !Playable(group) ==> t == Ticked(false, bus, group)
    ensures Playable(group) ==>
              && t.group.Some? && SameShape(t.group.value, group.value)
              && WellFormed(t.group.value)
              && t.group.value.currentIndex <= t.group.value.frameCount
    ensures Playable(group) && group.value.currentIndex < group.value.frameCount ==>
              var g := group.value;
              var frame := g.frames.value[g.currentIndex];
              && t.group.value.currentIndex == g.currentIndex + 1
              && (t.ok <==> NextReply(bus.replies).Ack?)
              && t.bus.trace == bus.trace + [Xact(Write(RtpInput, frame.amplitude), t.ok)]
                                + (if t.ok then [DelayMs(frame.holdMs)] else [])
    ensures Playable(group) && group.value.currentIndex >= group.value.frameCount ==>
              && t.group.value.currentIndex == 0
              && (t.ok <==> NextReply(bus.replies).Ack?)
              && t.bus.trace == bus.trace + [Xact(Write(RtpInput, 0), t.ok), DelayMs(group.value.pauseMs)]
    ensures bus.trace <= t.bus.trace
  {
    if !Playable(group) then Ticked(false, bus, group)
    else
      var g := group.value;
      if g.currentIndex < g.frameCount then
        var frame := g.frames.value[g.currentIndex];
        var moved := Some(g.(currentIndex := g.currentIndex + 1));
        var w := WriteRegister(bus, RtpInput, frame.amplitude);
        if !w.ok then Ticked(false, w.bus, moved)
        else Ticked(true, SleepMs(w.bus, frame.holdMs), moved)
      else
        var w := WriteRegister(bus, RtpInput, 0);
        Ticked(w.ok, SleepMs(w.bus, g.pauseMs), Some(g.(currentIndex := 0)))
  }

  /** `n` steps in a row on a playable group; `ok` reports whether all of
      them succeeded. */
  function Ticks(bus: Bus, g: ActionGroup, n: nat): (t: Ticked)
    requires WellFormed(g) && Playable(Some(g))
    ensures t.group.Some? && SameShape(t.group.value, g) && WellFormed(t.group.value)
    ensures bus.trace <= t.bus.trace
    decreases n
  {
    if n == 0 then Ticked(true, bus, Some(g))
    else
      var first := RunActionGroup(bus, Some(g));
      var rest := Ticks(first.bus, first.group.value, n - 1);
      Ticked(first.ok && rest.ok, rest.bus, rest.group)
  }

  /** The writes of frames lo..hi-1, in order. */
  function FrameWrites(frames: seq<Frame>, lo: nat, hi: nat): (ws: seq<Xfer>)
    requires lo <= hi <= |frames|
    ensures |ws| == hi - lo
    ensures forall j :: 0 <= j < hi - lo ==> ws[j] == Write(RtpInput, frames[lo + j].amplitude)
  {
    seq(hi - lo, j requires 0 <= j < hi - lo => Write(RtpInput, frames[lo + j].amplitude))
  }

  /** The trace of frames lo..hi-1 played with every write acknowledged:
      each amplitude followed by its hold. */
  function Played(frames: seq<Frame>, lo: nat, hi: nat): seq<Entry>
    requires lo <= hi <= |frames|
    decreases hi - lo
  {
    if lo == hi then []
    else [Xact(Write(RtpInput, frames[lo].amplitude), true), DelayMs(frames[lo].holdMs)] + Played(frames, lo + 1, hi)
  }

  /** The cursor never ends a step beyond the frame count, whatever it was
      before and whatever the bus answered. */
  lemma StepKeepsCursorInRange(bus: Bus, g: ActionGroup)
    requires WellFormed(g) && Playable(Some(g))
    ensures var t := RunActionGroup(bus, Some(g));
            t.group.value.currentIndex <= g.frameCount
    ensures var t := RunActionGroup(bus, Some(g));
            t.group.value.currentIndex == 0 || t.group.value.currentIndex == g.currentIndex + 1
  {
  }

  /** From cursor position i, the remaining frames plus the closing step
      bring the cursor back to 0, whatever the bus answers. */
  lemma {:induction false} RoundResetsCursor(bus: Bus, g: ActionGroup)
    requires WellFormed(g) && Playable(Some(g)) && g.currentIndex <= g.frameCount
    ensures Ticks(bus, g, g.frameCount - g.currentIndex + 1).group == Some(g.(currentIndex := 0))
    decreases g.frameCount - g.currentIndex
  {
    var first := RunActionGroup(bus, Some(g));
    if g.currentIndex < g.frameCount {
      RoundResetsCursor(first.bus, first.group.value);
    }
  }

  /** One step makes exactly one transfer: the current frame's amplitude,
      or 0 at the end of a round. */
  lemma StepWrites(bus: Bus, g: ActionGroup)
    requires WellFormed(g) && Playable(Some(g))
    ensures var t := RunActionGroup(bus, Some(g));
            Transfers(Added(bus, t.bus))
            == if g.currentIndex < g.frameCount then [Write(RtpInput, g.frames.value[g.currentIndex].amplitude)]
               else [Write(RtpInput, 0)]
  {
    var t := RunActionGroup(bus, Some(g));
    var head := Added(bus, t.bus);
    if g.currentIndex < g.frameCount {
      var frame := g.frames.value[g.currentIndex];
      var tail := if t.ok then [DelayMs(frame.holdMs)] else [];
      assert head == [Xact(Write(RtpInput, frame.amplitude), t.ok)] + tail;
      TransfersAppend([Xact(Write(RtpInput, frame.amplitude), t.ok)], tail);
      assert Transfers(tail) == [];
    } else {
      assert head == [Xact(Write(RtpInput, 0), t.ok)] + [DelayMs(g.pauseMs)];
      TransfersAppend([Xact(Write(RtpInput, 0), t.ok)], [DelayMs(g.pauseMs)]);
      assert Transfers([DelayMs(g.pauseMs)]) == [];
    }
  }

  lemma FrameWritesCons(frames: seq<Frame>, lo: nat, hi: nat)
    requires lo < hi <= |frames|
    ensures FrameWrites(frames, lo, hi) == [Write(RtpInput, frames[lo].amplitude)] + FrameWrites(frames, lo + 1, hi)
  {
  }

  /** The transfers of several steps are those of the first step followed
      by those of the others. */
  lemma TicksSplit(bus: Bus, g: ActionGroup, n: nat)
    requires WellFormed(g) && Playable(Some(g)) && n > 0
    ensures var first := RunActionGroup(bus, Some(g));
            var rest := Ticks(first.bus, first.group.value, n - 1);
            && Ticks(bus, g, n).bus == rest.bus
            && Transfers(Added(bus, rest.bus)) == Transfers(Added(bus, first.bus)) + Transfers(Added(first.bus, rest.bus))
  {
    var first := RunActionGroup(bus, Some(g));
    var rest := Ticks(first.bus, first.group.value, n - 1);
    TransfersChain(bus, first.bus, rest.bus);
  }

  /** From cursor position i, the rest of a round writes the amplitudes of
      frames i.., in order, and then 0, whatever the bus answers: a failed
      write does not stop the round. */
  lemma {:induction false} RoundWrites(bus: Bus, g: ActionGroup)
    requires WellFormed(g) && Playable(Some(g)) && g.currentIndex <= g.frameCount
    ensures var t := Ticks(bus, g, g.frameCount - g.currentIndex + 1);
            Transfers(Added(bus, t.bus))
            == FrameWrites(g.frames.value, g.currentIndex, g.frameCount) + [Write(RtpInput, 0)]
    decreases g.frameCount - g.currentIndex
  {
    if g.currentIndex < g.frameCount {
      var n := g.frameCount - g.currentIndex + 1;
      var first := RunActionGroup(bus, Some(g));
      var rest := Ticks(first.bus, first.group.value, n - 1);
      TicksSplit(bus, g, n);
      StepWrites(bus, g);
      RoundWrites(first.bus, first.group.value);
      FrameWritesCons(g.frames.value, g.currentIndex, g.frameCount);
      Regroup(Transfers(Added(bus, rest.bus)), Write(RtpInput, g.frames.value[g.currentIndex].amplitude),
              Transfers(Added(first.bus, rest.bus)), FrameWrites(g.frames.value, g.currentIndex + 1, g.frameCount),
              Write(RtpInput, 0));
    } else {
      RoundEnd(bus, g);
    }
  }

  lemma Regroup(total: seq<Xfer>, w: Xfer, tail: seq<Xfer>, later: seq<Xfer>, z: Xfer)
    requires total == [w] + tail && tail == later + [z]
    ensures total == ([w] + later) + [z]
  {
  }

  /** At the end of a round, the closing step writes only 0. */
  lemma RoundEnd(bus: Bus, g: ActionGroup)
    requires WellFormed(g) && Playable(Some(g)) && g.currentIndex == g.frameCount
    ensures Transfers(Added(bus, Ticks(bus, g, 1).bus)) == [Write(RtpInput, 0)]
  {
    var first := RunActionGroup(bus, Some(g));
    assert Ticks(bus, g, 1).bus == first.bus;
    StepWrites(bus, g);
  }

  /** With every write acknowledged, the rest of a round from cursor
      position i succeeds and leaves exactly frames i.. each with its hold,
      then the silencing write and the pause. */
  lemma {:induction false} RoundAllAcked(bus: Bus, g: ActionGroup)
    requires WellFormed(g) && Playable(Some(g)) && g.currentIndex <= g.frameCount
    requires AckRun(bus.replies) >= g.frameCount - g.currentIndex + 1
    ensures var t := Ticks(bus, g, g.frameCount - g.currentIndex + 1);
            && t.ok
            && Added(bus, t.bus)
               == Played(g.frames.value, g.currentIndex, g.frameCount)
                  + [Xact(Write(RtpInput, 0), true), DelayMs(g.pauseMs)]
    decreases g.frameCount - g.currentIndex
  {
    var n := g.frameCount - g.currentIndex + 1;
    var first := RunActionGroup(bus, Some(g));
    var rest := Ticks(first.bus, first.group.value, n - 1);
    AddedChain(bus, first.bus, rest.bus);
    assert first.ok;
    if g.currentIndex < g.frameCount {
      assert first.bus.replies == bus.replies[1..];
      RoundAllAcked(first.bus, first.group.value);
    } else {
      assert Added(first.bus, rest.bus) == [];
    }
  }
}

=== FILE: adequacy.dfy ===
/** How the reply oracle of the register layer relates to the I2C engine: a
    register write is a two-byte write transaction (register address, then
    value), a register read is a one-byte combined-format read
    (User/drv2605.c:47-60). Each reply the oracle can hand out is what the
    engine produces on a stream of controller observations that the
    transaction consumes exactly, whatever observations follow; so every
    sequence of replies, in any order, is what the engine produces for a
    sequence of transactions, and the oracle assumes no reply the engine
    cannot give. */
module Adequacy {
  import opened Types
  import opened Chip
  import I2c
  import Bus

  /** The reply a register write receives from the engine. */
  function WriteReply(polls: seq<I2c.Poll>, reg: Register, value: byte): Bus.Reply
  {
    if I2c.WriteBytes(polls, [Address(reg), value]).ok then Bus.Ack(0) else Bus.Nak
  }

  /** The reply a register read receives from the engine. */
  function ReadReply(polls: seq<I2c.Poll>, reg: Register): Bus.Reply
  {
    var r := I2c.ReadRegisters(polls, Address(reg), 1);
    if r.ok then Bus.Ack(r.bytes[0]) else Bus.Nak
  }

  /** One register transaction of the driver. */
  datatype Op = WriteOp(reg: Register, value: byte) | ReadOp(reg: Register)

  /** What a transaction leaves of the observation stream. */
  function After(polls: seq<I2c.Poll>, op: Op): seq<I2c.Poll>
  {
    match op
    case WriteOp(reg, value) => I2c.WriteBytes(polls, [Address(reg), value]).rest
    case ReadOp(reg) => I2c.ReadRegisters(polls, Address(reg), 1).rest
  }

  /** The reply a transaction receives. */
  function Reply(polls: seq<I2c.Poll>, op: Op): Bus.Reply
  {
    match op
    case WriteOp(reg, value) => WriteReply(polls, reg, value)
    case ReadOp(reg) => ReadReply(polls, reg)
  }

  /** The replies of transactions run one after another on one stream. */
  function Replies(polls: seq<I2c.Poll>, ops: seq<Op>): (rs: seq<Bus.Reply>)
    ensures |rs| == |ops|
    decreases |ops|
  {
    if |ops| == 0 then []
    else [Reply(polls, ops[0])] + Replies(After(polls, ops[0]), ops[1..])
  }

  /** The replies the register layer accepts for a transaction: a write is
      acknowledged with no data or refused, a read is answered with any
      byte or refused. */
  predicate Admissible(op: Op, reply: Bus.Reply)
  {
    op.WriteOp? ==> reply == Bus.Ack(0) || reply == Bus.Nak
  }

  /** `n` observations in a row that each see the awaited condition. */
  function Hits(n: nat): (polls: seq<I2c.Poll>)
    ensures |polls| == n && forall i :: 0 <= i < n ==> polls[i] == I2c.Hit(0)
  {
    seq(n, i => I2c.Hit(0))
  }

  /** The START of a failing transaction on this stream is refused at the
      mode-select check: the bus is idle, then an error is latched. */
  const REFUSED: seq<I2c.Poll> := [I2c.Hit(0), I2c.Fault]

  /** A wait whose first observation sees the awaited condition ends there. */
  lemma HitWait(d: byte, more: seq<I2c.Poll>, abortOnFault: bool)
    ensures I2c.Wait([I2c.Hit(d)] + more, I2c.TIMEOUT_CYC, abortOnFault) == I2c.Waited(true, d, more)
  {
    assert ([I2c.Hit(d)] + more)[1..] == more;
  }

  /** The same for a run of such observations. */
  lemma HitsWait(n: nat, more: seq<I2c.Poll>, abortOnFault: bool)
    requires n > 0
    ensures I2c.Wait(Hits(n) + more, I2c.TIMEOUT_CYC, abortOnFault)
            == I2c.Waited(true, 0, Hits(n - 1) + more)
  {
    assert Hits(n) + more == [I2c.Hit(0)] + (Hits(n - 1) + more);
    HitWait(0, Hits(n - 1) + more, abortOnFault);
  }

  /** With no observation at all, the wait for an idle bus times out. */
  lemma NoIdleBus()
    ensures !I2c.Wait([], I2c.TIMEOUT_CYC, false).ok
  {
    I2c.WaitOutcome([], I2c.TIMEOUT_CYC, false);
  }

  /** START succeeds when its three waits are satisfied at once, and
      consumes those three observations. */
  lemma StartAllAcked(n: nat, more: seq<I2c.Poll>)
    requires n >= 3
    ensures var started := I2c.Start(Hits(n) + more, Transmitter);
            started.ok && started.rest == Hits(n - 3) + more
  {
    HitsWait(n, more, false);
    HitsWait(n - 1, more, true);
    HitsWait(n - 2, more, true);
  }

  /** START is refused, consuming exactly two observations, when an error is
      latched right after the idle bus is seen. */
  lemma StartRefused(more: seq<I2c.Poll>)
    ensures var started := I2c.Start(REFUSED + more, Transmitter);
            !started.ok && started.rest == more
  {
    assert REFUSED + more == [I2c.Hit(0)] + ([I2c.Fault] + more);
    HitWait(0, [I2c.Fault] + more, false);
    assert ([I2c.Fault] + more)[1..] == more;
  }

  /** The byte loop succeeds when every wait is satisfied at once, and
      consumes two observations per byte. */
  lemma {:induction false} SendAllAcked(data: seq<byte>, more: seq<I2c.Poll>)
    ensures var r := I2c.SendBytes(Hits(2 * |data|) + more, data);
            r.ok && r.rest == more
    decreases |data|
  {
    if |data| > 0 {
      HitsWait(2 * |data|, more, false);
      HitsWait(2 * |data| - 1, more, true);
      assert 2 * |data| - 2 == 2 * |data[1..]|;
      SendAllAcked(data[1..], more);
    }
  }

  /** A write of `payload` succeeds when every wait is satisfied at once and
      fails when its START is refused, in both cases consuming exactly its
      observations; it also fails, without touching the bus, when not even
      the idle bus is seen. */
  lemma WriteOutcomes(payload: seq<byte>, more: seq<I2c.Poll>)
    requires 0 < |payload| < 0x100
    ensures var r := I2c.WriteBytes(Hits(3 + 2 * |payload|) + more, payload);
            r.ok && r.rest == more
    ensures var r := I2c.WriteBytes(REFUSED + more, payload);
            !r.ok && r.rest == more
    ensures var r := I2c.WriteBytes([], payload);
            !r.ok && r.out == []
  {
    StartAllAcked(3 + 2 * |payload|, more);
    SendAllAcked(payload, more);
    StartRefused(more);
    NoIdleBus();
  }

  /** The part of a one-byte read after START, when every wait is satisfied
      at once: the received byte is delivered and nothing after it is
      consumed. */
  lemma TransferAllAcked(reg: byte, data: byte, more: seq<I2c.Poll>)
    ensures var rx := I2c.Transfer(Hits(4) + ([I2c.Hit(data)] + more), reg, 1);
            rx.ok && rx.bytes == [data] && rx.rest == more
  {
    var tail := [I2c.Hit(data)] + more;
    HitsWait(4, tail, false);
    HitsWait(3, tail, true);
    HitsWait(2, tail, true);
    HitsWait(1, tail, true);
    assert Hits(0) + tail == tail;
    HitWait(data, more, true);
  }

  /** The observations of a one-byte read on which every wait is satisfied
      at once and `data` is received, the final wait for an idle bus
      included. */
  function AckedRead(data: byte): seq<I2c.Poll>
  {
    Hits(7) + [I2c.Hit(data), I2c.Hit(0)]
  }

  /** A single-register read delivers the byte the controller received when
      every wait is satisfied at once, and consumes exactly its
      observations. */
  lemma ReadAllAcked(reg: byte, data: byte, more: seq<I2c.Poll>)
    ensures var r := I2c.ReadRegisters(AckedRead(data) + more, reg, 1);
            r.ok && r.bytes == [data] && r.rest == more
  {
    var tail := [I2c.Hit(data)] + ([I2c.Hit(0)] + more);
    assert AckedRead(data) + more == Hits(7) + tail;
    StartAllAcked(7, tail);
    TransferAllAcked(reg, data, [I2c.Hit(0)] + more);
    HitWait(0, more, false);
  }

  /** A read fails without touching the bus when not even the idle bus is
      seen, and fails consuming exactly its observations when its START is
      refused. */
  lemma ReadRefused(reg: byte, more: seq<I2c.Poll>)
    ensures var r := I2c.ReadRegisters([], reg, 1);
            !r.ok && r.out == []
    ensures var r := I2c.ReadRegisters(REFUSED + more, reg, 1);
            !r.ok && r.rest == more
  {
    NoIdleBus();
    StartRefused(more);
  }

  /** Every reply the register layer can see on a write is produced by the
      engine on some observation stream that the write consumes exactly. */
  lemma WriteRepliesRealizable(reg: Register, value: byte, reply: Bus.Reply, more: seq<I2c.Poll>)
    requires reply == Bus.Ack(0) || reply == Bus.Nak
    ensures exists polls :: WriteReply(polls + more, reg, value) == reply
                            && After(polls + more, WriteOp(reg, value)) == more
  {
    WriteOutcomes([Address(reg), value], more);
    if reply.Ack? {
      assert WriteReply(Hits(7) + more, reg, value) == reply;
    } else {
      assert WriteReply(REFUSED + more, reg, value) == reply;
    }
  }

  /** Every reply the register layer can see on a read, whatever byte it
      carries, is produced by the engine on some observation stream that the
      read consumes exactly. */
  lemma ReadRepliesRealizable(reg: Register, reply: Bus.Reply, more: seq<I2c.Poll>)
    ensures exists polls :: ReadReply(polls + more, reg) == reply
                            && After(polls + more, ReadOp(reg)) == more
  {
    if reply.Ack? {
      ReadAllAcked(Address(reg), reply.data, more);
      assert ReadReply(AckedRead(reply.data) + more, reg) == reply;
    } else {
      ReadRefused(Address(reg), more);
      assert ReadReply(REFUSED + more, reg) == reply;
    }
  }

  /** Every admissible reply to a transaction is produced by the engine on
      some observation stream that the transaction consumes exactly. */
  lemma ReplyRealizable(op: Op, reply: Bus.Reply, more: seq<I2c.Poll>)
    requires Admissible(op, reply)
    ensures exists polls :: Reply(polls + more, op) == reply && After(polls + more, op) == more
  {
    match op
    case WriteOp(reg, value) =>
      WriteRepliesRealizable(reg, value, reply, more);
      var polls :| WriteReply(polls + more, reg, value) == reply
                   && After(polls + more, WriteOp(reg, value)) == more;
      assert Reply(polls + more, op) == reply;
    case ReadOp(reg) =>
      ReadRepliesRealizable(reg, reply, more);
      var polls :| ReadReply(polls + more, reg) == reply
                   && After(polls + more, ReadOp(reg)) == more;
      assert Reply(polls + more, op) == reply;
  }

  /** A transaction that receives the first reply and leaves the stream on
      which the others are received puts the first reply in front. */
  lemma RepliesCons(polls: seq<I2c.Poll>, later: seq<I2c.Poll>, ops: seq<Op>, replies: seq<Bus.Reply>)
    requires |ops| == |replies| > 0
    requires Reply(polls, ops[0]) == replies[0] && After(polls, ops[0]) == later
    requires Replies(later, ops[1..]) == replies[1..]
    ensures Replies(polls, ops) == replies
  {
    assert replies == [replies[0]] + replies[1..];
  }

  /** Any admissible sequence of replies, in any order, is what the engine
      produces for the transactions run one after another on some
      observation stream. */
  lemma {:induction false} ReplySequencesRealizable(ops: seq<Op>, replies: seq<Bus.Reply>)
    requires |ops| == |replies|
    requires forall i :: 0 <= i < |ops| ==> Admissible(ops[i], replies[i])
    ensures exists polls :: Replies(polls, ops) == replies
    decreases |ops|
  {
    if |ops| == 0 {
      assert Replies([], ops) == replies;
    } else {
      ReplySequencesRealizable(ops[1..], replies[1..]);
      var later :| Replies(later, ops[1..]) == replies[1..];
      assert Admissible(ops[0], replies[0]);
      ReplyRealizable(ops[0], replies[0], later);
      var first :| Reply(first + later, ops[0]) == replies[0] && After(first + later, ops[0]) == later;
      RepliesCons(first + later, later, ops, replies);
    }
  }
}

=== FILE: autocal.dfy ===
/** Auto-calibration (User/drv2605.c:179-241 and 752-766): program the
    calibration parameters, enter auto-calibration mode, set GO, poll until
    the device clears GO or the time budget runs out, force GO back to 0,
    and read the results. */
module AutoCal {
  import opened Types
  import opened Chip
  import opened Bus
  import Device

  /** Poll budget used when the request gives a timeout of 0. */
  const DEFAULT_TIMEOUT_MS: nat := 2000

  /** Fill a request with the recommended values; nothing happens without
      a request. */
  function FillAutoCalDefaults(cfg: Option<AutoCalConfig>): (filled: Option<AutoCalConfig>)
    ensures filled.Some? <==> cfg.Some?
    ensures filled.Some? ==> filled.value.timeoutMs == DEFAULT_TIMEOUT_MS
    ensures filled.Some? ==> filled.value.ratedVoltage == 0x50 && filled.value.clampVoltage == 0x90
    ensures filled.Some? ==>
              && filled.value.control1 == 0x20 && filled.value.control2 == 0xF5
              && filled.value.control3 == 0x80 && filled.value.control4 == 0x20
              && filled.value.control5 == 0x80
  {
    if cfg.None? then None else Some(AutoCalDefaults())
  }

  /** The set-up steps, ending with GO = 1: internal-trigger mode and the
      settling delay, then the register writes. */
  function SetupPlan(cfg: AutoCalConfig): seq<Action>
  {
    [Put(ModeReg, ModeCode(IntTrig)), WaitMs(5)] + Programming(cfg) + Arming()
  }

  /** Actuator, library and calibration parameters. */
  function Programming(cfg: AutoCalConfig): seq<Action>
  {
    [ Put(Feedback, Device.FEEDBACK_LRA), Put(LibraryReg, LibraryCode(LibLra)),
      Put(RatedVoltage, cfg.ratedVoltage), Put(ClampVoltage, cfg.clampVoltage),
      Put(Control1, cfg.control1), Put(Control2, cfg.control2), Put(Control3, cfg.control3),
      Put(Control4, cfg.control4), Put(Control5, cfg.control5) ]
  }

  /** Auto-calibration mode, then GO = 1. */
  function Arming(): seq<Action>
  {
    [Put(ModeReg, ModeCode(AutoCal)), Put(Go, 1)]
  }

  /** The twelve set-up writes, in order. */
  function SetupWrites(cfg: AutoCalConfig): seq<Xfer>
  {
    [ Write(ModeReg, 0), Write(Feedback, 0xB6), Write(LibraryReg, 6),
      Write(RatedVoltage, cfg.ratedVoltage), Write(ClampVoltage, cfg.clampVoltage),
      Write(Control1, cfg.control1), Write(Control2, cfg.control2), Write(Control3, cfg.control3),
      Write(Control4, cfg.control4), Write(Control5, cfg.control5),
      Write(ModeReg, 7), Write(Go, 1) ]
  }

  lemma SetupPlanWrites(cfg: AutoCalConfig)
    ensures Writes(SetupPlan(cfg)) == SetupWrites(cfg)
    ensures |SetupWrites(cfg)| == 12
  {
    var head := [Put(ModeReg, ModeCode(IntTrig)), WaitMs(5)];
    var ws := SetupWrites(cfg);
    HeadWrites();
    ProgrammingWrites(cfg);
    ArmingWrites();
    WritesAppend(head, Programming(cfg));
    WritesAppend(head + Programming(cfg), Arming());
    assert ws == ws[..1] + ws[1..10] + ws[10..];
  }

  lemma HeadWrites()
    ensures Writes([Put(ModeReg, ModeCode(IntTrig)), WaitMs(5)]) == [Write(ModeReg, 0)]
  {
    var head := [Put(ModeReg, ModeCode(IntTrig)), WaitMs(5)];
    assert head[1..] == [WaitMs(5)];
    assert head[1..][1..] == [];
  }

  lemma ProgrammingWrites(cfg: AutoCalConfig)
    ensures Writes(Programming(cfg)) == SetupWrites(cfg)[1..10]
  {
    PutsOnly(Programming(cfg));
  }

  lemma ArmingWrites()
    ensures Writes(Arming()) == [Write(ModeReg, 7), Write(Go, 1)]
  {
    PutsOnly(Arming());
  }

  /** Whether a poll saw GO cleared: the read succeeded and bit 0 is 0. */
  predicate GoClear(reply: Reply)
  {
    reply.Ack? && reply.data % 2 == 0
  }

  /** The position of the first reply that shows GO cleared, or the number
      of replies when none does. */
  function FirstClear(replies: seq<Reply>): (c: nat)
    ensures c <= |replies|
    ensures forall i :: 0 <= i < c ==> !GoClear(replies[i])
    ensures c < |replies| ==> GoClear(replies[c])
  {
    if |replies| == 0 then 0
    else if GoClear(replies[0]) then 0
    else 1 + FirstClear(replies[1..])
  }

  /** Poll GO up to `remaining` times, 1 ms apart: success at the first
      read that succeeds with bit 0 clear; a failed read counts as a poll. */
  function PollGo(bus: Bus, remaining: nat): (d: Done)
    ensures bus.trace <= d.bus.trace
    decreases remaining
  {
    if remaining == 0 then Done(false, bus)
    else
      var r := ReadRegister(bus, Go);
      if r.value.Some? && r.value.value % 2 == 0 then Done(true, r.bus)
      else PollGo(SleepMs(r.bus, 1), remaining - 1)
  }

  /** The number of polls allowed for a timeout: the timeout, or one poll
      for a timeout of 0. */
  function PollBudget(timeoutMs: nat): (n: nat)
    ensures n >= 1
  {
    if timeoutMs == 0 then 1 else timeoutMs
  }

  /** The timeout a request asks for, with 0 meaning the default. */
  function CalTimeout(cfg: AutoCalConfig): (t: nat)
    ensures t > 0
    ensures t <= if cfg.timeoutMs == 0 then DEFAULT_TIMEOUT_MS else cfg.timeoutMs
  {
    if cfg.timeoutMs == 0 then DEFAULT_TIMEOUT_MS else cfg.timeoutMs
  }

  function WaitGoClear(bus: Bus, timeoutMs: nat): Done
  {
    PollGo(bus, PollBudget(timeoutMs))
  }

  /** `k` reads of GO. */
  function GoReads(k: nat): (ws: seq<Xfer>)
    ensures |ws| == k && forall i :: 0 <= i < k ==> ws[i] == Read(Go)
  {
    seq(k, i => Read(Go))
  }

  /** Polling succeeds exactly when one of the first `remaining` replies
      shows GO cleared. It reads GO once per poll and nothing else, up to
      and including that reply; on failure it has used up every poll. */
  lemma PollSpec(bus: Bus, remaining: nat)
    ensures var d := PollGo(bus, remaining);
            var c := FirstClear(bus.replies);
            && (d.ok <==> c < remaining && c < |bus.replies|)
            && Transfers(Added(bus, d.bus)) == GoReads(if d.ok then c + 1 else remaining)
  {
    PollOutcome(bus, remaining);
    PollTrace(bus, remaining);
  }

  lemma {:induction false} PollOutcome(bus: Bus, remaining: nat)
    ensures var c := FirstClear(bus.replies);
            PollGo(bus, remaining).ok <==> c < remaining && c < |bus.replies|
    decreases remaining
  {
    if remaining > 0 && !GoClear(NextReply(bus.replies)) {
      var next := SleepMs(ReadRegister(bus, Go).bus, 1);
      PollOutcome(next, remaining - 1);
      FirstClearStep(bus.replies);
      assert next.replies == Later(bus.replies);
    }
  }

  lemma {:induction false} PollTrace(bus: Bus, remaining: nat)
    ensures var d := PollGo(bus, remaining);
            Transfers(Added(bus, d.bus)) == GoReads(if d.ok then FirstClear(bus.replies) + 1 else remaining)
    decreases remaining
  {
    if remaining > 0 {
      if GoClear(NextReply(bus.replies)) {
        PollHit(bus, remaining);
      } else {
        PollTrace(SleepMs(ReadRegister(bus, Go).bus, 1), remaining - 1);
        PollCount(bus, remaining);
      }
    }
  }

  /** A poll that sees GO cleared ends with that one read. */
  lemma PollHit(bus: Bus, remaining: nat)
    requires remaining > 0 && GoClear(NextReply(bus.replies))
    ensures var d := PollGo(bus, remaining);
            d.ok && FirstClear(bus.replies) == 0 && Transfers(Added(bus, d.bus)) == GoReads(1)
  {
    assert Added(bus, ReadRegister(bus, Go).bus) == [Xact(Read(Go), true)];
    TransfersOne(Xact(Read(Go), true));
  }

  /** The counting step of PollTrace: one more read than the polls that
      follow. */
  lemma PollCount(bus: Bus, remaining: nat)
    requires remaining > 0 && !GoClear(NextReply(bus.replies))
    requires var next := SleepMs(ReadRegister(bus, Go).bus, 1);
             var d := PollGo(next, remaining - 1);
             Transfers(Added(next, d.bus)) == GoReads(if d.ok then FirstClear(next.replies) + 1 else remaining - 1)
    ensures var d := PollGo(bus, remaining);
            Transfers(Added(bus, d.bus)) == GoReads(if d.ok then FirstClear(bus.replies) + 1 else remaining)
  {
    var next := SleepMs(ReadRegister(bus, Go).bus, 1);
    var d := PollGo(next, remaining - 1);
    PollStep(bus, remaining);
    assert next.replies == Later(bus.replies);
    FirstClearStep(bus.replies);
    if d.ok {
      PollOutcome(next, remaining - 1);
      GoReadsCons(FirstClear(next.replies) + 1);
    } else {
      GoReadsCons(remaining - 1);
    }
  }

  /** A successful poll has used the replies up to and including the one
      that showed GO cleared. */
  lemma {:induction false} PollReplies(bus: Bus, remaining: nat)
    ensures var d := PollGo(bus, remaining);
            var c := FirstClear(bus.replies);
            d.ok ==> c < |bus.replies| && d.bus.replies == bus.replies[c + 1..]
    decreases remaining
  {
    if remaining > 0 && !GoClear(NextReply(bus.replies)) {
      var next := SleepMs(ReadRegister(bus, Go).bus, 1);
      PollReplies(next, remaining - 1);
      FirstClearStep(bus.replies);
      assert next.replies == Later(bus.replies);
    }
  }

  /** Past a reply that does not show GO cleared, the first one that does
      is one position further. */
  lemma FirstClearStep(replies: seq<Reply>)
    requires !GoClear(NextReply(replies))
    ensures |replies| > 0 ==> FirstClear(replies) == 1 + FirstClear(Later(replies))
    ensures |replies| == 0 ==> FirstClear(replies) == 0 && Later(replies) == []
  {
  }

  lemma GoReadsCons(k: nat)
    ensures GoReads(k + 1) == [Read(Go)] + GoReads(k)
  {
  }

  /** A poll that does not see GO cleared adds one read of GO (and a delay)
      before the remaining polls. */
  lemma PollStep(bus: Bus, remaining: nat)
    requires remaining > 0
    requires !GoClear(NextReply(bus.replies))
    ensures var next := SleepMs(ReadRegister(bus, Go).bus, 1);
            var d := PollGo(next, remaining - 1);
            && PollGo(bus, remaining) == d
            && Transfers(Added(bus, d.bus)) == [Read(Go)] + Transfers(Added(next, d.bus))
  {
    var r := ReadRegister(bus, Go);
    var next := SleepMs(r.bus, 1);
    var d := PollGo(next, remaining - 1);
    var head := [Xact(Read(Go), r.value.Some?), DelayMs(1)];
    TransfersChain(bus, next, d.bus);
    assert Added(bus, next) == head;
    TransfersPairOne(Read(Go), r.value.Some?, 1);
  }

  /** The outcome of auto-calibration: success, the bus, and the caller's
      result record as far as it was filled in (absent when none was
      given). */
  datatype Calibrated = Calibrated(ok: bool, bus: Bus, result: Option<AutoCalResult>)

  /** The five result registers that must be read. */
  function FieldReg(j: nat): Register
    requires j < 5
  {
    if j == 0 then Status
    else if j == 1 then AutoCalComp
    else if j == 2 then AutoCalBackEmf
    else if j == 3 then RatedVoltage
    else ClampVoltage
  }

  /** The result field a required register is stored in. */
  function Field(r: AutoCalResult, j: nat): byte
    requires j < 5
  {
    if j == 0 then r.status
    else if j == 1 then r.compensation
    else if j == 2 then r.backEmf
    else if j == 3 then r.ratedVoltage
    else r.clampVoltage
  }

  function WithField(r: AutoCalResult, j: nat, v: byte): (r': AutoCalResult)
    requires j < 5
    ensures Field(r', j) == v
    ensures forall i :: 0 <= i < 5 && i != j ==> Field(r', i) == Field(r, i)
    ensures r'.vbatRaw == r.vbatRaw && r'.lraResonance == r.lraResonance
  {
    if j == 0 then r.(status := v)
    else if j == 1 then r.(compensation := v)
    else if j == 2 then r.(backEmf := v)
    else if j == 3 then r.(ratedVoltage := v)
    else r.(clampVoltage := v)
  }

  /** Read required fields j..4 in order, each into its field as soon as it
      arrives, stopping at the first failed read. */
  function ReadFields(bus: Bus, r: AutoCalResult, j: nat): (c: Calibrated)
    requires j <= 5
    ensures c.result.Some?
    ensures bus.trace <= c.bus.trace
    decreases 5 - j
  {
    if j == 5 then Calibrated(true, bus, Some(r))
    else
      var g := ReadRegister(bus, FieldReg(j));
      match g.value
      case None => Calibrated(false, g.bus, Some(r))
      case Some(v) => ReadFields(g.bus, WithField(r, j, v), j + 1)
  }

  /** Reading the required fields from position j succeeds exactly when the
      next 5 - j reads are acknowledged. Each field read before the first
      failure holds the byte received; the others, and the optional
      fields, keep their previous contents. */
  lemma {:induction false} ReadFieldsSpec(bus: Bus, r: AutoCalResult, j: nat, i: nat)
    requires j <= 5 && j <= i < 5
    ensures var c := ReadFields(bus, r, j);
            var acks := AckRun(bus.replies);
            && (c.ok <==> acks >= 5 - j)
            && Field(c.result.value, i) == (if acks > i - j then bus.replies[i - j].data else Field(r, i))
            && c.result.value.vbatRaw == r.vbatRaw && c.result.value.lraResonance == r.lraResonance
    decreases 5 - j
  {
    var g := ReadRegister(bus, FieldReg(j));
    if g.value.Some? {
      var r' := WithField(r, j, g.value.value);
      assert g.bus.replies == bus.replies[1..];
      if i == j {
        ReadFieldsHere(bus, r, j);
      } else {
        ReadFieldsSpec(g.bus, r', j + 1, i);
      }
    }
  }

  /** The field at position j holds the first reply when that read
      succeeds, and the outcome of the whole sequence is decided by the
      acknowledged replies. */
  lemma ReadFieldsHere(bus: Bus, r: AutoCalResult, j: nat)
    requires j < 5 && NextReply(bus.replies).Ack?
    ensures var c := ReadFields(bus, r, j);
            && Field(c.result.value, j) == bus.replies[0].data
            && (c.ok <==> AckRun(bus.replies) >= 5 - j)
            && c.result.value.vbatRaw == r.vbatRaw && c.result.value.lraResonance == r.lraResonance
  {
    var g := ReadRegister(bus, FieldReg(j));
    var r' := WithField(r, j, g.value.value);
    assert g.bus.replies == bus.replies[1..];
    KeepsField(g.bus, r', j + 1, j);
    ReadFieldsOutcome(g.bus, r', j + 1);
  }

  /** Reading fields from position j succeeds exactly when the next 5 - j
      reads are acknowledged, and never touches the optional fields. */
  lemma {:induction false} ReadFieldsOutcome(bus: Bus, r: AutoCalResult, j: nat)
    requires j <= 5
    ensures var c := ReadFields(bus, r, j);
            && (c.ok <==> AckRun(bus.replies) >= 5 - j)
            && c.result.value.vbatRaw == r.vbatRaw && c.result.value.lraResonance == r.lraResonance
    decreases 5 - j
  {
    if j < 5 {
      var g := ReadRegister(bus, FieldReg(j));
      if g.value.Some? {
        assert g.bus.replies == bus.replies[1..];
        ReadFieldsOutcome(g.bus, WithField(r, j, g.value.value), j + 1);
      }
    }
  }

  /** Fields before position j are never read again. */
  lemma {:induction false} KeepsField(bus: Bus, r: AutoCalResult, j: nat, i: nat)
    requires j <= 5 && i < j && i < 5
    ensures Field(ReadFields(bus, r, j).result.value, i) == Field(r, i)
    decreases 5 - j
  {
    if j < 5 {
      var g := ReadRegister(bus, FieldReg(j));
      if g.value.Some? {
        KeepsField(g.bus, WithField(r, j, g.value.value), j + 1, i);
      }
    }
  }

  /** The reads of the required fields j..j+n-1, in order. */
  function FieldReads(j: nat, n: nat): (ws: seq<Xfer>)
    requires j + n <= 5
    ensures |ws| == n && forall i :: 0 <= i < n ==> ws[i] == Read(FieldReg(j + i))
  {
    seq(n, i requires 0 <= i < n => Read(FieldReg(j + i)))
  }

  lemma FieldReadsCons(j: nat, n: nat)
    requires j + n < 5
    ensures FieldReads(j, n + 1) == [Read(FieldReg(j))] + FieldReads(j + 1, n)
  {
  }

  /** Reading fields from position j reads each of them once, in order, up
      to and including the first failed read. */
  lemma {:induction false} ReadFieldsTrace(bus: Bus, r: AutoCalResult, j: nat)
    requires j <= 5
    ensures var c := ReadFields(bus, r, j);
            Transfers(Added(bus, c.bus)) == FieldReads(j, Min(AckRun(bus.replies) + 1, 5 - j))
    decreases 5 - j
  {
    if j < 5 {
      var g := ReadRegister(bus, FieldReg(j));
      if g.value.Some? {
        var r' := WithField(r, j, g.value.value);
        ReadFieldsTrace(g.bus, r', j + 1);
        ReadFieldsStep(bus, r, j);
      }
    }
  }

  /** A successful first read adds its transfer in front of those of the
      remaining fields. */
  lemma ReadFieldsStep(bus: Bus, r: AutoCalResult, j: nat)
    requires j < 5 && NextReply(bus.replies).Ack?
    requires var g := ReadRegister(bus, FieldReg(j));
             var c := ReadFields(g.bus, WithField(r, j, g.value.value), j + 1);
             Transfers(Added(g.bus, c.bus)) == FieldReads(j + 1, Min(AckRun(g.bus.replies) + 1, 5 - j - 1))
    ensures Transfers(Added(bus, ReadFields(bus, r, j).bus)) == FieldReads(j, Min(AckRun(bus.replies) + 1, 5 - j))
  {
    var g := ReadRegister(bus, FieldReg(j));
    var c := ReadFields(g.bus, WithField(r, j, g.value.value), j + 1);
    var m := Min(AckRun(g.bus.replies) + 1, 5 - j - 1);
    assert ReadFields(bus, r, j) == c;
    assert g.bus.replies == bus.replies[1..];
    assert Min(AckRun(bus.replies) + 1, 5 - j) == m + 1;
    assert Added(bus, g.bus) == [Xact(Read(FieldReg(j)), true)];
    TransfersOne(Xact(Read(FieldReg(j)), true));
    TransfersChain(bus, g.bus, c.bus);
    FieldReadsCons(j, m);
  }

  /** Successful field reads use exactly one reply per field. */
  lemma {:induction false} ReadFieldsReplies(bus: Bus, r: AutoCalResult, j: nat)
    requires j <= 5
    ensures var c := ReadFields(bus, r, j);
            c.ok ==> |bus.replies| >= 5 - j && c.bus.replies == bus.replies[5 - j..]
    decreases 5 - j
  {
    if j < 5 {
      var g := ReadRegister(bus, FieldReg(j));
      if g.value.Some? {
        assert g.bus.replies == bus.replies[1..];
        ReadFieldsReplies(g.bus, WithField(r, j, g.value.value), j + 1);
      }
    }
  }

  /** The seven result reads, in order: the five required fields, then
      battery and resonance. */
  function ResultReads(): seq<Xfer>
  {
    [ Read(Status), Read(AutoCalComp), Read(AutoCalBackEmf), Read(RatedVoltage), Read(ClampVoltage),
      Read(Vbat), Read(LraResonance) ]
  }

  /** Battery and resonance are read on a best-effort basis: each is set
      to 0 first and overwritten only by a successful read. */
  function ReadOptional(bus: Bus, r: AutoCalResult): (c: Calibrated)
    ensures c.ok && c.result.Some?
    ensures var first := NextReply(bus.replies);
            var second := NextReply(Later(bus.replies));
            && c.result.value == r.(vbatRaw := if first.Ack? then first.data else 0,
                                    lraResonance := if second.Ack? then second.data else 0)
            && c.bus.trace == bus.trace + [Xact(Read(Vbat), first.Ack?), Xact(Read(LraResonance), second.Ack?)]
  {
    var cleared := r.(vbatRaw := 0, lraResonance := 0);
    var vbat := Device.Get(bus, Device.VbatReading);
    var withVbat := if vbat.value.Some? then cleared.(vbatRaw := vbat.value.value) else cleared;
    var lra := Device.Get(vbat.bus, Device.ResonanceReading);
    var withLra := if lra.value.Some? then withVbat.(lraResonance := lra.value.value) else withVbat;
    Calibrated(true, lra.bus, Some(withLra))
  }

  /** Read the results after a successful calibration. */
  function ReadResults(bus: Bus, r: AutoCalResult): (c: Calibrated)
    ensures c.result.Some?
    ensures bus.trace <= c.bus.trace
  {
    var f := ReadFields(bus, r, 0);
    if !f.ok then f else ReadOptional(f.bus, f.result.value)
  }

  /** Reading the results succeeds exactly when the five required reads
      are acknowledged. Each required field read before the first failure
      holds the byte received and the others keep their contents; battery
      and resonance are read only after all five, each reset to 0 and
      overwritten by a successful read, and are left alone on failure. */
  lemma ReadResultsSpec(bus: Bus, r: AutoCalResult)
    ensures var c := ReadResults(bus, r);
            var acks := AckRun(bus.replies);
            && (c.ok <==> acks >= 5)
            && (forall i :: 0 <= i < 5 ==>
                  Field(c.result.value, i) == if acks > i then bus.replies[i].data else Field(r, i))
            && (c.ok ==> var more := bus.replies[5..];
                         && c.result.value.vbatRaw == (if NextReply(more).Ack? then NextReply(more).data else 0)
                         && c.result.value.lraResonance
                            == (if NextReply(Later(more)).Ack? then NextReply(Later(more)).data else 0))
            && (!c.ok ==> c.result.value.vbatRaw == r.vbatRaw && c.result.value.lraResonance == r.lraResonance)
  {
    var f := ReadFields(bus, r, 0);
    ReadFieldsOutcome(bus, r, 0);
    ReadFieldsReplies(bus, r, 0);
    forall i | 0 <= i < 5
      ensures Field(f.result.value, i)
              == if AckRun(bus.replies) > i then bus.replies[i].data else Field(r, i)
    {
      ReadFieldsSpec(bus, r, 0, i);
    }
  }

  /** Reading the results reads the five required fields in order up to
      the first failure, and after all five the battery and resonance. */
  lemma ReadResultsTrace(bus: Bus, r: AutoCalResult)
    ensures var c := ReadResults(bus, r);
            Transfers(Added(bus, c.bus)) == ResultReads()[..if c.ok then 7 else Min(AckRun(bus.replies) + 1, 5)]
  {
    ReadFieldsOutcome(bus, r, 0);
    ReadFieldsTrace(bus, r, 0);
    if ReadFields(bus, r, 0).ok {
      OptionalTrace(bus, r);
    } else {
      RequiredReads(AckRun(bus.replies) + 1);
    }
  }

  /** The first n result reads are the required-field reads. */
  lemma RequiredReads(n: nat)
    requires n <= 5
    ensures ResultReads()[..n] == FieldReads(0, n)
  {
  }

  /** The best-effort part reads battery, then resonance. */
  lemma OptionalReads(bus: Bus, r: AutoCalResult)
    ensures Transfers(Added(bus, ReadOptional(bus, r).bus)) == [Read(Vbat), Read(LraResonance)]
  {
    var c := ReadOptional(bus, r);
    assert Added(bus, c.bus) == [Xact(Read(Vbat), NextReply(bus.replies).Ack?),
                                 Xact(Read(LraResonance), NextReply(Later(bus.replies)).Ack?)];
    TransfersPair(Read(Vbat), NextReply(bus.replies).Ack?, Read(LraResonance), NextReply(Later(bus.replies)).Ack?);
  }

  /** After all five required reads, battery and resonance are read. */
  lemma OptionalTrace(bus: Bus, r: AutoCalResult)
    requires ReadFields(bus, r, 0).ok
    requires Transfers(Added(bus, ReadFields(bus, r, 0).bus)) == FieldReads(0, 5)
    ensures Transfers(Added(bus, ReadResults(bus, r).bus)) == ResultReads()
  {
    var f := ReadFields(bus, r, 0);
    var c := ReadResults(bus, r);
    TransfersChain(bus, f.bus, c.bus);
    OptionalReads(f.bus, f.result.value);
    RequiredReads(5);
    assert ResultReads() == ResultReads()[..5] + [Read(Vbat), Read(LraResonance)];
  }

  /** Run auto-calibration. A missing request is refused with no traffic.
      A failure while setting up, including setting GO, ends the call at
      once with no STOP. Otherwise the rest is Finish. */
  function RunAutoCalibration(bus: Bus, cfg: Option<AutoCalConfig>, result: Option<AutoCalResult>): (c: Calibrated)
    ensures cfg.None? ==> c == Calibrated(false, bus, result)
    ensures bus.trace <= c.bus.trace
    ensures result.None? ==> c.result.None?
  {
    match cfg
    case None => Calibrated(false, bus, result)
    case Some(k) =>
      var setup := Run(bus, SetupPlan(k));
      if !setup.ok then Calibrated(false, setup.bus, result)
      else Finish(setup.bus, k, result)
  }

  /** Once GO = 1 was acknowledged: GO is polled and then written back to 0
      whatever the polling gave (that write's outcome is ignored); a
      timeout then fails the call. Otherwise the results are read into the
      caller's record, when there is one. */
  function Finish(bus: Bus, cfg: AutoCalConfig, result: Option<AutoCalResult>): (c: Calibrated)
    ensures bus.trace <= c.bus.trace
    ensures result.None? ==> c.result.None?
  {
    var waited := WaitGoClear(bus, CalTimeout(cfg));
    var stopped := Device.Stop(waited.bus);
    if !waited.ok then Calibrated(false, stopped.bus, result)
    else
      match result
      case None => Calibrated(true, stopped.bus, None)
      case Some(r) => ReadResults(stopped.bus, r)
  }

  /** Whether polling sees GO cleared within the budget: `rest` are the
      replies left for polling. */
  predicate Cleared(rest: seq<Reply>, cfg: AutoCalConfig)
  {
    var c := FirstClear(rest);
    c < PollBudget(CalTimeout(cfg)) && c < |rest|
  }

  /** The number of GO reads polling makes on the replies `rest`. */
  function Polls(rest: seq<Reply>, cfg: AutoCalConfig): (n: nat)
    ensures 1 <= n <= CalTimeout(cfg)
  {
    if Cleared(rest, cfg) then FirstClear(rest) + 1 else PollBudget(CalTimeout(cfg))
  }

  /** The replies left for the result reads: those after the one that
      showed GO cleared and the one STOP used. */
  function AfterStop(rest: seq<Reply>): seq<Reply>
  {
    var c := FirstClear(rest);
    if c < |rest| then Later(rest[c + 1..]) else []
  }

  /** The traffic after GO = 1: the polls, then the forced STOP. */
  function PollsAndStop(rest: seq<Reply>, cfg: AutoCalConfig): seq<Xfer>
  {
    GoReads(Polls(rest, cfg)) + [Write(Go, 0)]
  }

  /** The traffic up to and including the forced STOP. */
  function UpToStop(rest: seq<Reply>, cfg: AutoCalConfig): seq<Xfer>
  {
    SetupWrites(cfg) + PollsAndStop(rest, cfg)
  }

  /** With the set-up writes acknowledged, set-up succeeds, writes the
      twelve set-up registers and uses one reply per write; the call then
      goes on to Finish. */
  lemma SetupAcked(bus: Bus, cfg: AutoCalConfig, result: Option<AutoCalResult>)
    requires AckRun(bus.replies) >= 12
    ensures var setup := Run(bus, SetupPlan(cfg));
            && setup.ok
            && setup.bus.replies == bus.replies[12..]
            && Transfers(Added(bus, setup.bus)) == SetupWrites(cfg)
            && RunAutoCalibration(bus, Some(cfg), result) == Finish(setup.bus, cfg, result)
  {
    SetupPlanWrites(cfg);
    RunOutcome(bus, SetupPlan(cfg));
    RunReplies(bus, SetupPlan(cfg));
    RunTransfers(bus, SetupPlan(cfg));
  }

  /** Polling with a request's timeout, in terms of Cleared and Polls. */
  lemma Polled(bus: Bus, cfg: AutoCalConfig)
    ensures var waited := WaitGoClear(bus, CalTimeout(cfg));
            && (waited.ok <==> Cleared(bus.replies, cfg))
            && Transfers(Added(bus, waited.bus)) == GoReads(Polls(bus.replies, cfg))
            && (waited.ok ==> Later(waited.bus.replies) == AfterStop(bus.replies))
  {
    PollSpec(bus, PollBudget(CalTimeout(cfg)));
    PollReplies(bus, PollBudget(CalTimeout(cfg)));
  }

  /** STOP is a single write of GO = 0. */
  lemma StopWrites(bus: Bus)
    ensures Transfers(Added(bus, Device.Stop(bus).bus)) == [Write(Go, 0)]
  {
    var stopped := Device.Stop(bus);
    assert Added(bus, stopped.bus) == [Xact(Write(Go, 0), stopped.ok)];
    TransfersOne(Xact(Write(Go, 0), stopped.ok));
  }

  /** After GO = 1: the polls, then STOP; the result reads, if any, get the
      replies after those. */
  lemma FinishStop(bus: Bus, cfg: AutoCalConfig)
    ensures var waited := WaitGoClear(bus, CalTimeout(cfg));
            var stopped := Device.Stop(waited.bus);
            && (waited.ok <==> Cleared(bus.replies, cfg))
            && Transfers(Added(bus, stopped.bus)) == PollsAndStop(bus.replies, cfg)
            && (waited.ok ==> stopped.bus.replies == AfterStop(bus.replies))
  {
    var waited := WaitGoClear(bus, CalTimeout(cfg));
    Polled(bus, cfg);
    StopWrites(waited.bus);
    TransfersChain(bus, waited.bus, Device.Stop(waited.bus).bus);
  }

  /** After GO = 1, a timeout or a missing record ends the call at the STOP. */
  lemma FinishEndsAtStop(bus: Bus, cfg: AutoCalConfig, result: Option<AutoCalResult>)
    requires !Cleared(bus.replies, cfg) || result.None?
    ensures var c := Finish(bus, cfg, result);
            && (c.ok <==> Cleared(bus.replies, cfg))
            && c.result == (if c.ok then None else result)
            && Transfers(Added(bus, c.bus)) == PollsAndStop(bus.replies, cfg)
  {
    FinishStop(bus, cfg);
  }

  /** After GO = 1, with GO cleared in time and a record given, the results
      are read from the replies after the STOP. */
  lemma FinishReads(bus: Bus, cfg: AutoCalConfig, r: AutoCalResult)
    requires Cleared(bus.replies, cfg)
    ensures var waited := WaitGoClear(bus, CalTimeout(cfg));
            var stopped := Device.Stop(waited.bus);
            && stopped.bus.replies == AfterStop(bus.replies)
            && Finish(bus, cfg, Some(r)) == ReadResults(stopped.bus, r)
            && Transfers(Added(bus, stopped.bus)) == PollsAndStop(bus.replies, cfg)
  {
    FinishStop(bus, cfg);
  }

  /** A failure while setting up, up to and including the write of GO = 1,
      fails the call with no STOP: the set-up writes are attempted in order
      up to the first unacknowledged one and nothing follows. */
  lemma AutoCalNoStopBeforeGo(bus: Bus, cfg: AutoCalConfig, result: Option<AutoCalResult>)
    requires AckRun(bus.replies) < 12
    ensures var c := RunAutoCalibration(bus, Some(cfg), result);
            && !c.ok && c.result == result
            && Transfers(Added(bus, c.bus)) == SetupWrites(cfg)[..AckRun(bus.replies) + 1]
            && Write(Go, 0) !in Transfers(Added(bus, c.bus))
  {
    SetupPlanWrites(cfg);
    RunOutcome(bus, SetupPlan(cfg));
    RunTransfers(bus, SetupPlan(cfg));
    assert Write(Go, 0) !in SetupWrites(cfg);
  }

  /** Once GO = 1 is acknowledged, GO is polled at most the timeout's
      number of times (2000 for a timeout of 0), 1 ms apart, and then
      written back to 0 whatever the polling gave. A timeout fails the call
      there, leaving the caller's record alone; without a record, a cleared
      GO ends the call successfully there. */
  lemma AutoCalStopsAfterGo(bus: Bus, cfg: AutoCalConfig, result: Option<AutoCalResult>)
    requires AckRun(bus.replies) >= 12
    ensures var c := RunAutoCalibration(bus, Some(cfg), result);
            var rest := bus.replies[12..];
            && UpToStop(rest, cfg) <= Transfers(Added(bus, c.bus))
            && (!Cleared(rest, cfg) ==>
                  !c.ok && c.result == result && Transfers(Added(bus, c.bus)) == UpToStop(rest, cfg))
            && (Cleared(rest, cfg) && result.None? ==>
                  c.ok && c.result.None? && Transfers(Added(bus, c.bus)) == UpToStop(rest, cfg))
  {
    var setup := Run(bus, SetupPlan(cfg));
    var waited := WaitGoClear(setup.bus, CalTimeout(cfg));
    var stopped := Device.Stop(waited.bus);
    var c := Finish(setup.bus, cfg, result);
    SetupAcked(bus, cfg, result);
    FinishStop(setup.bus, cfg);
    TransfersChain(bus, setup.bus, stopped.bus);
    TransfersChain(bus, stopped.bus, c.bus);
    if !Cleared(setup.bus.replies, cfg) || result.None? {
      FinishEndsAtStop(setup.bus, cfg, result);
    }
  }

  /** A request filled with the recommended values, once its set-up writes
      are acknowledged, opens with these twelve register writes: stop,
      LRA feedback, the LRA library, rated voltage 0x50, clamp 0x90, the
      five control words, auto-calibration mode and GO. */
  lemma DefaultSetupTraffic(bus: Bus, request: AutoCalConfig, result: Option<AutoCalResult>)
    requires AckRun(bus.replies) >= 12
    ensures var filled := FillAutoCalDefaults(Some(request));
            var c := RunAutoCalibration(bus, filled, result);
            && |Transfers(Added(bus, c.bus))| >= 12
            && Transfers(Added(bus, c.bus))[..12]
               == [ Write(ModeReg, 0), Write(Feedback, 0xB6), Write(LibraryReg, 6),
                    Write(RatedVoltage, 0x50), Write(ClampVoltage, 0x90),
                    Write(Control1, 0x20), Write(Control2, 0xF5), Write(Control3, 0x80),
                    Write(Control4, 0x20), Write(Control5, 0x80),
                    Write(ModeReg, 7), Write(Go, 1) ]
  {
    var cfg := AutoCalDefaults();
    var c := RunAutoCalibration(bus, Some(cfg), result);
    AutoCalStopsAfterGo(bus, cfg, result);
    var up := UpToStop(bus.replies[12..], cfg);
    assert up[..12] == SetupWrites(cfg);
  }

  /** When GO clears in time and the caller gave a record, the results are
      read from the replies after the STOP: the call succeeds exactly when
      the five required reads are acknowledged, each required field read
      before a failure holds the byte received, and on success battery and
      resonance hold their best-effort readings. */
  lemma AutoCalReadsResults(bus: Bus, cfg: AutoCalConfig, r: AutoCalResult)
    requires AckRun(bus.replies) >= 12 && Cleared(bus.replies[12..], cfg)
    ensures var c := RunAutoCalibration(bus, Some(cfg), Some(r));
            var after := AfterStop(bus.replies[12..]);
            var acks := AckRun(after);
            && c.result.Some?
            && (c.ok <==> acks >= 5)
            && (forall i :: 0 <= i < 5 ==>
                  Field(c.result.value, i) == if acks > i then after[i].data else Field(r, i))
            && (c.ok ==> var more := after[5..];
                         && c.result.value.vbatRaw == (if NextReply(more).Ack? then NextReply(more).data else 0)
                         && c.result.value.lraResonance
                            == (if NextReply(Later(more)).Ack? then NextReply(Later(more)).data else 0))
  {
    var setup := Run(bus, SetupPlan(cfg));
    var waited := WaitGoClear(setup.bus, CalTimeout(cfg));
    var stopped := Device.Stop(waited.bus);
    SetupAcked(bus, cfg, Some(r));
    FinishReads(setup.bus, cfg, r);
    ReadResultsSpec(stopped.bus, r);
  }

  /** When GO clears in time and the caller gave a record, the result
      reads follow the STOP: the required fields up to the first failure,
      and after all five the battery and resonance. */
  lemma AutoCalResultsTrace(bus: Bus, cfg: AutoCalConfig, r: AutoCalResult)
    requires AckRun(bus.replies) >= 12 && Cleared(bus.replies[12..], cfg)
    ensures var c := RunAutoCalibration(bus, Some(cfg), Some(r));
            var rest := bus.replies[12..];
            var acks := AckRun(AfterStop(rest));
            Transfers(Added(bus, c.bus)) == UpToStop(rest, cfg) + ResultReads()[..if c.ok then 7 else Min(acks + 1, 5)]
  {
    var setup := Run(bus, SetupPlan(cfg));
    var waited := WaitGoClear(setup.bus, CalTimeout(cfg));
    var stopped := Device.Stop(waited.bus);
    var c := ReadResults(stopped.bus, r);
    SetupAcked(bus, cfg, Some(r));
    FinishReads(setup.bus, cfg, r);
    ReadResultsTrace(stopped.bus, r);
    TransfersChain3(bus, setup.bus, stopped.bus, c.bus, SetupWrites(cfg),
                    PollsAndStop(setup.bus.replies, cfg),
                    ResultReads()[..if c.ok then 7 else Min(AckRun(stopped.bus.replies) + 1, 5)]);
  }
}

=== FILE: bus.dfy ===
/** The register-access layer of the driver (User/drv2605.c:47-60): one
    register write or one single-byte register read per I2C transaction.

    Whether a transaction succeeds is not decided here: the bus carries an
    injected sequence of replies, one per transaction, and running out of
    replies reads as a failed transaction. Every transaction and every delay
    is appended to a trace, which is the observable effect of the driver. */
module Bus {
  import opened Types
  import opened Chip

  /** The outcome of one transaction: acknowledged (with the byte read, for
      a read) or failed. */
  datatype Reply = Ack(data: byte) | Nak

  /** What a transaction does. */
  datatype Xfer = Write(reg: Register, value: byte) | Read(reg: Register)

  /** One entry of the trace: a transaction with its outcome, or a delay. */
  datatype Entry = Xact(xfer: Xfer, ok: bool) | DelayMs(ms: nat) | DelayUs(us: nat)

  datatype Bus = Bus(replies: seq<Reply>, trace: seq<Entry>)

  /** The result of an operation that only reports success. */
  datatype Done = Done(ok: bool, bus: Bus)

  /** The result of an operation that produces a value on success. */
  datatype Got<T> = Got(value: Option<T>, bus: Bus)

  /** The trace entries an operation added. */
  function Added(before: Bus, after: Bus): seq<Entry>
    requires |before.trace| <= |after.trace|
  {
    after.trace[|before.trace|..]
  }

  /** The reply the next transaction receives. */
  function NextReply(replies: seq<Reply>): Reply
  {
    if |replies| == 0 then Nak else replies[0]
  }

  /** The replies left after one transaction. */
  function Later(replies: seq<Reply>): seq<Reply>
  {
    if |replies| == 0 then [] else replies[1..]
  }

  /** Write `value` to `reg` in one transaction. */
  function WriteRegister(bus: Bus, reg: Register, value: byte): (d: Done)
    ensures d.ok <==> NextReply(bus.replies).Ack?
    ensures d.bus == Bus(Later(bus.replies), bus.trace + [Xact(Write(reg, value), d.ok)])
  {
    var ok := NextReply(bus.replies).Ack?;
    Done(ok, Bus(Later(bus.replies), bus.trace + [Xact(Write(reg, value), ok)]))
  }

  /** Read one byte from `reg` in one transaction; the byte is only
      delivered when the transaction succeeds. */
  function ReadRegister(bus: Bus, reg: Register): (g: Got<byte>)
    ensures g.value.Some? <==> NextReply(bus.replies).Ack?
    ensures g.value.Some? ==> g.value.value == NextReply(bus.replies).data
    ensures g.bus == Bus(Later(bus.replies), bus.trace + [Xact(Read(reg), g.value.Some?)])
  {
    match NextReply(bus.replies)
    case Ack(data) => Got(Some(data), Bus(Later(bus.replies), bus.trace + [Xact(Read(reg), true)]))
    case Nak => Got(None, Bus(Later(bus.replies), bus.trace + [Xact(Read(reg), false)]))
  }

  /** A blocking delay in milliseconds; it only shows in the trace. */
  function SleepMs(bus: Bus, ms: nat): Bus
  {
    Bus(bus.replies, bus.trace + [DelayMs(ms)])
  }

  /** A blocking delay in microseconds; it only shows in the trace. */
  function SleepUs(bus: Bus, us: nat): Bus
  {
    Bus(bus.replies, bus.trace + [DelayUs(us)])
  }

  // ---------------------------------------------------------------------
  // Fixed sequences of writes that abort on the first failure
  // ---------------------------------------------------------------------

  /** One step of a fixed sequence. */
  datatype Action = Put(reg: Register, value: byte) | WaitMs(ms: nat) | WaitUs(us: nat)

  /** Perform `plan` step by step and stop at the first failed write,
      reporting failure; succeed when every write succeeded. */
  function Run(bus: Bus, plan: seq<Action>): (d: Done)
    ensures bus.trace <= d.bus.trace
    decreases |plan|
  {
    if |plan| == 0 then Done(true, bus)
    else
      match plan[0]
      case Put(reg, value) =>
        var w := WriteRegister(bus, reg, value);
        if !w.ok then w else Run(w.bus, plan[1..])
      case WaitMs(ms) => Run(SleepMs(bus, ms), plan[1..])
      case WaitUs(us) => Run(SleepUs(bus, us), plan[1..])
  }

  /** The number of leading acknowledged replies. */
  function AckRun(replies: seq<Reply>): (n: nat)
    ensures n <= |replies|
    ensures forall i :: 0 <= i < n ==> replies[i].Ack?
    ensures n < |replies| ==> replies[n].Nak?
  {
    if |replies| == 0 || replies[0].Nak? then 0 else 1 + AckRun(replies[1..])
  }

  /** The writes of a plan, in order. */
  function Writes(plan: seq<Action>): seq<Xfer>
  {
    if |plan| == 0 then []
    else if plan[0].Put? then [Write(plan[0].reg, plan[0].value)] + Writes(plan[1..])
    else Writes(plan[1..])
  }

  /** The trace a plan leaves when exactly the next `acks` transactions are
      acknowledged: every step up to and including the first unacknowledged
      write, then nothing. */
  function Script(plan: seq<Action>, acks: nat): seq<Entry>
    decreases |plan|
  {
    if |plan| == 0 then []
    else
      match plan[0]
      case Put(reg, value) =>
        if acks == 0 then [Xact(Write(reg, value), false)]
        else [Xact(Write(reg, value), true)] + Script(plan[1..], acks - 1)
      case WaitMs(ms) => [DelayMs(ms)] + Script(plan[1..], acks)
      case WaitUs(us) => [DelayUs(us)] + Script(plan[1..], acks)
  }

  /** The replies left after `n` transactions. */
  function Skip(replies: seq<Reply>, n: nat): seq<Reply>
  {
    if n >= |replies| then [] else replies[n..]
  }

  /** A plan succeeds exactly when enough replies are acknowledged to cover
      all its writes; its trace is the script for that many acknowledgements,
      and it consumes one reply per write attempted. */
  lemma RunSpec(bus: Bus, plan: seq<Action>)
    ensures var d := Run(bus, plan);
            var acks := AckRun(bus.replies);
            && (d.ok <==> acks >= |Writes(plan)|)
            && d.bus.trace == bus.trace + Script(plan, acks)
            && d.bus.replies == Skip(bus.replies, Min(acks + 1, |Writes(plan)|))
  {
    RunOutcome(bus, plan);
    RunTrace(bus, plan);
    RunReplies(bus, plan);
  }

  lemma {:induction false} RunOutcome(bus: Bus, plan: seq<Action>)
    ensures Run(bus, plan).ok <==> AckRun(bus.replies) >= |Writes(plan)|
    decreases |plan|
  {
    if |plan| > 0 {
      match plan[0]
      case Put(reg, value) =>
        var w := WriteRegister(bus, reg, value);
        if w.ok {
          RunOutcome(w.bus, plan[1..]);
        }
      case WaitMs(ms) =>
        RunOutcome(SleepMs(bus, ms), plan[1..]);
      case WaitUs(us) =>
        RunOutcome(SleepUs(bus, us), plan[1..]);
    }
  }

  lemma {:induction false} RunTrace(bus: Bus, plan: seq<Action>)
    ensures Run(bus, plan).bus.trace == bus.trace + Script(plan, AckRun(bus.replies))
    decreases |plan|
  {
    if |plan| > 0 {
      match plan[0]
      case Put(reg, value) =>
        var w := WriteRegister(bus, reg, value);
        if w.ok {
          RunTrace(w.bus, plan[1..]);
        }
      case WaitMs(ms) =>
        RunTrace(SleepMs(bus, ms), plan[1..]);
      case WaitUs(us) =>
        RunTrace(SleepUs(bus, us), plan[1..]);
    }
  }

  lemma {:induction false} RunReplies(bus: Bus, plan: seq<Action>)
    ensures Run(bus, plan).bus.replies == Skip(bus.replies, Min(AckRun(bus.replies) + 1, |Writes(plan)|))
    decreases |plan|
  {
    if |plan| > 0 {
      var acks := AckRun(bus.replies);
      match plan[0]
      case Put(reg, value) =>
        var w := WriteRegister(bus, reg, value);
        if w.ok {
          RunReplies(w.bus, plan[1..]);
          SkipLater(bus.replies, Min(acks, |Writes(plan[1..])|));
        }
      case WaitMs(ms) =>
        RunReplies(SleepMs(bus, ms), plan[1..]);
      case WaitUs(us) =>
        RunReplies(SleepUs(bus, us), plan[1..]);
    }
  }

  /** Skipping past one transaction and then `k` more is skipping `k + 1`. */
  lemma SkipLater(replies: seq<Reply>, k: nat)
    ensures Skip(Later(replies), k) == Skip(replies, k + 1)
  {
    if |replies| > 0 && k + 1 < |replies| {
      assert replies[1..][k..] == replies[k + 1..];
    }
  }

  /** Running two plans one after the other is running their concatenation,
      as long as the first one succeeded. */
  lemma {:induction false} RunAppend(bus: Bus, p: seq<Action>, q: seq<Action>)
    ensures var first := Run(bus, p);
            Run(bus, p + q) == if first.ok then Run(first.bus, q) else first
    decreases |p|
  {
    if |p| == 0 {
      assert p + q == q;
    } else {
      assert (p + q)[0] == p[0];
      assert (p + q)[1..] == p[1..] + q;
      match p[0]
      case Put(reg, value) =>
        var w := WriteRegister(bus, reg, value);
        if w.ok {
          RunAppend(w.bus, p[1..], q);
        }
      case WaitMs(ms) =>
        RunAppend(SleepMs(bus, ms), p[1..], q);
      case WaitUs(us) =>
        RunAppend(SleepUs(bus, us), p[1..], q);
    }
  }

  // ---------------------------------------------------------------------
  // What the trace says about the device
  // ---------------------------------------------------------------------

  /** The transactions of a trace, delays left out. */
  function Xacts(trace: seq<Entry>): seq<Entry>
  {
    if |trace| == 0 then []
    else (if trace[0].Xact? then [trace[0]] else []) + Xacts(trace[1..])
  }

  /** The transactions a plan attempts when the next `acks` are
      acknowledged: the first min(acks + 1, |writes|) of its writes, those
      before position `acks` succeeding. */
  function Attempts(writes: seq<Xfer>, acks: nat): (es: seq<Entry>)
    ensures |es| == Min(acks + 1, |writes|)
    ensures forall i :: 0 <= i < |es| ==> es[i] == Xact(writes[i], i < acks)
  {
    seq(Min(acks + 1, |writes|), i requires 0 <= i < Min(acks + 1, |writes|) => Xact(writes[i], i < acks))
  }

  lemma {:induction false} XactsAppend(a: seq<Entry>, b: seq<Entry>)
    ensures Xacts(a + b) == Xacts(a) + Xacts(b)
    decreases |a|
  {
    if |a| == 0 {
      assert a + b == b;
    } else {
      var head := if a[0].Xact? then [a[0]] else [];
      assert (a + b)[0] == a[0];
      assert (a + b)[1..] == a[1..] + b;
      XactsAppend(a[1..], b);
      calc {
        Xacts(a + b);
        head + Xacts(a[1..] + b);
        head + (Xacts(a[1..]) + Xacts(b));
        (head + Xacts(a[1..])) + Xacts(b);
      }
    }
  }

  /** Seen as transactions only, a plan's script is its attempted writes. */
  lemma {:induction false} ScriptXacts(plan: seq<Action>, acks: nat)
    ensures Xacts(Script(plan, acks)) == Attempts(Writes(plan), acks)
    decreases |plan|
  {
    if |plan| > 0 {
      match plan[0]
      case Put(reg, value) =>
        if acks > 0 {
          ScriptXacts(plan[1..], acks - 1);
          XactsAppend([Xact(Write(reg, value), true)], Script(plan[1..], acks - 1));
        }
      case WaitMs(ms) =>
        ScriptXacts(plan[1..], acks);
        XactsAppend([DelayMs(ms)], Script(plan[1..], acks));
      case WaitUs(us) =>
        ScriptXacts(plan[1..], acks);
        XactsAppend([DelayUs(us)], Script(plan[1..], acks));
    }
  }

  /** The register file as far as the trace shows it: each register holds
      the value of its last acknowledged write, on top of `file`. */
  function Apply(file: map<Register, byte>, trace: seq<Entry>): map<Register, byte>
    decreases |trace|
  {
    if |trace| == 0 then file
    else
      var next := match trace[0]
        case Xact(Write(reg, value), true) => file[reg := value]
        case _ => file;
      Apply(next, trace[1..])
  }

  /** Whether an entry is an acknowledged write to `reg`. */
  predicate IsWriteTo(e: Entry, reg: Register)
  {
    e.Xact? && e.ok && e.xfer.Write? && e.xfer.reg == reg
  }

  /** Whether the trace holds an acknowledged write to `reg`. */
  predicate WritesTo(trace: seq<Entry>, reg: Register)
  {
    exists i :: 0 <= i < |trace| && IsWriteTo(trace[i], reg)
  }

  /** An acknowledged write to `reg` is either the first entry or later. */
  lemma WritesToCons(trace: seq<Entry>, reg: Register)
    requires |trace| > 0
    ensures WritesTo(trace, reg) <==> IsWriteTo(trace[0], reg) || WritesTo(trace[1..], reg)
  {
    if WritesTo(trace[1..], reg) {
      var i :| 0 <= i < |trace[1..]| && IsWriteTo(trace[1..][i], reg);
      assert trace[i + 1] == trace[1..][i];
    }
    if WritesTo(trace, reg) {
      var i :| 0 <= i < |trace| && IsWriteTo(trace[i], reg);
      if i > 0 {
        assert trace[1..][i - 1] == trace[i];
      }
    }
  }

  /** Registers the trace never writes successfully keep their value, the
      others end up in the register file, and no register is dropped. */
  lemma {:induction false} ApplyFrame(file: map<Register, byte>, trace: seq<Entry>, reg: Register)
    ensures !WritesTo(trace, reg) ==>
              (reg in Apply(file, trace) <==> reg in file)
              && (reg in file ==> Apply(file, trace)[reg] == file[reg])
    ensures WritesTo(trace, reg) ==> reg in Apply(file, trace)
    ensures reg in file ==> reg in Apply(file, trace)
    decreases |trace|
  {
    if |trace| > 0 {
      var next := match trace[0]
        case Xact(Write(r, value), true) => file[r := value]
        case _ => file;
      ApplyFrame(next, trace[1..], reg);
      WritesToCons(trace, reg);
    }
  }

  /** The last acknowledged write to a register decides its value. */
  lemma {:induction false} ApplyLastWrite(file: map<Register, byte>, trace: seq<Entry>, reg: Register, value: byte, i: nat)
    requires i < |trace| && trace[i] == Xact(Write(reg, value), true)
    requires !WritesTo(trace[i + 1..], reg)
    ensures reg in Apply(file, trace) && Apply(file, trace)[reg] == value
    decreases |trace|
  {
    var next := match trace[0]
      case Xact(Write(r, v), true) => file[r := v]
      case _ => file;
    if i == 0 {
      ApplyFrame(next, trace[1..], reg);
    } else {
      assert trace[1..][i - 1] == trace[i];
      assert trace[1..][i..] == trace[i + 1..];
      ApplyLastWrite(next, trace[1..], reg, value, i - 1);
    }
  }

  lemma AttemptsCons(x: Xfer, xs: seq<Xfer>, acks: nat)
    ensures Attempts([x] + xs, acks)
            == if acks == 0 then [Xact(x, false)] else [Xact(x, true)] + Attempts(xs, acks - 1)
  {
    var a := Attempts([x] + xs, acks);
    if acks > 0 {
      var b := [Xact(x, true)] + Attempts(xs, acks - 1);
      assert |a| == |b|;
      forall i | 0 <= i < |a|
        ensures a[i] == b[i]
      {
        if i > 0 {
          assert ([x] + xs)[i] == xs[i - 1];
        }
      }
    }
  }

  /** For a plan made only of writes, the script is the attempted writes. */
  lemma {:induction false} ScriptOfPuts(plan: seq<Action>, acks: nat)
    requires forall i :: 0 <= i < |plan| ==> plan[i].Put?
    ensures Script(plan, acks) == Attempts(Writes(plan), acks)
    decreases |plan|
  {
    if |plan| > 0 {
      AttemptsCons(Write(plan[0].reg, plan[0].value), Writes(plan[1..]), acks);
      if acks > 0 {
        assert forall i :: 0 <= i < |plan[1..]| ==> plan[1..][i] == plan[i + 1];
        ScriptOfPuts(plan[1..], acks - 1);
      }
    }
  }
  /** A plan made only of writes writes exactly those, in order. */
  lemma {:induction false} PutsOnly(plan: seq<Action>)
    requires forall i :: 0 <= i < |plan| ==> plan[i].Put?
    ensures |Writes(plan)| == |plan|
    ensures forall i :: 0 <= i < |plan| ==> Writes(plan)[i] == Write(plan[i].reg, plan[i].value)
    decreases |plan|
  {
    if |plan| > 0 {
      PutsOnly(plan[1..]);
      assert forall i :: 1 <= i < |plan| ==> plan[1..][i - 1] == plan[i];
    }
  }

  /** A plan made only of writes succeeds exactly when all of them are
      acknowledged, and appends to the trace the writes it attempted. */
  lemma PutPlanRun(bus: Bus, plan: seq<Action>)
    requires forall i :: 0 <= i < |plan| ==> plan[i].Put?
    ensures var d := Run(bus, plan);
            var acks := AckRun(bus.replies);
            && (d.ok <==> acks >= |plan|)
            && d.bus.trace == bus.trace + Attempts(Writes(plan), acks)
    ensures |Writes(plan)| == |plan|
    ensures forall i :: 0 <= i < |plan| ==> Writes(plan)[i] == Write(plan[i].reg, plan[i].value)
  {
    RunSpec(bus, plan);
    PutsOnly(plan);
    ScriptOfPuts(plan, AckRun(bus.replies));
  }
  /** One entry's effect on the register file: an acknowledged write
      stores its value, anything else changes nothing. */
  lemma ApplyOne(file: map<Register, byte>, e: Entry)
    ensures Apply(file, [e]) == if e.Xact? && e.ok && e.xfer.Write? then file[e.xfer.reg := e.xfer.value] else file
  {
    assert [e][1..] == [];
  }

  /** The register file after a trace is the file after its first part,
      updated by the rest. */
  lemma {:induction false} ApplyAppend(file: map<Register, byte>, a: seq<Entry>, b: seq<Entry>)
    ensures Apply(file, a + b) == Apply(Apply(file, a), b)
    decreases |a|
  {
    if |a| == 0 {
      assert a + b == b;
    } else {
      assert (a + b)[0] == a[0];
      assert (a + b)[1..] == a[1..] + b;
      var next := match a[0]
        case Xact(Write(r, value), true) => file[r := value]
        case _ => file;
      ApplyAppend(next, a[1..], b);
    }
  }
  /** What an operation adds, in two steps, is what each step added. */
  lemma AddedChain(b0: Bus, b1: Bus, b2: Bus)
    requires b0.trace <= b1.trace <= b2.trace
    ensures Added(b0, b2) == Added(b0, b1) + Added(b1, b2)
  {
  }

  /** The transfers of a trace, in order, outcomes and delays left out. */
  function Transfers(trace: seq<Entry>): seq<Xfer>
  {
    if |trace| == 0 then []
    else (if trace[0].Xact? then [trace[0].xfer] else []) + Transfers(trace[1..])
  }

  lemma {:induction false} TransfersAppend(a: seq<Entry>, b: seq<Entry>)
    ensures Transfers(a + b) == Transfers(a) + Transfers(b)
    decreases |a|
  {
    if |a| == 0 {
      assert a + b == b;
    } else {
      var head := if a[0].Xact? then [a[0].xfer] else [];
      assert (a + b)[0] == a[0];
      assert (a + b)[1..] == a[1..] + b;
      TransfersAppend(a[1..], b);
      calc {
        Transfers(a + b);
        head + Transfers(a[1..] + b);
        head + (Transfers(a[1..]) + Transfers(b));
        (head + Transfers(a[1..])) + Transfers(b);
      }
    }
  }

  /** The transfers between three points of a run are those of the first
      stretch followed by those of the second. */
  lemma TransfersChain(b0: Bus, b1: Bus, b2: Bus)
    requires b0.trace <= b1.trace <= b2.trace
    ensures Transfers(Added(b0, b2)) == Transfers(Added(b0, b1)) + Transfers(Added(b1, b2))
  {
    AddedChain(b0, b1, b2);
    TransfersAppend(Added(b0, b1), Added(b1, b2));
  }

  /** The same over four points. */
  lemma TransfersChain3(b0: Bus, b1: Bus, b2: Bus, b3: Bus, x: seq<Xfer>, y: seq<Xfer>, z: seq<Xfer>)
    requires b0.trace <= b1.trace <= b2.trace <= b3.trace
    requires Transfers(Added(b0, b1)) == x && Transfers(Added(b1, b2)) == y && Transfers(Added(b2, b3)) == z
    ensures Transfers(Added(b0, b3)) == x + y + z
  {
    TransfersChain(b0, b1, b2);
    TransfersChain(b0, b2, b3);
  }

  /** The transfers of a trace of two transactions. */
  lemma TransfersPair(x: Xfer, a: bool, y: Xfer, b: bool)
    ensures Transfers([Xact(x, a), Xact(y, b)]) == [x, y]
  {
    TransfersOne(Xact(x, a));
    TransfersOne(Xact(y, b));
    TransfersAppend([Xact(x, a)], [Xact(y, b)]);
    assert [Xact(x, a)] + [Xact(y, b)] == [Xact(x, a), Xact(y, b)];
  }

  /** The transfers of a transaction followed by a delay. */
  lemma TransfersPairOne(x: Xfer, a: bool, ms: nat)
    ensures Transfers([Xact(x, a), DelayMs(ms)]) == [x]
  {
    TransfersOne(Xact(x, a));
    TransfersOne(DelayMs(ms));
    TransfersAppend([Xact(x, a)], [DelayMs(ms)]);
    assert [Xact(x, a)] + [DelayMs(ms)] == [Xact(x, a), DelayMs(ms)];
  }

  /** The transfers of a one-entry trace. */
  lemma TransfersOne(e: Entry)
    ensures Transfers([e]) == if e.Xact? then [e.xfer] else []
  {
    assert [e][1..] == [];
  }

  lemma {:induction false} WritesAppend(p: seq<Action>, q: seq<Action>)
    ensures Writes(p + q) == Writes(p) + Writes(q)
    decreases |p|
  {
    if |p| == 0 {
      assert p + q == q;
    } else {
      assert (p + q)[0] == p[0];
      assert (p + q)[1..] == p[1..] + q;
      WritesAppend(p[1..], q);
    }
  }

  /** The transfers a plan makes when the next `acks` transactions are
      acknowledged: its writes up to and including the first failed one. */
  lemma {:induction false} ScriptTransfers(plan: seq<Action>, acks: nat)
    ensures Transfers(Script(plan, acks)) == Writes(plan)[..Min(acks + 1, |Writes(plan)|)]
    decreases |plan|
  {
    if |plan| > 0 {
      var ws := Writes(plan);
      match plan[0]
      case Put(reg, value) =>
        var w := Write(reg, value);
        assert ws == [w] + Writes(plan[1..]);
        if acks == 0 {
          assert Transfers([Xact(w, false)]) == [w];
        } else {
          ScriptTransfers(plan[1..], acks - 1);
          TransfersAppend([Xact(w, true)], Script(plan[1..], acks - 1));
          assert Transfers([Xact(w, true)]) == [w];
          var n := Min(acks, |Writes(plan[1..])|);
          assert ws[..n + 1] == [w] + Writes(plan[1..])[..n];
        }
      case WaitMs(ms) =>
        ScriptTransfers(plan[1..], acks);
        TransfersAppend([DelayMs(ms)], Script(plan[1..], acks));
      case WaitUs(us) =>
        ScriptTransfers(plan[1..], acks);
        TransfersAppend([DelayUs(us)], Script(plan[1..], acks));
    }
  }

  /** What a plan puts on the bus: its writes up to and including the first
      unacknowledged one, and success exactly when there was none. */
  lemma RunTransfers(bus: Bus, plan: seq<Action>)
    ensures var d := Run(bus, plan);
            var acks := AckRun(bus.replies);
            && (d.ok <==> acks >= |Writes(plan)|)
            && Transfers(Added(bus, d.bus)) == Writes(plan)[..Min(acks + 1, |Writes(plan)|)]
  {
    RunOutcome(bus, plan);
    RunTrace(bus, plan);
    ScriptTransfers(plan, AckRun(bus.replies));
    var d := Run(bus, plan);
    assert Added(bus, d.bus) == Script(plan, AckRun(bus.replies));
  }
}

=== FILE: chip.dfy ===
/** The DRV2605's register map, operating modes, waveform libraries, ROM
    effect identifiers and the driver's record types (User/drv2605.h). */
module Chip {
  import opened Types

  /** The device's fixed 7-bit bus address. */
  const I2C_ADDRESS: byte := 0x5A

  /** Direction bit of the address byte: 0 to write, 1 to read. */
  datatype Direction = Transmitter | Receiver

  /** The address byte put on the wire: the 7-bit address shifted left by one
      with the direction in bit 0. */
  function AddressByte(dir: Direction): (b: byte)
    ensures b / 2 == I2C_ADDRESS
    ensures b % 2 == 1 <==> dir == Receiver
  {
    I2C_ADDRESS * 2 + (if dir == Receiver then 1 else 0)
  }

  /** Index of a waveform-sequencer slot. */
  type Slot = s: int | 0 <= s < 8

  /** The registers the driver addresses. */
  datatype Register =
    | Status | ModeReg | RtpInput | LibraryReg
    | WaveSeq(slot: Slot)
    | Go | Overdrive | SustainPos | SustainNeg | Brake
    | AudioCtrl | AudioMin | AudioMax
    | RatedVoltage | ClampVoltage | AutoCalComp | AutoCalBackEmf
    | Feedback | Control1 | Control2 | Control3 | Control4
    | Vbat | LraResonance | Control5

  /** The register's address in the chip's register map. */
  function Address(r: Register): byte
  {
    match r
    case Status => 0x00
    case ModeReg => 0x01
    case RtpInput => 0x02
    case LibraryReg => 0x03
    case WaveSeq(s) => 0x04 + s
    case Go => 0x0C
    case Overdrive => 0x0D
    case SustainPos => 0x0E
    case SustainNeg => 0x0F
    case Brake => 0x10
    case AudioCtrl => 0x11
    case AudioMin => 0x12
    case AudioMax => 0x13
    case RatedVoltage => 0x16
    case ClampVoltage => 0x17
    case AutoCalComp => 0x18
    case AutoCalBackEmf => 0x19
    case Feedback => 0x1A
    case Control1 => 0x1B
    case Control2 => 0x1C
    case Control3 => 0x1D
    case Control4 => 0x1E
    case Vbat => 0x21
    case LraResonance => 0x22
    case Control5 => 0x23
  }

  /** The register at an address, if the map names one. */
  function RegisterAt(a: byte): Option<Register>
  {
    if a == 0x00 then Some(Status)
    else if a == 0x01 then Some(ModeReg)
    else if a == 0x02 then Some(RtpInput)
    else if a == 0x03 then Some(LibraryReg)
    else if 0x04 <= a <= 0x0B then Some(WaveSeq(a - 0x04))
    else if a == 0x0C then Some(Go)
    else if a == 0x0D then Some(Overdrive)
    else if a == 0x0E then Some(SustainPos)
    else if a == 0x0F then Some(SustainNeg)
    else if a == 0x10 then Some(Brake)
    else if a == 0x11 then Some(AudioCtrl)
    else if a == 0x12 then Some(AudioMin)
    else if a == 0x13 then Some(AudioMax)
    else if a == 0x16 then Some(RatedVoltage)
    else if a == 0x17 then Some(ClampVoltage)
    else if a == 0x18 then Some(AutoCalComp)
    else if a == 0x19 then Some(AutoCalBackEmf)
    else if a == 0x1A then Some(Feedback)
    else if a == 0x1B then Some(Control1)
    else if a == 0x1C then Some(Control2)
    else if a == 0x1D then Some(Control3)
    else if a == 0x1E then Some(Control4)
    else if a == 0x21 then Some(Vbat)
    else if a == 0x22 then Some(LraResonance)
    else if a == 0x23 then Some(Control5)
    else None
  }

  /** Every register has its own address: reading the map back at a
      register's address yields that register. */
  lemma AddressDecodes(r: Register)
    ensures RegisterAt(Address(r)) == Some(r)
  {
    match r
    case WaveSeq(s) =>
      assert Address(r) == 0x04 + s;
    case _ =>
  }

  /** No two registers share an address. */
  lemma AddressInjective(r1: Register, r2: Register)
    ensures Address(r1) == Address(r2) <==> r1 == r2
  {
    AddressDecodes(r1);
    AddressDecodes(r2);
  }

  /** The eight sequencer registers occupy exactly the contiguous block
      0x04..0x0B: slot `s` is at 0x04 + s, and an address in that block names a
      sequencer slot and nothing else (in particular never GO at 0x0C). */
  lemma WaveSeqBlock(a: byte)
    ensures 0x04 <= a <= 0x0B <==> (RegisterAt(a).Some? && RegisterAt(a).value.WaveSeq?)
    ensures 0x04 <= a <= 0x0B ==> Address(RegisterAt(a).value) == a
    ensures 0x04 <= a <= 0x0B ==> a != Address(Go)
  {
  }

  /** The chip's operating modes (MODE register, bits 0..2). */
  datatype Mode = IntTrig | ExtEdge | ExtLevel | PwmAnalog | Audio | Realtime | Diagnostic | AutoCal

  function ModeCode(m: Mode): byte
  {
    match m
    case IntTrig => 0x00
    case ExtEdge => 0x01
    case ExtLevel => 0x02
    case PwmAnalog => 0x03
    case Audio => 0x04
    case Realtime => 0x05
    case Diagnostic => 0x06
    case AutoCal => 0x07
  }

  /** The mode named by the low three bits of the MODE register. */
  function ModeOfBits(bits: int): Mode
    requires 0 <= bits < 8
  {
    if bits == 0 then IntTrig
    else if bits == 1 then ExtEdge
    else if bits == 2 then ExtLevel
    else if bits == 3 then PwmAnalog
    else if bits == 4 then Audio
    else if bits == 5 then Realtime
    else if bits == 6 then Diagnostic
    else AutoCal
  }

  /** Mode codes and three-bit values are in one-to-one correspondence, so
      masking a mode code with 0x07 loses nothing and every masked register
      value names a defined mode. */
  lemma ModeCodeBijective(m: Mode, bits: int)
    requires 0 <= bits < 8
    ensures ModeCode(m) < 8 && ModeCode(m) % 8 == ModeCode(m)
    ensures ModeOfBits(ModeCode(m) % 8) == m
    ensures ModeCode(ModeOfBits(bits)) == bits
  {
  }

  /** The ROM waveform libraries (LIBRARY register, bits 0..2). */
  datatype Library = LibEmpty | LibA | LibB | LibC | LibD | LibE | LibLra | LibF

  function LibraryCode(l: Library): byte
  {
    match l
    case LibEmpty => 0x00
    case LibA => 0x01
    case LibB => 0x02
    case LibC => 0x03
    case LibD => 0x04
    case LibE => 0x05
    case LibLra => 0x06
    case LibF => 0x07
  }

  function LibraryOfBits(bits: int): Library
    requires 0 <= bits < 8
  {
    if bits == 0 then LibEmpty
    else if bits == 1 then LibA
    else if bits == 2 then LibB
    else if bits == 3 then LibC
    else if bits == 4 then LibD
    else if bits == 5 then LibE
    else if bits == 6 then LibLra
    else LibF
  }

  /** Library identifiers and three-bit values correspond one to one, so the
      0x07 mask applied when selecting a library is the identity on every
      defined library. */
  lemma LibraryCodeBijective(l: Library, bits: int)
    requires 0 <= bits < 8
    ensures LibraryCode(l) % 8 == LibraryCode(l)
    ensures LibraryOfBits(LibraryCode(l) % 8) == l
    ensures LibraryCode(LibraryOfBits(bits)) == bits
  {
  }

  /** Effect identifiers: the ROM catalogue is the contiguous range
      0x01..0x7B; 0 in a sequencer slot ends the sequence. */
  const END_OF_SEQUENCE: byte := 0x00
  const FIRST_EFFECT: byte := 0x01
  const LAST_EFFECT: byte := 0x7B
  const STRONG_CLICK_100: byte := 0x01

  predicate IsRomEffect(e: byte)
  {
    FIRST_EFFECT <= e <= LAST_EFFECT
  }

  /** The catalogue holds 123 effects, none of which is the end-of-sequence
      marker, every one fits in seven bits, and the default click effect is one
      of them. */
  lemma RomEffectsAreNotTerminators(e: byte)
    ensures IsRomEffect(e) ==> e != END_OF_SEQUENCE && e < 0x80
    ensures LAST_EFFECT - FIRST_EFFECT + 1 == 123
    ensures IsRomEffect(STRONG_CLICK_100)
  {
  }

  /** One frame of a real-time action group. The amplitude is documented as
      0x00..0x7F but the driver does not enforce that range. */
  datatype Frame = Frame(amplitude: byte, holdMs: u16)

  /** An action group: frames (absent for a null pointer), the declared frame
      count, the pause after a full round and the playback cursor. */
  datatype ActionGroup = ActionGroup(frames: Option<seq<Frame>>, frameCount: u16, pauseMs: u16, currentIndex: u16)

  /** The declared count does not exceed the frames actually present. */
  predicate WellFormed(g: ActionGroup)
  {
    g.frames.Some? ==> g.frameCount <= |g.frames.value|
  }

  datatype AutoCalConfig = AutoCalConfig(
    ratedVoltage: byte, clampVoltage: byte,
    control1: byte, control2: byte, control3: byte, control4: byte, control5: byte,
    timeoutMs: u16)

  datatype AutoCalResult = AutoCalResult(
    status: byte, compensation: byte, backEmf: byte,
    ratedVoltage: byte, clampVoltage: byte,
    vbatRaw: byte, lraResonance: byte)

  /** Continuous-drive settings; `driveTime` is documented as 0..63 and
      `strength` as 0..0x7F. */
  datatype ContinuousConfig = ContinuousConfig(useLra: bool, driveTime: byte, strength: byte, libraryId: byte)

  datatype FreqAmpTiming = FreqAmpTiming(burstDurationMs: u16, pauseDurationMs: u16)

  /** The recommended auto-calibration request. */
  function AutoCalDefaults(): (cfg: AutoCalConfig)
    ensures cfg.ratedVoltage == 0x50 && cfg.clampVoltage == 0x90
    ensures cfg.control1 == 0x20 && cfg.control2 == 0xF5 && cfg.control3 == 0x80
    ensures cfg.control4 == 0x20 && cfg.control5 == 0x80
    ensures cfg.timeoutMs == 2000
  {
    AutoCalConfig(0x50, 0x90, 0x20, 0xF5, 0x80, 0x20, 0x80, 2000)
  }
}

=== FILE: continuous.dfy ===
/** Continuous real-time drive (User/drv2605.c:277-328): a configuration
    step that selects the actuator and library, rewrites the drive-time
    field of CONTROL2 and latches the strength; then start and stop of the
    real-time output. */
module Continuous {
  import opened Types
  import opened Chip
  import opened Bus
  import opened DriverState
  import Device

  /** CONTROL2 value used when reading the register fails. */
  const CONTROL2_FALLBACK: byte := 0xF5

  /** The new CONTROL2 value: the upper two bits of the prior value with
      the drive time's lower six bits. */
  function MergeDriveTime(prior: byte, driveTime: byte): (c: byte)
    ensures c / 64 == prior / 64
    ensures c % 64 == driveTime % 64
  {
    (prior / 64) * 64 + driveTime % 64
  }

  /** On the register's bits, the merge is the driver's mask-and-or: the
      prior value masked with 0xC0, or-ed with the drive time masked with
      0x3F. */
  lemma MergeIsMaskedOr(prior: bv8, driveTime: bv8)
    ensures MergeDriveTime(prior as int, driveTime as int) == ((prior & 0xC0) | (driveTime & 0x3F)) as int
  {
    MasksAreFields(prior, driveTime);
  }

  lemma MasksAreFields(p: bv8, d: bv8)
    ensures ((p & 0xC0) | (d & 0x3F)) as int == (p as int / 64) * 64 + d as int % 64
    ensures p as int < 256 && d as int < 256
  {
  }

  /** The written value is determined by the two fields it keeps: only the
      drive time's low six bits matter, and a drive time already in 0..63
      lands unchanged. */
  lemma MergeKeepsFields(prior: byte, dt1: byte, dt2: byte)
    ensures MergeDriveTime(prior, dt1) == MergeDriveTime(prior, dt2) <==> dt1 % 64 == dt2 % 64
    ensures dt1 < 64 ==> MergeDriveTime(prior, dt1) % 64 == dt1
  {
  }

  /** Configure a continuous-drive session. A missing configuration is
      refused with no traffic. The actuator is selected, then the library;
      CONTROL2 is read (falling back to 0xF5) and its drive-time field
      rewritten. Only when every write succeeded is the strength latched,
      capped at 0x7F, and the session marked configured; any failure leaves
      the driver state as it was. */
  function ConfigureContinuous(bus: Bus, drv: Driver, cfg: Option<ContinuousConfig>): (s: Step)
    ensures cfg.None? ==> s == Step(false, bus, drv)
    ensures !s.ok ==> s.drv == drv
    ensures s.ok ==> cfg.Some? && s.drv == drv.(contStrength := Min(cfg.value.strength, 0x7F), contConfigured := true)
    ensures cfg.Some? ==> (s.ok <==> ConfigAcked(bus.replies))
    ensures bus.trace <= s.bus.trace
  {
    match cfg
    case None => Step(false, bus, drv)
    case Some(c) =>
      var sel := if c.useLra then Device.SelectLra(bus) else Device.SelectErm(bus);
      if !sel.ok then Step(false, sel.bus, drv)
      else
        var lib := Device.SetLibrary(sel.bus, c.libraryId);
        if !lib.ok then Step(false, lib.bus, drv)
        else
          var w := RewriteControl2(lib.bus, c.driveTime);
          if !w.ok then Step(false, w.bus, drv)
          else Step(true, w.bus, drv.(contStrength := Min(c.strength, 0x7F), contConfigured := true))
  }

  /** The CONTROL2 value the rewrite starts from: the byte read, or 0xF5
      when the read fails. */
  function PriorControl2(reply: Reply): byte
  {
    if reply.Ack? then reply.data else CONTROL2_FALLBACK
  }

  /** Read CONTROL2 and write it back with the drive time in its lower six
      bits. A failed read does not stop the rewrite. */
  function RewriteControl2(bus: Bus, driveTime: byte): (d: Done)
    ensures var prior := PriorControl2(NextReply(bus.replies));
            d.bus.trace == bus.trace + [Xact(Read(Control2), NextReply(bus.replies).Ack?),
                                        Xact(Write(Control2, MergeDriveTime(prior, driveTime)), d.ok)]
    ensures d.ok <==> NextReply(Later(bus.replies)).Ack?
    ensures d.bus.replies == Later(Later(bus.replies))
  {
    var read := ReadRegister(bus, Control2);
    var prior := if read.value.Some? then read.value.value else CONTROL2_FALLBACK;
    Device.Set(read.bus, Device.ControlWord(2), MergeDriveTime(prior, driveTime))
  }

  /** The feedback value selecting the configured actuator. */
  function FeedbackFor(c: ContinuousConfig): byte
  {
    if c.useLra then Device.FEEDBACK_LRA else Device.FEEDBACK_ERM
  }

  /** Whether the replies acknowledge the three writes of a configuration:
      the actuator selection, the library and the CONTROL2 write. The third
      reply, the CONTROL2 read's, does not matter. */
  predicate ConfigAcked(replies: seq<Reply>)
  {
    && NextReply(replies).Ack?
    && NextReply(Later(replies)).Ack?
    && NextReply(Later(Later(Later(replies)))).Ack?
  }

  /** The four transactions of a configuration, in order, when the CONTROL2
      rewrite starts from `prior`. */
  function ConfigureXfers(c: ContinuousConfig, prior: byte): (xs: seq<Xfer>)
    ensures |xs| == 4
  {
    [ Write(Feedback, FeedbackFor(c)), Write(LibraryReg, c.libraryId % 8),
      Read(Control2), Write(Control2, MergeDriveTime(prior, c.driveTime)) ]
  }

  /** How many of those transactions a configuration attempts: up to and
      including the first refused write. A failed read does not stop it. */
  function ConfigureAttempts(replies: seq<Reply>): (n: nat)
    ensures 1 <= n <= 4
  {
    if !NextReply(replies).Ack? then 1
    else if !NextReply(Later(replies)).Ack? then 2
    else 4
  }

  /** The four entries a full configuration logs, with the outcome each
      reply gives. */
  function ConfigureLog(c: ContinuousConfig, replies: seq<Reply>): (es: seq<Entry>)
    ensures |es| == 4
  {
    var xs := ConfigureXfers(c, PriorControl2(NextReply(Later(Later(replies)))));
    [ Xact(xs[0], NextReply(replies).Ack?), Xact(xs[1], NextReply(Later(replies)).Ack?),
      Xact(xs[2], NextReply(Later(Later(replies))).Ack?),
      Xact(xs[3], NextReply(Later(Later(Later(replies)))).Ack?) ]
  }

  /** The actuator selection logs the log's first entry and consumes one reply. */
  lemma SelectStep(bus: Bus, c: ContinuousConfig)
    ensures var sel := if c.useLra then Device.SelectLra(bus) else Device.SelectErm(bus);
            && sel.bus == Bus(Later(bus.replies), bus.trace + [ConfigureLog(c, bus.replies)[0]])
            && (sel.ok <==> NextReply(bus.replies).Ack?)
  {
  }

  /** The library write logs the log's second entry and consumes one reply. */
  lemma LibraryStep(bus: Bus, c: ContinuousConfig)
    ensures var lib := Device.SetLibrary(Bus(Later(bus.replies), bus.trace), c.libraryId);
            && lib.bus == Bus(Later(Later(bus.replies)), bus.trace + [ConfigureLog(c, bus.replies)[1]])
            && (lib.ok <==> NextReply(Later(bus.replies)).Ack?)
  {
  }

  /** The CONTROL2 rewrite logs the log's last two entries. */
  lemma RewriteStep(bus: Bus, c: ContinuousConfig)
    ensures var w := RewriteControl2(Bus(Later(Later(bus.replies)), bus.trace), c.driveTime);
            && w.bus.trace == bus.trace + ConfigureLog(c, bus.replies)[2..]
            && (w.ok <==> NextReply(Later(Later(Later(bus.replies)))).Ack?)
  {
    var log := ConfigureLog(c, bus.replies);
    assert log[2..] == [log[2], log[3]];
  }

  /** Configuration logs its entries in order up to and including the first
      refused write, and succeeds exactly when its three writes are
      acknowledged. */
  lemma {:induction false} ConfigureLogs(bus: Bus, drv: Driver, c: ContinuousConfig)
    ensures var s := ConfigureContinuous(bus, drv, Some(c));
            && Added(bus, s.bus) == ConfigureLog(c, bus.replies)[..ConfigureAttempts(bus.replies)]
            && (s.ok <==> ConfigAcked(bus.replies))
  {
    var r := bus.replies;
    var log := ConfigureLog(c, r);
    SelectStep(bus, c);
    var sel := if c.useLra then Device.SelectLra(bus) else Device.SelectErm(bus);
    if sel.ok {
      var t1 := bus.trace + [log[0]];
      LibraryStep(Bus(r, t1), c);
      assert ConfigureLog(c, r) == ConfigureLog(c, Bus(r, t1).replies);
      var lib := Device.SetLibrary(sel.bus, c.libraryId);
      if lib.ok {
        var t2 := t1 + [log[1]];
        RewriteStep(Bus(r, t2), c);
        assert log[..4] == [log[0]] + [log[1]] + log[2..];
      }
    }
  }

  /** Any prefix of the log the configuration can leave projects onto the
      same prefix of its transactions. */
  lemma LogTransfers(c: ContinuousConfig, replies: seq<Reply>)
    ensures var n := ConfigureAttempts(replies);
            Transfers(ConfigureLog(c, replies)[..n])
            == ConfigureXfers(c, PriorControl2(NextReply(Later(Later(replies)))))[..n]
  {
    var log := ConfigureLog(c, replies);
    var n := ConfigureAttempts(replies);
    if n == 1 {
      assert log[..1] == [log[0]];
      TransfersOne(log[0]);
    } else if n == 2 {
      assert log[..2] == [log[0], log[1]];
      TransfersPair(log[0].xfer, log[0].ok, log[1].xfer, log[1].ok);
    } else {
      assert log[..4] == [log[0], log[1]] + [log[2], log[3]];
      TransfersPair(log[0].xfer, log[0].ok, log[1].xfer, log[1].ok);
      TransfersPair(log[2].xfer, log[2].ok, log[3].xfer, log[3].ok);
      TransfersAppend([log[0], log[1]], [log[2], log[3]]);
    }
  }

  /** Configuration succeeds exactly when its three writes are acknowledged,
      and it attempts its transactions in order up to and including the
      first refused write: a refused selection stops after it, a refused
      library write stops after it, and otherwise CONTROL2 is read and
      written back whatever the read gave. */
  lemma {:induction false} ConfigureSpec(bus: Bus, drv: Driver, c: ContinuousConfig)
    ensures var s := ConfigureContinuous(bus, drv, Some(c));
            var r := bus.replies;
            && (s.ok <==> ConfigAcked(r))
            && Transfers(Added(bus, s.bus))
               == ConfigureXfers(c, PriorControl2(NextReply(Later(Later(r)))))[..ConfigureAttempts(r)]
  {
    ConfigureLogs(bus, drv, c);
    LogTransfers(c, bus.replies);
  }

  /** With the three writes acknowledged, configuration succeeds, and its
      transactions are: the actuator selection, the library (low three bits
      of its identifier), the CONTROL2 read, and CONTROL2 written with the
      read value's upper bits and the drive time's lower bits; when the read
      fails, the upper bits come from 0xF5. */
  lemma ConfigureWhenAcked(bus: Bus, drv: Driver, c: ContinuousConfig)
    requires |bus.replies| >= 4 && bus.replies[0].Ack? && bus.replies[1].Ack? && bus.replies[3].Ack?
    ensures var s := ConfigureContinuous(bus, drv, Some(c));
            var read := bus.replies[2];
            var prior := if read.Ack? then read.data else CONTROL2_FALLBACK;
            && s.ok
            && Added(bus, s.bus) == [
                 Xact(Write(Feedback, FeedbackFor(c)), true),
                 Xact(Write(LibraryReg, c.libraryId % 8), true),
                 Xact(Read(Control2), read.Ack?),
                 Xact(Write(Control2, MergeDriveTime(prior, c.driveTime)), true)]
  {
    var r := bus.replies;
    assert Later(r) == r[1..] && Later(r[1..]) == r[2..] && Later(r[2..]) == r[3..];
    var sel := if c.useLra then Device.SelectLra(bus) else Device.SelectErm(bus);
    assert sel.ok && sel.bus == Bus(r[1..], bus.trace + [Xact(Write(Feedback, FeedbackFor(c)), true)]);
    var lib := Device.SetLibrary(sel.bus, c.libraryId);
    assert lib.ok && lib.bus == Bus(r[2..], sel.bus.trace + [Xact(Write(LibraryReg, c.libraryId % 8), true)]);
    var w := RewriteControl2(lib.bus, c.driveTime);
    assert w.ok;
  }

  /** Once configured, a session stays configured: a later configuration
      either succeeds or leaves the flag as it was. */
  lemma ConfiguredIsSticky(bus: Bus, drv: Driver, cfg: Option<ContinuousConfig>)
    requires drv.contConfigured
    ensures ConfigureContinuous(bus, drv, cfg).drv.contConfigured
  {
  }

  /** Configuration keeps the driver state valid. */
  lemma ConfigureKeepsValid(bus: Bus, drv: Driver, cfg: Option<ContinuousConfig>)
    requires Valid(drv)
    ensures Valid(ConfigureContinuous(bus, drv, cfg).drv)
  {
  }

  /** The writes that start continuous drive. */
  function StartPlan(strength: byte): seq<Action>
  {
    [Put(ModeReg, ModeCode(Realtime)), Put(RtpInput, strength), Put(Go, 1)]
  }

  /** Start continuous drive: refused with no traffic until a session was
      configured; otherwise real-time mode, the latched strength, and GO,
      stopping at the first failure. */
  function StartContinuous(bus: Bus, drv: Driver): (d: Done)
    ensures bus.trace <= d.bus.trace
    ensures !drv.contConfigured ==> d == Done(false, bus)
    ensures drv.contConfigured ==>
              var acks := AckRun(bus.replies);
              && (d.ok <==> acks >= 3)
              && Transfers(Added(bus, d.bus)) == StartWrites(drv.contStrength)[..Min(acks + 1, 3)]
  {
    if !drv.contConfigured then Done(false, bus)
    else
      var plan := StartPlan(drv.contStrength);
      StartDrivesStrength(drv.contStrength);
      RunTransfers(bus, plan);
      Run(bus, plan)
  }

  /** Stop continuous drive: silence the real-time input, then clear GO,
      skipping the second write when the first fails. */
  function StopContinuous(bus: Bus): (d: Done)
    ensures bus.trace <= d.bus.trace
    ensures var acks := AckRun(bus.replies);
            && (d.ok <==> acks >= 2)
            && Transfers(Added(bus, d.bus)) == [Write(RtpInput, 0), Write(Go, 0)][..Min(acks + 1, 2)]
  {
    var plan := [Put(RtpInput, 0), Put(Go, 0)];
    PutsOnly(plan);
    RunTransfers(bus, plan);
    Run(bus, plan)
  }

  /** The writes that start continuous drive: real-time mode, the
      strength, then GO. */
  function StartWrites(strength: byte): seq<Xfer>
  {
    [Write(ModeReg, ModeCode(Realtime)), Write(RtpInput, strength), Write(Go, 1)]
  }

  lemma StartDrivesStrength(strength: byte)
    ensures Writes(StartPlan(strength)) == StartWrites(strength)
  {
    PutsOnly(StartPlan(strength));
  }

  /** A session configured from any request drives at most 0x7F: once the
      configuration succeeded, starting the drive later, on whatever bus
      state, writes the requested strength capped at 0x7F to the real-time
      input as soon as the mode change is acknowledged. */
  lemma SessionStrengthInRange(bus: Bus, drv: Driver, cfg: Option<ContinuousConfig>, later: Bus)
    requires Valid(drv)
    ensures var s := ConfigureContinuous(bus, drv, cfg);
            && s.drv.contStrength <= 0x7F
            && (s.ok ==> s.drv.contStrength == Min(cfg.value.strength, 0x7F))
            && (s.ok && AckRun(later.replies) >= 1 ==>
                  var sent := Transfers(Added(later, StartContinuous(later, s.drv).bus));
                  |sent| >= 2 && sent[1] == Write(RtpInput, Min(cfg.value.strength, 0x7F)))
  {
  }
}

=== FILE: conversions.dfy ===
/** Pure integer conversions of the driver (User/drv2605.c): rated/clamp
    voltage codes, the voltage-to-amplitude mapping of direct drive, and the
    period/cycle arithmetic of the software square-wave burst. Every
    intermediate the driver computes in `uint32_t` is shown to stay below 2^32,
    so no wrap-around needs modelling. */
module Conversions {
  import opened Types

  /** Microvolts per code step of the RATED_VOLTAGE register. */
  const RATED_STEP_UV: nat := 21330
  /** Microvolts per code step of the OD_CLAMP register. */
  const CLAMP_STEP_UV: nat := 5600

  /** `code` is `uv / step` rounded half up, saturated at 0xFF. */
  predicate RoundsHalfUp(uv: int, step: nat, code: int)
    requires step > 0
  {
    || (code < 0xFF && code * step <= uv + step / 2 < code * step + step)
    || (code == 0xFF && 0xFF * step <= uv + step / 2)
  }

  function EncodeWithStep(mv: u16, step: nat): (code: byte)
    requires step >= 2 && step % 2 == 0
    ensures RoundsHalfUp(mv * 1000, step, code)
  {
    var uv := mv * 1000;
    var q := (uv + step / 2) / step;
    if q > 0xFF then 0xFF else q
  }

  /** `mv` is `code * step` microvolts rounded half up to millivolts. */
  function DecodeWithStep(code: byte, step: nat): (mv: nat)
    ensures mv * 1000 <= code * step + 500 < mv * 1000 + 1000
  {
    (code * step + 500) / 1000
  }

  /** Millivolts to the RATED_VOLTAGE code (21.33 mV per step). */
  function EncodeRatedVoltageMv(mv: u16): (code: byte)
    ensures RoundsHalfUp(mv * 1000, RATED_STEP_UV, code)
    ensures mv * 1000 < U32_LIMIT
  {
    EncodeWithStep(mv, RATED_STEP_UV)
  }

  /** Millivolts to the OD_CLAMP code (5.6 mV per step). */
  function EncodeClampVoltageMv(mv: u16): (code: byte)
    ensures RoundsHalfUp(mv * 1000, CLAMP_STEP_UV, code)
    ensures mv * 1000 < U32_LIMIT
  {
    EncodeWithStep(mv, CLAMP_STEP_UV)
  }

  /** RATED_VOLTAGE code back to millivolts; the result always fits in 16 bits. */
  function DecodeRatedVoltageMv(code: byte): (mv: u16)
    ensures mv * 1000 <= code * RATED_STEP_UV + 500 < mv * 1000 + 1000
    ensures mv <= 5439
  {
    DecodeWithStep(code, RATED_STEP_UV)
  }

  /** OD_CLAMP code back to millivolts; the result always fits in 16 bits. */
  function DecodeClampVoltageMv(code: byte): (mv: u16)
    ensures mv * 1000 <= code * CLAMP_STEP_UV + 500 < mv * 1000 + 1000
    ensures mv <= 1428
  {
    DecodeWithStep(code, CLAMP_STEP_UV)
  }

  /** Decoding a code and encoding the result gives the code back, for every
      code of both registers: decoding loses less than half a step. */
  lemma EncodeDecodeIdentity(code: byte)
    ensures EncodeRatedVoltageMv(DecodeRatedVoltageMv(code)) == code
    ensures EncodeClampVoltageMv(DecodeClampVoltageMv(code)) == code
  {
    var r: int := DecodeRatedVoltageMv(code);
    var rc := EncodeRatedVoltageMv(r);
    CodeUnique(r * 1000, RATED_STEP_UV, rc, code);
    var c: int := DecodeClampVoltageMv(code);
    var cc := EncodeClampVoltageMv(c);
    CodeUnique(c * 1000, CLAMP_STEP_UV, cc, code);
  }

  /** The half-up rounding is the only code within half a step of `uv`. */
  lemma CodeUnique(uv: int, step: nat, code: byte, target: byte)
    requires step >= 2 && step % 2 == 0
    requires RoundsHalfUp(uv, step, code)
    requires target * step - step / 2 <= uv < target * step + step / 2
    ensures code == target
  {
    assert code * step < (target + 1) * step;
    MulCancelLess(code, target + 1, step);
    if code < 0xFF {
      assert target * step < (code + 1) * step;
      MulCancelLess(target, code + 1, step);
    }
  }

  lemma MulMonotone(a: int, b: int, k: nat)
    requires a <= b
    ensures a * k <= b * k
  {
  }

  lemma MulCancelLess(a: int, b: int, s: int)
    requires s > 0 && a * s < b * s
    ensures a < b
  {
  }

  lemma DivMod(x: nat, d: nat)
    requires d > 0
    ensures x == (x / d) * d + x % d && 0 <= x % d < d
  {
  }

  lemma DivLowerBound(x: nat, d: nat, k: nat)
    requires d > 0 && k * d <= x
    ensures k <= x / d
  {
    DivMod(x, d);
    MulCancelLess(k, x / d + 1, d);
  }

  lemma DivUpperBound(x: nat, d: nat, k: nat)
    requires d > 0 && x < k * d
    ensures x / d < k
  {
    DivMod(x, d);
    MulCancelLess(x / d, k, d);
  }

  lemma DivMonotone(x: nat, y: nat, d: nat)
    requires x <= y && d > 0
    ensures x / d <= y / d
  {
    DivMod(x, d);
    DivLowerBound(y, d, x / d);
  }

  /** Encoding then decoding an unsaturated rated voltage is off by at most
      11 mV, about half of one 21.33 mV step; a saturated code never decodes
      above the input by more than that. */
  lemma RatedRoundTripWithinHalfStep(mv: u16)
    ensures var back := DecodeRatedVoltageMv(EncodeRatedVoltageMv(mv));
            (EncodeRatedVoltageMv(mv) < 0xFF ==> -11 <= back - mv <= 11) && back <= mv + 11
  {
    var code := EncodeRatedVoltageMv(mv);
    var back := DecodeRatedVoltageMv(code);
    assert back * 1000 <= mv * 1000 + 11165;
    assert code < 0xFF ==> mv * 1000 <= back * 1000 + 11165;
  }

  /** Encoding then decoding an unsaturated clamp voltage is off by at most
      3 mV, about half of one 5.6 mV step. */
  lemma ClampRoundTripWithinHalfStep(mv: u16)
    ensures var back := DecodeClampVoltageMv(EncodeClampVoltageMv(mv));
            (EncodeClampVoltageMv(mv) < 0xFF ==> -3 <= back - mv <= 3) && back <= mv + 3
  {
    var code := EncodeClampVoltageMv(mv);
    var back := DecodeClampVoltageMv(code);
    assert back * 1000 <= mv * 1000 + 3300;
    assert code < 0xFF ==> mv * 1000 <= back * 1000 + 3300;
  }

  /** Higher voltages never encode to lower codes. */
  lemma EncodeMonotone(a: u16, b: u16)
    requires a <= b
    ensures EncodeRatedVoltageMv(a) <= EncodeRatedVoltageMv(b)
    ensures EncodeClampVoltageMv(a) <= EncodeClampVoltageMv(b)
  {
    DivMonotone(a * 1000 + RATED_STEP_UV / 2, b * 1000 + RATED_STEP_UV / 2, RATED_STEP_UV);
    DivMonotone(a * 1000 + CLAMP_STEP_UV / 2, b * 1000 + CLAMP_STEP_UV / 2, CLAMP_STEP_UV);
  }

  /** The worked example of the chip's recommended 3.3 V preset. */
  lemma RatedExample()
    ensures EncodeRatedVoltageMv(3300) == 155
    ensures DecodeRatedVoltageMv(155) == 3306
  {
  }

  /** Largest amplitude accepted by the real-time playback register. */
  const RTP_MAX: byte := 0x7F

  /** Direct-drive voltage to real-time amplitude: the voltage, clamped to
      `maxMv`, is scaled onto 0..0x7F rounding half up, and a result of 0 is
      raised to 1. */
  function VoltageToAmplitude(voltageMv: u16, maxMv: u16): (amp: byte)
    requires maxMv >= 1
    ensures 1 <= amp <= RTP_MAX
    ensures var c := Min(voltageMv, maxMv);
            && c * RTP_MAX + maxMv / 2 < (amp + 1) * maxMv
            && (amp == 1 || amp * maxMv <= c * RTP_MAX + maxMv / 2)
    ensures voltageMv >= maxMv ==> amp == RTP_MAX
    ensures voltageMv * RTP_MAX + maxMv / 2 < U32_LIMIT
  {
    var clamped: int := if voltageMv > maxMv then maxMv else voltageMv;
    var scaled: int := clamped * 0x7F + maxMv / 2;
    var amplitude := scaled / maxMv;
    DivMod(scaled, maxMv);
    DivUpperBound(scaled, maxMv, 0x80);
    FullScale(clamped, maxMv);
    if amplitude == 0 then 1 else amplitude
  }

  lemma FullScale(clamped: int, maxMv: nat)
    requires maxMv >= 1
    ensures clamped == maxMv ==> (clamped * 0x7F + maxMv / 2) / maxMv == 0x7F
  {
    if clamped == maxMv {
      DivLowerBound(clamped * 0x7F + maxMv / 2, maxMv, 0x7F);
      DivUpperBound(clamped * 0x7F + maxMv / 2, maxMv, 0x80);
    }
  }

  /** A larger voltage never yields a smaller amplitude. */
  lemma AmplitudeMonotone(v1: u16, v2: u16, maxMv: u16)
    requires maxMv >= 1 && v1 <= v2
    ensures VoltageToAmplitude(v1, maxMv) <= VoltageToAmplitude(v2, maxMv)
  {
    var c1 := Min(v1, maxMv);
    var c2 := Min(v2, maxMv);
    MulMonotone(c1, c2, RTP_MAX);
    DivMonotone(c1 * RTP_MAX + maxMv / 2, c2 * RTP_MAX + maxMv / 2, maxMv);
  }

  /** Timing of one software square-wave burst. */
  datatype Burst = Burst(periodUs: nat, halfPeriodUs: nat, cycles: nat)

  /** The period is 1e6 / f microseconds (at least 1), the half period is half
      of it (at least 1) and the cycle count is how many whole periods fit in
      the burst duration (at least 1). */
  function BurstFor(frequencyHz: u16, burstMs: u16): (b: Burst)
    requires frequencyHz > 0
    ensures b.periodUs * frequencyHz <= 1_000_000 < (b.periodUs + 1) * frequencyHz
    ensures b.periodUs >= 15
    ensures b.halfPeriodUs >= 1 && 2 * b.halfPeriodUs <= b.periodUs <= 2 * b.halfPeriodUs + 1
    ensures b.cycles >= 1
    ensures burstMs * 1000 >= b.periodUs ==>
              b.cycles * b.periodUs <= burstMs * 1000 < (b.cycles + 1) * b.periodUs
    ensures burstMs * 1000 < b.periodUs ==> b.cycles == 1
    ensures burstMs * 1000 < U32_LIMIT
  {
    var periodUs := PeriodUs(frequencyHz);
    var h0 := periodUs / 2;
    var halfPeriodUs := if h0 == 0 then 1 else h0;
    Burst(periodUs, halfPeriodUs, Cycles(burstMs * 1000, periodUs))
  }

  /** 1e6 / f microseconds, raised to 1 if that is 0 (which a 16-bit
      frequency never makes it). */
  function PeriodUs(frequencyHz: u16): (p: int)
    requires frequencyHz > 0
    ensures p * frequencyHz <= 1_000_000 < (p + 1) * frequencyHz
    ensures p >= 15
  {
    var p0 := 1_000_000 / frequencyHz;
    DivMod(1_000_000, frequencyHz);
    DivLowerBound(1_000_000, frequencyHz, 15);
    if p0 == 0 then 1 else p0
  }

  /** Whole periods in `totalUs`, at least 1. */
  function Cycles(totalUs: nat, periodUs: nat): (c: nat)
    requires periodUs > 0
    ensures c >= 1
    ensures totalUs >= periodUs ==> c * periodUs <= totalUs < (c + 1) * periodUs
    ensures totalUs < periodUs ==> c == 1
  {
    var c0 := totalUs / periodUs;
    DivMod(totalUs, periodUs);
    LowerWhenLarge(totalUs, periodUs);
    if c0 == 0 then 1 else c0
  }

  lemma LowerWhenLarge(x: nat, d: nat)
    requires d > 0
    ensures x >= d ==> x / d >= 1
    ensures x < d ==> x / d == 0
  {
    if x >= d {
      DivLowerBound(x, d, 1);
    } else {
      DivUpperBound(x, d, 1);
    }
  }
}

=== FILE: device.dfy ===
/** The driver's single-register operations (User/drv2605.c:65-151 and
    430-579): mode, library and waveform-slot access, the plain setters and
    getters, sustain levels, actuator selection and clearing the sequencer. */
module Device {
  import opened Types
  import opened Chip
  import opened Bus

  /** FEEDBACK register values selecting an LRA (bit 7 set) or an ERM
      actuator; the other bits are the same recommended settings. */
  const FEEDBACK_LRA: byte := 0xB6
  const FEEDBACK_ERM: byte := 0x36

  /** The two actuator settings differ only in bit 7. */
  lemma FeedbackSelectsActuator()
    ensures FEEDBACK_LRA / 0x80 == 1 && FEEDBACK_ERM / 0x80 == 0
    ensures FEEDBACK_LRA % 0x80 == FEEDBACK_ERM % 0x80
  {
  }

  function SetMode(bus: Bus, m: Mode): (d: Done)
    ensures d.bus.trace == bus.trace + [Xact(Write(ModeReg, ModeCode(m)), d.ok)]
    ensures d.ok <==> NextReply(bus.replies).Ack?
  {
    WriteRegister(bus, ModeReg, ModeCode(m))
  }

  /** Read the MODE register and keep its low three bits. */
  function GetMode(bus: Bus): (g: Got<Mode>)
    ensures g.value.Some? <==> NextReply(bus.replies).Ack?
    ensures g.value.Some? ==> ModeCode(g.value.value) == NextReply(bus.replies).data % 8
    ensures g.bus.trace == bus.trace + [Xact(Read(ModeReg), g.value.Some?)]
  {
    var r := ReadRegister(bus, ModeReg);
    ModeCodeBijective(IntTrig, if r.value.Some? then r.value.value % 8 else 0);
    match r.value
    case Some(v) => Got(Some(ModeOfBits(v % 8)), r.bus)
    case None => Got(None, r.bus)
  }

  /** Reading back a mode that was just written gives the same mode. */
  lemma ModeReadsBack(bus: Bus, m: Mode)
    requires |bus.replies| >= 1 && bus.replies[0] == Ack(ModeCode(m))
    ensures GetMode(bus).value == Some(m)
  {
    ModeCodeBijective(m, 0);
  }

  /** Select a waveform library; only the low three bits of `id` are
      written. */
  function SetLibrary(bus: Bus, id: byte): (d: Done)
    ensures d.bus.trace == bus.trace + [Xact(Write(LibraryReg, id % 8), d.ok)]
    ensures d.ok <==> NextReply(bus.replies).Ack?
  {
    WriteRegister(bus, LibraryReg, id % 8)
  }

  /** Read the LIBRARY register and keep its low three bits. */
  function GetLibrary(bus: Bus): (g: Got<Library>)
    ensures g.value.Some? <==> NextReply(bus.replies).Ack?
    ensures g.value.Some? ==> LibraryCode(g.value.value) == NextReply(bus.replies).data % 8
    ensures g.bus.trace == bus.trace + [Xact(Read(LibraryReg), g.value.Some?)]
  {
    var r := ReadRegister(bus, LibraryReg);
    LibraryCodeBijective(LibEmpty, if r.value.Some? then r.value.value % 8 else 0);
    match r.value
    case Some(v) => Got(Some(LibraryOfBits(v % 8)), r.bus)
    case None => Got(None, r.bus)
  }

  /** Selecting a defined library writes its identifier unchanged, and the
      library read back from that value is the same library. */
  lemma LibraryRoundTrip(bus: Bus, l: Library)
    ensures SetLibrary(bus, LibraryCode(l)).bus.trace
            == bus.trace + [Xact(Write(LibraryReg, LibraryCode(l)), NextReply(bus.replies).Ack?)]
    ensures |bus.replies| >= 1 && bus.replies[0] == Ack(LibraryCode(l)) ==> GetLibrary(bus).value == Some(l)
  {
    LibraryCodeBijective(l, 0);
  }

  /** Start playback of the sequencer (GO = 1). */
  function Start(bus: Bus): (d: Done)
    ensures d.bus.trace == bus.trace + [Xact(Write(Go, 1), d.ok)]
    ensures d.ok <==> NextReply(bus.replies).Ack?
  {
    WriteRegister(bus, Go, 1)
  }

  /** Stop playback (GO = 0). */
  function Stop(bus: Bus): (d: Done)
    ensures d.bus.trace == bus.trace + [Xact(Write(Go, 0), d.ok)]
    ensures d.ok <==> NextReply(bus.replies).Ack?
  {
    WriteRegister(bus, Go, 0)
  }

  /** Start and Stop differ only in the GO bit they leave behind, and a
      failed request leaves the register file as it was. */
  lemma GoLands(bus: Bus, file: map<Register, byte>)
    ensures var d := Start(bus);
            Apply(file, Added(bus, d.bus)) == if d.ok then file[Go := 1] else file
    ensures var d := Stop(bus);
            Apply(file, Added(bus, d.bus)) == if d.ok then file[Go := 0] else file
    ensures Start(bus).ok == Stop(bus).ok
  {
    var s := Start(bus);
    assert Added(bus, s.bus) == [Xact(Write(Go, 1), s.ok)];
    ApplyOne(file, Xact(Write(Go, 1), s.ok));
    var t := Stop(bus);
    assert Added(bus, t.bus) == [Xact(Write(Go, 0), t.ok)];
    ApplyOne(file, Xact(Write(Go, 0), t.ok));
  }

  /** Select an LRA actuator in closed loop. */
  function SelectLra(bus: Bus): (d: Done)
    ensures d.bus.trace == bus.trace + [Xact(Write(Feedback, FEEDBACK_LRA), d.ok)]
    ensures d.ok <==> NextReply(bus.replies).Ack?
  {
    WriteRegister(bus, Feedback, FEEDBACK_LRA)
  }

  /** Select an ERM actuator. */
  function SelectErm(bus: Bus): (d: Done)
    ensures d.bus.trace == bus.trace + [Xact(Write(Feedback, FEEDBACK_ERM), d.ok)]
    ensures d.ok <==> NextReply(bus.replies).Ack?
  {
    WriteRegister(bus, Feedback, FEEDBACK_ERM)
  }

  /** After a successful selection, bit 7 of FEEDBACK names the actuator:
      set for an LRA, clear for an ERM. */
  lemma SelectionLands(bus: Bus, file: map<Register, byte>)
    ensures var d := SelectLra(bus);
            var after := Apply(file, Added(bus, d.bus));
            d.ok ==> Feedback in after && after[Feedback] / 0x80 == 1
    ensures var d := SelectErm(bus);
            var after := Apply(file, Added(bus, d.bus));
            d.ok ==> Feedback in after && after[Feedback] / 0x80 == 0
  {
    var l := SelectLra(bus);
    assert Added(bus, l.bus) == [Xact(Write(Feedback, FEEDBACK_LRA), l.ok)];
    ApplyOne(file, Xact(Write(Feedback, FEEDBACK_LRA), l.ok));
    var e := SelectErm(bus);
    assert Added(bus, e.bus) == [Xact(Write(Feedback, FEEDBACK_ERM), e.ok)];
    ApplyOne(file, Xact(Write(Feedback, FEEDBACK_ERM), e.ok));
  }

  /** The parameters the driver writes with a single-register setter. */
  datatype Setting =
    | RealtimeValue | OverdriveClamp | BrakeLevel
    | AudioUpper | AudioLower | AudioControl
    | RatedLevel | ClampLevel | CalCompensation | CalBackEmf
    | ControlWord(n: int)

  predicate ValidSetting(s: Setting)
  {
    s.ControlWord? ==> 1 <= s.n <= 5
  }

  /** The register each setter writes. */
  function Target(s: Setting): Register
    requires ValidSetting(s)
  {
    match s
    case RealtimeValue => RtpInput
    case OverdriveClamp => Overdrive
    case BrakeLevel => Brake
    case AudioUpper => AudioMax
    case AudioLower => AudioMin
    case AudioControl => AudioCtrl
    case RatedLevel => RatedVoltage
    case ClampLevel => ClampVoltage
    case CalCompensation => AutoCalComp
    case CalBackEmf => AutoCalBackEmf
    case ControlWord(n) =>
      if n == 1 then Control1
      else if n == 2 then Control2
      else if n == 3 then Control3
      else if n == 4 then Control4
      else Control5
  }

  /** Distinct setters write distinct registers, and none of them touches
      the mode, the playback trigger, the sequencer, the library or a
      read-only register. */
  lemma TargetInjective(s1: Setting, s2: Setting)
    requires ValidSetting(s1) && ValidSetting(s2)
    ensures Target(s1) == Target(s2) <==> s1 == s2
    ensures Target(s1) !in {Status, ModeReg, LibraryReg, Go, Feedback, Vbat, LraResonance}
    ensures !Target(s1).WaveSeq?
  {
  }

  /** Write `value` to the register of setter `s`, unchanged. */
  function Set(bus: Bus, s: Setting, value: byte): (d: Done)
    requires ValidSetting(s)
    ensures d.bus.trace == bus.trace + [Xact(Write(Target(s), value), d.ok)]
    ensures d.ok <==> NextReply(bus.replies).Ack?
    ensures d.bus.replies == Later(bus.replies)
  {
    WriteRegister(bus, Target(s), value)
  }

  /** A setter changes exactly its own register, and only when the write is
      acknowledged. */
  lemma SetLands(bus: Bus, s: Setting, value: byte, file: map<Register, byte>, other: Register)
    requires ValidSetting(s)
    ensures var d := Set(bus, s, value);
            var after := Apply(file, Added(bus, d.bus));
            && (d.ok ==> Target(s) in after && after[Target(s)] == value)
            && (!d.ok ==> after == file)
            && (other != Target(s) ==> (other in after <==> other in file))
            && (other != Target(s) && other in file ==> after[other] == file[other])
  {
    var d := Set(bus, s, value);
    assert Added(bus, d.bus) == [Xact(Write(Target(s), value), d.ok)];
    ApplyOne(file, Xact(Write(Target(s), value), d.ok));
  }

  /** Write the positive then the negative sustain level; the second write
      is skipped when the first fails. */
  function SetSustainLevel(bus: Bus, pos: byte, neg: byte): (d: Done)
    ensures d.ok <==> AckRun(bus.replies) >= 2
    ensures AckRun(bus.replies) == 0 ==> d.bus.trace == bus.trace + [Xact(Write(SustainPos, pos), false)]
    ensures AckRun(bus.replies) >= 1 ==>
              d.bus.trace == bus.trace + [Xact(Write(SustainPos, pos), true), Xact(Write(SustainNeg, neg), d.ok)]
  {
    var first := WriteRegister(bus, SustainPos, pos);
    if !first.ok then first else WriteRegister(first.bus, SustainNeg, neg)
  }

  /** A successful sustain update holds both levels. */
  lemma SustainLands(bus: Bus, pos: byte, neg: byte, file: map<Register, byte>)
    requires SetSustainLevel(bus, pos, neg).ok
    ensures var after := Apply(file, Added(bus, SetSustainLevel(bus, pos, neg).bus));
            && SustainPos in after && after[SustainPos] == pos
            && SustainNeg in after && after[SustainNeg] == neg
  {
    var a := Xact(Write(SustainPos, pos), true);
    var b := Xact(Write(SustainNeg, neg), true);
    assert Added(bus, SetSustainLevel(bus, pos, neg).bus) == [a] + [b];
    ApplyAppend(file, [a], [b]);
    ApplyOne(file, a);
    ApplyOne(file[SustainPos := pos], b);
  }

  /** The registers the driver reads with a single-register getter. */
  datatype Reading = StatusReading | RealtimeReading | VbatReading | ResonanceReading

  function Source(r: Reading): Register
  {
    match r
    case StatusReading => Status
    case RealtimeReading => RtpInput
    case VbatReading => Vbat
    case ResonanceReading => LraResonance
  }

  /** Distinct getters read distinct registers. */
  lemma SourceInjective(r1: Reading, r2: Reading)
    ensures Source(r1) == Source(r2) <==> r1 == r2
  {
  }

  /** Read the register of getter `r`; the byte is delivered unchanged, and
      only on success. */
  function Get(bus: Bus, r: Reading): (g: Got<byte>)
    ensures g.bus.trace == bus.trace + [Xact(Read(Source(r)), g.value.Some?)]
    ensures g.value.Some? <==> NextReply(bus.replies).Ack?
    ensures g.value.Some? ==> g.value.value == NextReply(bus.replies).data
  {
    ReadRegister(bus, Source(r))
  }

  /** A getter never changes the register file. */
  lemma GetLeavesFile(bus: Bus, r: Reading, file: map<Register, byte>)
    ensures Apply(file, Added(bus, Get(bus, r).bus)) == file
  {
    var g := Get(bus, r);
    assert Added(bus, g.bus) == [Xact(Read(Source(r)), g.value.Some?)];
    ApplyOne(file, Xact(Read(Source(r)), g.value.Some?));
  }

  /** Write an effect into a sequencer slot. A slot above 7 is refused
      without any bus traffic; otherwise exactly the slot's register, at
      address 0x04 + slot, receives the effect byte unchanged. */
  function SetWaveform(bus: Bus, slot: byte, effect: byte): (d: Done)
    ensures slot > 7 ==> d == Done(false, bus)
    ensures slot <= 7 ==>
              && d.bus.trace == bus.trace + [Xact(Write(WaveSeq(slot), effect), d.ok)]
              && Address(WaveSeq(slot)) == 0x04 + slot
              && (d.ok <==> NextReply(bus.replies).Ack?)
  {
    if slot > 7 then Done(false, bus) else WriteRegister(bus, WaveSeq(slot), effect)
  }

  /** Read the effect in a sequencer slot. A slot above 7 is refused without
      any bus traffic; otherwise exactly the slot's register is read and its
      byte returned unchanged. */
  function GetWaveform(bus: Bus, slot: byte): (g: Got<byte>)
    ensures slot > 7 ==> g == Got(None, bus)
    ensures slot <= 7 ==>
              && g.bus.trace == bus.trace + [Xact(Read(WaveSeq(slot)), g.value.Some?)]
              && (g.value.Some? <==> NextReply(bus.replies).Ack?)
              && (g.value.Some? ==> g.value.value == NextReply(bus.replies).data)
  {
    if slot > 7 then Got(None, bus) else ReadRegister(bus, WaveSeq(slot))
  }

  /** The writes that clear slots 1..7 in ascending order. */
  function ClearPlan(): (plan: seq<Action>)
    ensures |plan| == 7
    ensures forall i :: 0 <= i < 7 ==> plan[i] == Put(WaveSeq(i + 1), END_OF_SEQUENCE)
  {
    seq(7, i requires 0 <= i < 7 => Put(WaveSeq(i + 1), END_OF_SEQUENCE))
  }

  /** Write the end-of-sequence marker into slots 1..7, stopping at the first
      failure. */
  function ClearWaveforms(bus: Bus): Done
  {
    Run(bus, ClearPlan())
  }

  /** The writes of the clearing plan: 0 into slots 1..7, ascending. */
  lemma ClearPlanWrites()
    ensures |Writes(ClearPlan())| == 7
    ensures forall i :: 0 <= i < 7 ==> Writes(ClearPlan())[i] == Write(WaveSeq(i + 1), 0)
  {
    PutsOnly(ClearPlan());
  }

  /** Clearing succeeds exactly when seven writes in a row are
      acknowledged. Its transactions are writes of 0 to slots 1, 2, ... in
      ascending order; when the write to slot k fails, slots 1..k-1 were
      written and no later slot is attempted. Slot 0 is never touched. */
  lemma ClearWaveformsSpec(bus: Bus)
    ensures var d := ClearWaveforms(bus);
            var acks := AckRun(bus.replies);
            var es := Added(bus, d.bus);
            && (d.ok <==> acks >= 7)
            && |es| == Min(acks + 1, 7)
            && (forall i :: 0 <= i < |es| ==> es[i] == Xact(Write(WaveSeq(i + 1), 0), i < acks))
  {
    var plan := ClearPlan();
    PutPlanRun(bus, plan);
    ClearPlanWrites();
    var d := ClearWaveforms(bus);
    assert Added(bus, d.bus) == Attempts(Writes(plan), AckRun(bus.replies));
  }

  /** A successful clear leaves slots 1..7 holding 0 and slot 0 as it was. */
  lemma ClearWaveformsLands(bus: Bus, file: map<Register, byte>, k: Slot)
    requires ClearWaveforms(bus).ok
    ensures var after := Apply(file, Added(bus, ClearWaveforms(bus).bus));
            && (k >= 1 ==> WaveSeq(k) in after && after[WaveSeq(k)] == 0)
            && (WaveSeq(0) in after <==> WaveSeq(0) in file)
            && (WaveSeq(0) in file ==> after[WaveSeq(0)] == file[WaveSeq(0)])
  {
    ClearWaveformsSpec(bus);
    var added := Added(bus, ClearWaveforms(bus).bus);
    assert |added| == 7;
    assert forall i :: 0 <= i < 7 ==> added[i] == Xact(Write(WaveSeq(i + 1), 0), true);
    SlotsWritten(file, added, k);
  }

  /** The register-file effect of seven acknowledged writes of 0 to slots
      1..7. */
  lemma SlotsWritten(file: map<Register, byte>, added: seq<Entry>, k: Slot)
    requires |added| == 7
    requires forall i :: 0 <= i < 7 ==> added[i] == Xact(Write(WaveSeq(i + 1), 0), true)
    ensures var after := Apply(file, added);
            && (k >= 1 ==> WaveSeq(k) in after && after[WaveSeq(k)] == 0)
            && (WaveSeq(0) in after <==> WaveSeq(0) in file)
            && (WaveSeq(0) in file ==> after[WaveSeq(0)] == file[WaveSeq(0)])
  {
    assert !WritesTo(added, WaveSeq(0));
    ApplyFrame(file, added, WaveSeq(0));
    if k >= 1 {
      assert !WritesTo(added[k..], WaveSeq(k)) by {
        forall j | 0 <= j < |added[k..]|
          ensures !IsWriteTo(added[k..][j], WaveSeq(k))
        {
          assert added[k..][j] == added[k + j];
        }
      }
      ApplyLastWrite(file, added, WaveSeq(k), 0, k - 1);
    }
  }
}

=== FILE: driverstate.dfy ===
/** The driver's file-scope state (User/drv2605.c:18-23): the latched
    continuous-drive strength and session flag, the frequency/amplitude
    readiness latch and the burst timing and voltage range of direct drive.
    The model passes it in and out of the operations that use it. */
module DriverState {
  import opened Types
  import opened Bus

  datatype Driver = Driver(
    contStrength: byte, contConfigured: bool,
    freqAmpReady: bool,
    burstMs: u16, pauseMs: u16, voltageMaxMv: u16)

  /** The state every operation keeps: a latched strength the real-time
      input accepts, a nonzero burst and a nonzero voltage range. */
  predicate Valid(d: Driver)
  {
    d.contStrength <= 0x7F && d.burstMs >= 1 && d.voltageMaxMv >= 1
  }

  /** The state at reset: no session, strength 0, not prepared, an 800 ms
      burst, a 300 ms pause and a 5000 mV range. */
  function Initial(): (d: Driver)
    ensures Valid(d)
    ensures !d.contConfigured && !d.freqAmpReady
    ensures d.contStrength == 0 && d.burstMs == 800 && d.pauseMs == 300 && d.voltageMaxMv == 5000
  {
    Driver(0, false, false, 800, 300, 5000)
  }

  /** The outcome of an operation that may change the driver state. */
  datatype Step = Step(ok: bool, bus: Bus, drv: Driver)
}

=== FILE: freqamp.dfy ===
/** Direct frequency/amplitude drive (User/drv2605.c:332-427): a software
    square wave on the real-time input, alternating the drive amplitude and
    0 every half period for a burst, then a pause; plus its timing and
    voltage-range settings and the one-time preparation of real-time mode. */
module FreqAmp {
  import opened Types
  import opened Chip
  import opened Bus
  import opened DriverState
  import opened Conversions
  import Device

  /** Set the burst and pause durations; a missing request changes nothing,
      and a zero burst is raised to 1 ms. */
  function SetFreqAmpTiming(drv: Driver, timing: Option<FreqAmpTiming>): (d: Driver)
    ensures timing.None? ==> d == drv
    ensures timing.Some? ==>
              && d == drv.(burstMs := d.burstMs, pauseMs := timing.value.pauseDurationMs)
              && d.burstMs >= 1
              && (timing.value.burstDurationMs >= 1 ==> d.burstMs == timing.value.burstDurationMs)
              && (timing.value.burstDurationMs == 0 ==> d.burstMs == 1)
    ensures Valid(drv) ==> Valid(d)
  {
    match timing
    case None => drv
    case Some(t) =>
      drv.(burstMs := if t.burstDurationMs == 0 then 1 else t.burstDurationMs, pauseMs := t.pauseDurationMs)
  }

  /** Set the voltage that maps to full amplitude; 0 is ignored. */
  function SetFreqAmpVoltageRange(drv: Driver, maxMv: u16): (d: Driver)
    ensures maxMv == 0 ==> d == drv
    ensures maxMv > 0 ==> d == drv.(voltageMaxMv := maxMv)
    ensures Valid(drv) ==> Valid(d)
  {
    if maxMv == 0 then drv else drv.(voltageMaxMv := maxMv)
  }

  /** Internal trigger, a 5 ms settle, LRA feedback, the LRA library, then
      real-time playback mode. */
  function PreparePlan(): seq<Action>
  {
    [ Put(ModeReg, ModeCode(IntTrig)), WaitMs(5), Put(Feedback, Device.FEEDBACK_LRA),
      Put(LibraryReg, LibraryCode(LibLra)), Put(ModeReg, ModeCode(Realtime)) ]
  }

  function PrepareWrites(): seq<Xfer>
  {
    [Write(ModeReg, 0), Write(Feedback, 0xB6), Write(LibraryReg, 6), Write(ModeReg, 5)]
  }

  lemma PreparePlanWrites()
    ensures Writes(PreparePlan()) == PrepareWrites()
  {
    var p := PreparePlan();
    PutsOnly(p[2..]);
    assert Writes(p[1..]) == Writes(p[2..]);
  }

  /** Put the device in real-time mode once. Once prepared, nothing is
      sent; otherwise the preparation writes are attempted in order up to
      the first failure, and the latch is set exactly when all succeeded. */
  function PrepareFreqAmpRealtime(bus: Bus, drv: Driver): (s: Step)
    ensures drv.freqAmpReady ==> s == Step(true, bus, drv)
    ensures bus.trace <= s.bus.trace
    ensures !drv.freqAmpReady ==>
              var acks := AckRun(bus.replies);
              && s.drv == drv.(freqAmpReady := s.ok)
              && (s.ok <==> acks >= 4)
              && Transfers(Added(bus, s.bus)) == PrepareWrites()[..Min(acks + 1, 4)]
  {
    if drv.freqAmpReady then Step(true, bus, drv)
    else
      RunTransfers(bus, PreparePlan());
      PreparePlanWrites();
      var d := Run(bus, PreparePlan());
      Step(d.ok, d.bus, drv.(freqAmpReady := d.ok))
  }

  /** The readiness latch only ever goes from off to on. */
  lemma ReadyLatchIsOneWay(bus: Bus, drv: Driver)
    ensures var s := PrepareFreqAmpRealtime(bus, drv);
            && (s.drv.freqAmpReady <==> drv.freqAmpReady || s.ok)
            && s.drv == drv.(freqAmpReady := s.drv.freqAmpReady)
  {
  }

  /** `n` periods of the square wave: drive, wait half a period, 0, wait
      half a period. */
  function Tone(drive: byte, halfUs: nat, n: nat): seq<Action>
    decreases n
  {
    if n == 0 then []
    else [Put(RtpInput, drive), WaitUs(halfUs), Put(RtpInput, 0), WaitUs(halfUs)] + Tone(drive, halfUs, n - 1)
  }

  /** The burst followed, when the pause is nonzero, by the pause. */
  function TonePlan(drive: byte, halfUs: nat, n: nat, pauseMs: nat): seq<Action>
  {
    Tone(drive, halfUs, n) + (if pauseMs > 0 then [WaitMs(pauseMs)] else [])
  }

  /** `2 n` writes to the real-time input alternating the drive value and
      0, starting with the drive value. */
  function Alternating(drive: byte, n: nat): (ws: seq<Xfer>)
    ensures |ws| == 2 * n
    ensures forall i :: 0 <= i < 2 * n ==> ws[i] == Write(RtpInput, if i % 2 == 0 then drive else 0)
  {
    seq(2 * n, i requires 0 <= i < 2 * n => Write(RtpInput, if i % 2 == 0 then drive else 0))
  }

  lemma CycleWrites(drive: byte, halfUs: nat)
    ensures Writes([Put(RtpInput, drive), WaitUs(halfUs), Put(RtpInput, 0), WaitUs(halfUs)])
            == [Write(RtpInput, drive), Write(RtpInput, 0)]
  {
    var c := [Put(RtpInput, drive), WaitUs(halfUs), Put(RtpInput, 0), WaitUs(halfUs)];
    assert c[1..][1..] == c[2..] && c[2..][1..] == c[3..] && c[3..][1..] == [];
    assert Writes(c[3..]) == [];
    assert Writes(c[2..]) == [Write(RtpInput, 0)];
    assert Writes(c) == [Write(RtpInput, drive)] + Writes(c[1..]);
  }

  /** The tone writes the drive value and 0 alternately, once each per
      period. */
  lemma {:induction false} ToneWrites(drive: byte, halfUs: nat, n: nat)
    ensures Writes(Tone(drive, halfUs, n)) == Alternating(drive, n)
    decreases n
  {
    if n > 0 {
      var cycle := [Put(RtpInput, drive), WaitUs(halfUs), Put(RtpInput, 0), WaitUs(halfUs)];
      WritesAppend(cycle, Tone(drive, halfUs, n - 1));
      CycleWrites(drive, halfUs);
      ToneWrites(drive, halfUs, n - 1);
      var ws := Writes(Tone(drive, halfUs, n));
      var rest := Alternating(drive, n - 1);
      assert ws == [Write(RtpInput, drive), Write(RtpInput, 0)] + rest;
      forall i | 2 <= i < 2 * n
        ensures ws[i] == Alternating(drive, n)[i]
      {
        assert ws[i] == rest[i - 2];
      }
    }
  }

  lemma TonePlanWrites(drive: byte, halfUs: nat, n: nat, pauseMs: nat)
    ensures Writes(TonePlan(drive, halfUs, n, pauseMs)) == Alternating(drive, n)
  {
    var tail: seq<Action> := if pauseMs > 0 then [WaitMs(pauseMs)] else [];
    WritesAppend(Tone(drive, halfUs, n), tail);
    ToneWrites(drive, halfUs, n);
    assert Writes(tail) == [];
  }

  /** Play one burst at `frequencyHz` with `amplitude`. A zero frequency or
      amplitude is refused with no traffic. Real-time mode is prepared first
      if needed; then the burst is played, stopping at the first failed
      write. Only the readiness latch of the driver state can change. */
  function PlayFreqAmp(bus: Bus, drv: Driver, frequencyHz: u16, amplitude: byte): (s: Step)
    ensures frequencyHz == 0 || amplitude == 0 ==> s == Step(false, bus, drv)
    ensures s.drv == drv.(freqAmpReady := s.drv.freqAmpReady)
    ensures drv.freqAmpReady ==> s.drv.freqAmpReady
    ensures s.ok ==> s.drv.freqAmpReady
    ensures bus.trace <= s.bus.trace
  {
    if frequencyHz == 0 || amplitude == 0 then Step(false, bus, drv)
    else
      var p := if !drv.freqAmpReady then PrepareFreqAmpRealtime(bus, drv) else Step(true, bus, drv);
      if !p.ok then p
      else
        var b := BurstFor(frequencyHz, drv.burstMs);
        var drive := Min(amplitude, RTP_MAX);
        var t := Run(p.bus, TonePlan(drive, b.halfPeriodUs, b.cycles, drv.pauseMs));
        Step(t.ok, t.bus, p.drv)
  }

  /** Once prepared, a burst writes `min(amplitude, 0x7F)` and 0 alternately
      on the real-time input, `max(1, burst / period)` times each, stopping
      at the first failed write, and succeeds exactly when all of them are
      acknowledged. */
  lemma PlayWhenReady(bus: Bus, drv: Driver, frequencyHz: u16, amplitude: byte)
    requires frequencyHz > 0 && amplitude > 0 && drv.freqAmpReady
    ensures var s := PlayFreqAmp(bus, drv, frequencyHz, amplitude);
            var b := BurstFor(frequencyHz, drv.burstMs);
            var acks := AckRun(bus.replies);
            && (s.ok <==> acks >= 2 * b.cycles)
            && Transfers(Added(bus, s.bus)) == Alternating(Min(amplitude, RTP_MAX), b.cycles)[..Min(acks + 1, 2 * b.cycles)]
            && s.drv == drv
  {
    var b := BurstFor(frequencyHz, drv.burstMs);
    var plan := TonePlan(Min(amplitude, RTP_MAX), b.halfPeriodUs, b.cycles, drv.pauseMs);
    RunTransfers(bus, plan);
    TonePlanWrites(Min(amplitude, RTP_MAX), b.halfPeriodUs, b.cycles, drv.pauseMs);
  }

  /** Before preparation, a successful preparation is followed by the
      burst a prepared driver plays, on the replies the preparation left:
      with PlayWhenReady this gives the traffic of a first call. */
  lemma PlayAfterPrepare(bus: Bus, drv: Driver, frequencyHz: u16, amplitude: byte)
    requires frequencyHz > 0 && amplitude > 0 && !drv.freqAmpReady
    ensures var p := PrepareFreqAmpRealtime(bus, drv);
            p.ok ==> && p.drv == drv.(freqAmpReady := true)
                     && PlayFreqAmp(bus, drv, frequencyHz, amplitude) == PlayFreqAmp(p.bus, p.drv, frequencyHz, amplitude)
  {
  }

  /** Before preparation, a failed preparation ends the call with the latch
      still off and only the preparation writes attempted. */
  lemma PlayPrepareFails(bus: Bus, drv: Driver, frequencyHz: u16, amplitude: byte)
    requires frequencyHz > 0 && amplitude > 0 && !drv.freqAmpReady
    requires AckRun(bus.replies) < 4
    ensures var s := PlayFreqAmp(bus, drv, frequencyHz, amplitude);
            && !s.ok && s.drv == drv
            && Transfers(Added(bus, s.bus)) == PrepareWrites()[..AckRun(bus.replies) + 1]
  {
  }

  /** Play a burst whose amplitude is the voltage scaled against the
      configured range. A zero voltage is refused with no traffic; a zero
      range is first raised to 1 and kept. */
  function PlayFreqVoltage(bus: Bus, drv: Driver, frequencyHz: u16, voltageMv: u16): (s: Step)
    ensures voltageMv == 0 ==> s == Step(false, bus, drv)
    ensures voltageMv > 0 ==> s.drv.voltageMaxMv == Max(drv.voltageMaxMv, 1)
    ensures bus.trace <= s.bus.trace
  {
    if voltageMv == 0 then Step(false, bus, drv)
    else
      var maxMv := if drv.voltageMaxMv == 0 then 1 else drv.voltageMaxMv;
      PlayFreqAmp(bus, drv.(voltageMaxMv := maxMv), frequencyHz, VoltageToAmplitude(voltageMv, maxMv))
  }

  /** In a valid state, a nonzero voltage always becomes a playable
      amplitude in 1..0x7F, played as is (never clamped again), and
      voltages at or above the range play at full amplitude. */
  lemma VoltagePlaysAmplitude(bus: Bus, drv: Driver, frequencyHz: u16, voltageMv: u16)
    requires Valid(drv) && voltageMv > 0
    ensures var a := VoltageToAmplitude(voltageMv, drv.voltageMaxMv);
            && 1 <= a <= RTP_MAX
            && Min(a, RTP_MAX) == a
            && (voltageMv >= drv.voltageMaxMv ==> a == RTP_MAX)
            && PlayFreqVoltage(bus, drv, frequencyHz, voltageMv) == PlayFreqAmp(bus, drv, frequencyHz, a)
  {
  }
}

=== FILE: i2c.dfy ===
/** The driver's I2C transaction engine (User/drv2605.c:583-750): bounded
    polling waits, START with address, multi-byte write, and the combined
    write-register-then-read format with a repeated START, as in section 3.1.10
    of the NXP I2C-bus specification (UM10204).

    The controller's status flags are not modelled as hardware: every
    iteration of a polling loop consumes one observation from an injected
    stream, and the engine's effect is the list of controller commands it
    issues. Running out of observations reads as "condition not met". */
module I2c {
  import opened Types
  import opened Chip

  /** Iteration budget of every polling loop. */
  const TIMEOUT_CYC: nat := 0x4FFF

  /** One iteration of a polling loop sees the awaited condition (with the
      byte in the data register, meaningful for a received byte), sees it not
      yet met, or sees it not met with an error flag (acknowledge failure, bus
      error, arbitration loss) latched. */
  datatype Poll = Hit(data: byte) | Miss | Fault

  /** The controller commands the engine issues. */
  datatype Signal =
    | GenStart | SendAddress(b: byte) | SendData(b: byte) | GenStop
    | ClearErrors | AckOff | AckOn

  function Head(polls: seq<Poll>): Poll
  {
    if |polls| == 0 then Miss else polls[0]
  }

  function Tail(polls: seq<Poll>): seq<Poll>
  {
    if |polls| == 0 then [] else polls[1..]
  }

  function DropN(polls: seq<Poll>, n: nat): seq<Poll>
  {
    if n >= |polls| then [] else polls[n..]
  }

  /** Whether a poll leaves the loop waiting. Event waits give up on a latched
      error flag; flag waits (bus idle, transmit buffer empty) ignore errors. */
  predicate Pending(p: Poll, abortOnFault: bool)
  {
    p.Miss? || (p.Fault? && !abortOnFault)
  }

  /** Index of the first poll that ends a wait of unlimited patience, or
      |polls| if none does. */
  function Settle(polls: seq<Poll>, abortOnFault: bool): nat
  {
    if |polls| == 0 || !Pending(polls[0], abortOnFault) then 0
    else 1 + Settle(polls[1..], abortOnFault)
  }

  /** `Settle` is exactly the length of the run of pending polls. */
  lemma {:induction false} SettleIsFirstStop(polls: seq<Poll>, abortOnFault: bool)
    ensures var k := Settle(polls, abortOnFault);
            && k <= |polls|
            && (forall j :: 0 <= j < k ==> Pending(polls[j], abortOnFault))
            && (k < |polls| ==> !Pending(polls[k], abortOnFault))
    decreases |polls|
  {
    if |polls| > 0 && Pending(polls[0], abortOnFault) {
      SettleIsFirstStop(polls[1..], abortOnFault);
      var k := Settle(polls, abortOnFault);
      forall j | 0 <= j < k
        ensures Pending(polls[j], abortOnFault)
      {
        if j > 0 {
          assert polls[j] == polls[1..][j - 1];
        }
      }
    }
  }

  datatype Waited = Waited(ok: bool, data: byte, rest: seq<Poll>)

  /** A polling loop with budget `timeout`: one observation per iteration,
      success as soon as the awaited condition is seen, failure on a latched
      error (event waits only) or once the budget is spent. */
  function Wait(polls: seq<Poll>, timeout: nat, abortOnFault: bool): (w: Waited)
    decreases timeout
    ensures |w.rest| <= |polls|
  {
    match Head(polls)
    case Hit(d) => Waited(true, d, Tail(polls))
    case Fault =>
      if abortOnFault || timeout == 0 then Waited(false, 0, Tail(polls))
      else Wait(Tail(polls), timeout - 1, abortOnFault)
    case Miss =>
      if timeout == 0 then Waited(false, 0, Tail(polls))
      else Wait(Tail(polls), timeout - 1, abortOnFault)
  }

  /** A wait consumes one observation per iteration: up to and including the
      first poll that ends it, or timeout + 1 of them. */
  lemma {:induction false} WaitRest(polls: seq<Poll>, timeout: nat, abortOnFault: bool)
    ensures Wait(polls, timeout, abortOnFault).rest
            == DropN(polls, Min(Settle(polls, abortOnFault), timeout) + 1)
    decreases timeout
  {
    if |polls| == 0 {
      if timeout > 0 {
        WaitRest([], timeout - 1, abortOnFault);
      }
    } else if Pending(polls[0], abortOnFault) && timeout > 0 {
      var tail := polls[1..];
      WaitRest(tail, timeout - 1, abortOnFault);
      var n := Min(Settle(tail, abortOnFault), timeout - 1) + 1;
      if n < |tail| {
        assert tail[n..] == polls[n + 1..];
      }
    }
  }


  /** The wait succeeds exactly when the condition is seen within timeout + 1
      iterations and before any poll that ends the wait early, and it then
      reports the data seen. */
  lemma {:induction false} WaitOutcome(polls: seq<Poll>, timeout: nat, abortOnFault: bool)
    ensures var k := Settle(polls, abortOnFault);
            && (Wait(polls, timeout, abortOnFault).ok <==> k <= timeout && k < |polls| && polls[k].Hit?)
            && (Wait(polls, timeout, abortOnFault).ok ==> Wait(polls, timeout, abortOnFault).data == polls[k].data)
    decreases timeout
  {
    if |polls| == 0 {
      if timeout > 0 {
        WaitOutcome([], timeout - 1, abortOnFault);
      }
    } else if Pending(polls[0], abortOnFault) && timeout > 0 {
      var tail := polls[1..];
      WaitOutcome(tail, timeout - 1, abortOnFault);
      var k := Settle(tail, abortOnFault);
      if k < |tail| {
        assert tail[k] == polls[k + 1];
      }
    }
  }

  /** A successful wait ends at the first observation that ends waiting,
      which saw the condition with the data reported, and leaves exactly the
      observations after it. */
  lemma WaitSucceeds(polls: seq<Poll>, timeout: nat, abortOnFault: bool)
    requires Wait(polls, timeout, abortOnFault).ok
    ensures var k := Settle(polls, abortOnFault);
            var w := Wait(polls, timeout, abortOnFault);
            && k < |polls| && polls[k] == Hit(w.data)
            && w.rest == polls[k + 1..]
  {
    WaitOutcome(polls, timeout, abortOnFault);
    WaitRest(polls, timeout, abortOnFault);
  }

  /** Where each wait of a run ends when the waits follow one another on
      `polls`: wait i (which gives up on a latched error exactly when
      `modes[i]`) starts right after the observation that ended wait i - 1. */
  function Ends(polls: seq<Poll>, modes: seq<bool>): (e: seq<int>)
    ensures |e| == |modes|
    decreases |modes|
  {
    if |modes| == 0 then []
    else
      var k := Settle(polls, modes[0]);
      [k] + Shift(Ends(DropN(polls, k + 1), modes[1..]), k + 1)
  }

  /** Every position moved `d` observations later. */
  function Shift(ends: seq<int>, d: int): (moved: seq<int>)
    ensures |moved| == |ends|
    ensures forall j :: 0 <= j < |ends| ==> moved[j] == ends[j] + d
  {
    if |ends| == 0 then [] else [ends[0] + d] + Shift(ends[1..], d)
  }

  /** Observation `at` saw the awaited condition with `b` in the data
      register. */
  predicate Saw(polls: seq<Poll>, at: int, b: byte)
  {
    0 <= at < |polls| && polls[at] == Hit(b)
  }

  /** Waits `from`, `from + 1`, ... of a run of waits on `polls` delivered
      `bytes`: each ended at an observation that saw its condition with that
      byte in the data register. */
  predicate Delivers(polls: seq<Poll>, modes: seq<bool>, from: nat, bytes: seq<byte>)
  {
    var e := Ends(polls, modes);
    && from + |bytes| <= |e|
    && forall i :: 0 <= i < |bytes| ==> Saw(polls, e[from + i], bytes[i])
  }

  /** `n` event waits in a row. */
  function EventWaits(n: nat): (modes: seq<bool>)
    ensures |modes| == n && forall i :: 0 <= i < n ==> modes[i]
  {
    seq(n, i => true)
  }

  /** The ends of a run that starts with one more wait: that wait ends
      first, and the rest end where they would after it, shifted. */
  lemma EndsCons(polls: seq<Poll>, m: bool, ms: seq<bool>)
    ensures Ends(polls, [m] + ms)[0] == Settle(polls, m)
    ensures forall j :: 0 < j <= |ms| ==>
              Ends(polls, [m] + ms)[j] == Ends(DropN(polls, Settle(polls, m) + 1), ms)[j - 1] + Settle(polls, m) + 1
  {
    var modes := [m] + ms;
    assert modes[0] == m && modes[1..] == ms;
    var k := Settle(polls, m);
    var later := Ends(DropN(polls, k + 1), ms);
    var shifted := Shift(later, k + 1);
    assert Ends(polls, modes) == [k] + shifted;
    forall j | 0 < j <= |ms|
      ensures Ends(polls, modes)[j] == later[j - 1] + k + 1
    {
      assert ([k] + shifted)[j] == shifted[j - 1];
    }
  }

  /** What an observation after a successful wait saw, it saw at the
      matching place of the whole stream. */
  lemma SawAfter(polls: seq<Poll>, k: nat, at: int, b: byte)
    requires k < |polls|
    requires Saw(polls[k + 1..], at, b)
    ensures Saw(polls, at + k + 1, b)
  {
    assert polls[k + 1..][at] == polls[at + k + 1];
  }

  /** A wait that ended at observation `Settle(polls, m)` shifts what the
      waits after it deliver one wait later. */
  lemma DeliversShift(polls: seq<Poll>, m: bool, ms: seq<bool>, from: nat, bytes: seq<byte>)
    requires Settle(polls, m) < |polls|
    requires Delivers(polls[Settle(polls, m) + 1..], ms, from, bytes)
    ensures Delivers(polls, [m] + ms, from + 1, bytes)
  {
    var k := Settle(polls, m);
    var rest := polls[k + 1..];
    assert DropN(polls, k + 1) == rest;
    EndsCons(polls, m, ms);
    var e := Ends(polls, [m] + ms);
    var later := Ends(rest, ms);
    forall i | 0 <= i < |bytes|
      ensures Saw(polls, e[from + 1 + i], bytes[i])
    {
      assert Saw(rest, later[from + i], bytes[i]);
      SawAfter(polls, k, later[from + i], bytes[i]);
      assert e[from + 1 + i] == later[from + i] + k + 1;
    }
  }

  /** A successful wait in front of a run shifts what the run delivers one
      wait later. */
  lemma DeliversAfter(polls: seq<Poll>, m: bool, ms: seq<bool>, timeout: nat, from: nat, bytes: seq<byte>)
    requires Wait(polls, timeout, m).ok
    requires Delivers(Wait(polls, timeout, m).rest, ms, from, bytes)
    ensures Delivers(polls, [m] + ms, from + 1, bytes)
  {
    WaitSucceeds(polls, timeout, m);
    DeliversShift(polls, m, ms, from, bytes);
  }

  /** A successful wait in front of a run that delivers `bytes` from its
      start delivers its own byte first. */
  lemma DeliversFirst(polls: seq<Poll>, m: bool, ms: seq<bool>, timeout: nat, bytes: seq<byte>)
    requires Wait(polls, timeout, m).ok
    requires Delivers(Wait(polls, timeout, m).rest, ms, 0, bytes)
    ensures Delivers(polls, [m] + ms, 0, [Wait(polls, timeout, m).data] + bytes)
  {
    var w := Wait(polls, timeout, m);
    var all := [w.data] + bytes;
    DeliversAfter(polls, m, ms, timeout, 0, bytes);
    WaitSucceeds(polls, timeout, m);
    EndsCons(polls, m, ms);
    var e := Ends(polls, [m] + ms);
    forall i | 0 <= i < |all|
      ensures Saw(polls, e[i], all[i])
    {
      if i > 0 {
        assert all[i] == bytes[i - 1];
        assert Saw(polls, e[1 + (i - 1)], bytes[i - 1]);
      }
    }
  }

  /** The commands that put `data` on the wire, one byte each. */
  function Sends(data: seq<byte>): (out: seq<Signal>)
    ensures |out| == |data|
    ensures forall i :: 0 <= i < |data| ==> out[i] == SendData(data[i])
  {
    seq(|data|, i requires 0 <= i < |data| => SendData(data[i]))
  }

  lemma SendsCons(data: seq<byte>)
    requires |data| > 0
    ensures Sends(data) == [SendData(data[0])] + Sends(data[1..])
    ensures GenStop !in Sends(data) && GenStart !in Sends(data) && ClearErrors !in Sends(data)
  {
  }

  /** A failed transaction that had taken the bus: it began with START and
      ended with exactly one STOP followed by clearing the error flags. */
  predicate Recovered(out: seq<Signal>)
  {
    && |out| >= 3
    && out[0] == GenStart
    && out[|out| - 2] == GenStop && out[|out| - 1] == ClearErrors
    && multiset(out)[GenStop] == 1
  }

  datatype Step = Step(ok: bool, rest: seq<Poll>, out: seq<Signal>)

  /** Wait for the bus to be idle, issue START, send the address byte with
      the direction bit and wait for the matching mode confirmation. */
  function Start(polls: seq<Poll>, dir: Direction): (r: Step)
    ensures r.ok ==> r.out == [GenStart, SendAddress(AddressByte(dir))]
    ensures !r.ok ==> r.out == [] || Recovered(r.out)
    ensures r.out == [] <==> !Wait(polls, TIMEOUT_CYC, false).ok
  {
    var idle := Wait(polls, TIMEOUT_CYC, false);
    if !idle.ok then Step(false, idle.rest, [])
    else
      var started := Wait(idle.rest, TIMEOUT_CYC, true);
      if !started.ok then Step(false, started.rest, [GenStart, GenStop, ClearErrors])
      else
        var selected := Wait(started.rest, TIMEOUT_CYC, true);
        if !selected.ok then
          Step(false, selected.rest, [GenStart, SendAddress(AddressByte(dir)), GenStop, ClearErrors])
        else Step(true, selected.rest, [GenStart, SendAddress(AddressByte(dir))])
  }

  /** Whether each wait of a START gives up on a latched error: the wait
      for an idle bus does not; the waits for the start condition and for
      the address acknowledgement do. */
  const START_WAITS: seq<bool> := [false, true, true]

  /** The same for the switch to reception: the wait for an empty transmit
      buffer does not give up; the waits for the register byte's
      acknowledgement, the repeated START and the address do. */
  const SWITCH_WAITS: seq<bool> := [false, true, true, true]

  /** All waits of a read before its first received byte. */
  const READ_WAITS: seq<bool> := START_WAITS + SWITCH_WAITS

  /** The waits of a START in front of other waits, one at a time. */
  lemma StartWaitsShape(ms: seq<bool>)
    ensures [false] + ([true] + ([true] + ms)) == START_WAITS + ms
  {
  }

  /** The waits of the switch to reception in front of other waits, one at
      a time. */
  lemma SwitchWaitsShape(ms: seq<bool>)
    ensures [false] + ([true] + ([true] + ([true] + ms))) == SWITCH_WAITS + ms
  {
  }

  /** A successful START shifts what the waits after it deliver by its
      three waits. */
  lemma StartDelivers(polls: seq<Poll>, dir: Direction, ms: seq<bool>, from: nat, bytes: seq<byte>)
    requires Start(polls, dir).ok
    requires Delivers(Start(polls, dir).rest, ms, from, bytes)
    ensures Delivers(polls, START_WAITS + ms, from + 3, bytes)
  {
    var idle := Wait(polls, TIMEOUT_CYC, false);
    var started := Wait(idle.rest, TIMEOUT_CYC, true);
    DeliversAfter(started.rest, true, ms, TIMEOUT_CYC, from, bytes);
    DeliversAfter(idle.rest, true, [true] + ms, TIMEOUT_CYC, from + 1, bytes);
    DeliversAfter(polls, false, [true] + ([true] + ms), TIMEOUT_CYC, from + 2, bytes);
    StartWaitsShape(ms);
  }

  /** The byte loop of a write: wait for an empty transmit buffer, send the
      byte, wait for its acknowledgement; STOP after the last byte, STOP and
      error clearing on the first failure. */
  function SendBytes(polls: seq<Poll>, data: seq<byte>): (r: Step)
    decreases |data|
    ensures r.ok ==> r.out == Sends(data) + [GenStop]
    ensures !r.ok ==> && 2 <= |r.out| <= |data| + 2
                      && r.out == Sends(data[..|r.out| - 2]) + [GenStop, ClearErrors]
  {
    if |data| == 0 then Step(true, polls, [GenStop])
    else
      var empty := Wait(polls, TIMEOUT_CYC, false);
      if !empty.ok then Step(false, empty.rest, [GenStop, ClearErrors])
      else
        var acked := Wait(empty.rest, TIMEOUT_CYC, true);
        if !acked.ok then
          assert data[..1] == [data[0]];
          Step(false, acked.rest, [SendData(data[0]), GenStop, ClearErrors])
        else
          var more := SendBytes(acked.rest, data[1..]);
          SendsCons(data);
          if more.ok then Step(true, more.rest, [SendData(data[0])] + more.out)
          else
            var k := |more.out| - 2;
            assert data[..k + 1][1..] == data[1..][..k];
            SendsCons(data[..k + 1]);
            Step(false, more.rest, [SendData(data[0])] + more.out)
  }

  /** No STOP, START or error clearing hides among the payload bytes. */
  lemma SendsCounts(data: seq<byte>)
    ensures multiset(Sends(data))[GenStop] == 0
    ensures GenStart !in Sends(data) && ClearErrors !in Sends(data)
  {
  }

  /** The commands a write issues before its payload once START succeeded. */
  const WRITE_PROLOGUE: seq<Signal> := [GenStart, SendAddress(AddressByte(Transmitter))]

  /** Write `data` to the device in one transaction. An empty payload is a
      no-op success, a failed START is returned as is, and otherwise the
      bytes on the wire are the payload followed by STOP (on failure, a
      prefix of it followed by STOP and error clearing). */
  function WriteBytes(polls: seq<Poll>, data: seq<byte>): (r: Step)
    requires |data| < 0x100
    ensures |data| == 0 ==> r == Step(true, polls, [])
    ensures |data| > 0 && !Start(polls, Transmitter).ok ==> r == Start(polls, Transmitter)
    ensures |data| > 0 && Start(polls, Transmitter).ok && r.ok ==>
              r.out == WRITE_PROLOGUE + Sends(data) + [GenStop]
    ensures |data| > 0 && Start(polls, Transmitter).ok && !r.ok ==>
              && 4 <= |r.out| <= |data| + 4
              && r.out == WRITE_PROLOGUE + Sends(data[..|r.out| - 4]) + [GenStop, ClearErrors]
  {
    if |data| == 0 then Step(true, polls, [])
    else
      var started := Start(polls, Transmitter);
      if !started.ok then started
      else
        var body := SendBytes(started.rest, data);
        Step(body.ok, body.rest, started.out + body.out)
  }

  /** Once a write has issued START, it issues exactly one STOP and clears the
      error flags exactly when it fails. */
  lemma WriteBytesFraming(polls: seq<Poll>, data: seq<byte>)
    requires |data| < 0x100
    ensures var r := WriteBytes(polls, data);
            r.out != [] ==>
              && r.out[0] == GenStart
              && multiset(r.out)[GenStop] == 1
              && (ClearErrors in r.out <==> !r.ok)
  {
    var r := WriteBytes(polls, data);
    if |data| > 0 && Start(polls, Transmitter).ok {
      PayloadFraming(data, r.ok, r.out);
    } else if r.out != [] {
      assert r.out[|r.out| - 1] == ClearErrors;
    }
  }

  /** The framing facts for a write that got past START. */
  lemma PayloadFraming(data: seq<byte>, ok: bool, out: seq<Signal>)
    requires ok ==> out == WRITE_PROLOGUE + Sends(data) + [GenStop]
    requires !ok ==> 4 <= |out| <= |data| + 4
                     && out == WRITE_PROLOGUE + Sends(data[..|out| - 4]) + [GenStop, ClearErrors]
    ensures Recovered(out) || ok
    ensures out[0] == GenStart && multiset(out)[GenStop] == 1 && (ClearErrors in out <==> !ok)
  {
    var tail := if ok then [GenStop] else [GenStop, ClearErrors];
    var sent := if ok then data else data[..|out| - 4];
    SendsCounts(sent);
    assert out == (WRITE_PROLOGUE + Sends(sent)) + tail;
    assert multiset(out) == multiset(WRITE_PROLOGUE) + multiset(Sends(sent)) + multiset(tail);
    assert ClearErrors !in WRITE_PROLOGUE + Sends(sent);
  }

  /** A failed write that had taken the bus leaves it recovered. */
  lemma WriteBytesRecovers(polls: seq<Poll>, data: seq<byte>)
    requires |data| < 0x100
    ensures var r := WriteBytes(polls, data);
            !r.ok ==> r.out == [] || Recovered(r.out)
  {
    var r := WriteBytes(polls, data);
    if |data| > 0 && Start(polls, Transmitter).ok {
      PayloadFraming(data, r.ok, r.out);
    }
  }

  datatype Rx = Rx(ok: bool, rest: seq<Poll>, out: seq<Signal>, bytes: seq<byte>, stopIssued: bool)

  /** The receive loop: before waiting for the last byte, acknowledge is
      disabled and STOP is issued. The bytes are those received before the
      first failed wait. */
  function Receive(polls: seq<Poll>, remaining: nat): (r: Rx)
    requires remaining >= 1
    decreases remaining
    ensures multiset(r.out)[GenStop] == (if r.stopIssued then 1 else 0)
    ensures GenStart !in r.out && ClearErrors !in r.out && AckOn !in r.out
    ensures r.ok ==> r.stopIssued && |r.bytes| == remaining
    ensures r.ok <==> |r.bytes| == remaining
    ensures |r.bytes| <= remaining
    ensures r.out == (if r.stopIssued then [AckOff, GenStop] else [])
    ensures r.stopIssued <==> |r.bytes| + 1 >= remaining
    ensures Delivers(polls, EventWaits(remaining), 0, r.bytes)
  {
    var prelude := if remaining == 1 then [AckOff, GenStop] else [];
    var got := Wait(polls, TIMEOUT_CYC, true);
    if !got.ok then Rx(false, got.rest, prelude, [], remaining == 1)
    else if remaining == 1 then
      assert EventWaits(1) == [true] + EventWaits(0);
      assert Delivers(got.rest, EventWaits(0), 0, []);
      DeliversFirst(polls, true, EventWaits(0), TIMEOUT_CYC, []);
      assert [got.data] + [] == [got.data];
      Rx(true, got.rest, prelude, [got.data], true)
    else
      var more := Receive(got.rest, remaining - 1);
      assert EventWaits(remaining) == [true] + EventWaits(remaining - 1);
      DeliversFirst(polls, true, EventWaits(remaining - 1), TIMEOUT_CYC, more.bytes);
      Rx(more.ok, more.rest, more.out, [got.data] + more.bytes, more.stopIssued)
  }

  datatype Fetch = Fetch(ok: bool, rest: seq<Poll>, out: seq<Signal>, bytes: seq<byte>)

  /** The commands of the shared exit of a read: re-enable acknowledge,
      issue STOP unless the receive loop already did, and clear the error
      flags if the read failed. (The wait for an idle bus in between has its
      outcome ignored.) */
  function Closing(stopIssued: bool, ok: bool): (tail: seq<Signal>)
    ensures |tail| >= 1 && tail[0] == AckOn
    ensures multiset(tail)[GenStop] == (if stopIssued then 0 else 1)
    ensures multiset(tail)[GenStart] == 0
    ensures ClearErrors in tail <==> !ok
  {
    if stopIssued then (if ok then [AckOn] else [AckOn, ClearErrors])
    else (if ok then [AckOn, GenStop] else [AckOn, GenStop, ClearErrors])
  }

  lemma AppendFacts(a: seq<Signal>, b: seq<Signal>)
    ensures |a + b| == |a| + |b| && (a + b)[..|a|] == a
    ensures forall i :: 0 <= i < |b| ==> (a + b)[|a| + i] == b[i]
    ensures multiset(a + b) == multiset(a) + multiset(b)
    ensures forall x :: x in a + b <==> x in a || x in b
  {
  }

  /** The part of a read between a successful START and the cleanup: send
      the register address, repeated START in receiver direction, receive.
      Acknowledge re-enabling and error clearing are left to the cleanup. */
  function Transfer(polls: seq<Poll>, reg: byte, count: nat): (r: Rx)
    requires count >= 1
    ensures multiset(r.out)[GenStop] == (if r.stopIssued then 1 else 0)
    ensures ClearErrors !in r.out && AckOn !in r.out
    ensures r.ok ==>
              && r.stopIssued && |r.bytes| == count
              && |r.out| >= 3
              && r.out[0] == SendData(reg) && r.out[1] == GenStart
              && r.out[2] == SendAddress(AddressByte(Receiver))
    ensures r.ok <==> |r.bytes| == count
    ensures r.stopIssued ==>
              r.out == [SendData(reg), GenStart, SendAddress(AddressByte(Receiver))] + [AckOff, GenStop]
    ensures Delivers(polls, SWITCH_WAITS + EventWaits(count), 4, r.bytes)
  {
    var empty := Wait(polls, TIMEOUT_CYC, false);
    if !empty.ok then Rx(false, empty.rest, [], [], false)
    else
      var acked := Wait(empty.rest, TIMEOUT_CYC, true);
      if !acked.ok then Rx(false, acked.rest, [SendData(reg)], [], false)
      else
        var modeSelected := Wait(acked.rest, TIMEOUT_CYC, true);
        if !modeSelected.ok then Rx(false, modeSelected.rest, [SendData(reg), GenStart], [], false)
        else
          var prologue := [SendData(reg), GenStart, SendAddress(AddressByte(Receiver))];
          var selected := Wait(modeSelected.rest, TIMEOUT_CYC, true);
          if !selected.ok then Rx(false, selected.rest, prologue, [], false)
          else
            var rx := Receive(selected.rest, count);
            AppendFacts(prologue, rx.out);
            SwitchDelivers(polls, EventWaits(count), rx.bytes);
            Rx(rx.ok, rx.rest, prologue + rx.out, rx.bytes, rx.stopIssued)
  }

  /** Four successful waits of the switch to reception shift what the
      waits after them deliver by four. */
  lemma SwitchDelivers(polls: seq<Poll>, ms: seq<bool>, bytes: seq<byte>)
    requires Wait(polls, TIMEOUT_CYC, false).ok
    requires var empty := Wait(polls, TIMEOUT_CYC, false);
             var acked := Wait(empty.rest, TIMEOUT_CYC, true);
             var modeSelected := Wait(acked.rest, TIMEOUT_CYC, true);
             && acked.ok && modeSelected.ok && Wait(modeSelected.rest, TIMEOUT_CYC, true).ok
             && Delivers(Wait(modeSelected.rest, TIMEOUT_CYC, true).rest, ms, 0, bytes)
    ensures Delivers(polls, SWITCH_WAITS + ms, 4, bytes)
  {
    var empty := Wait(polls, TIMEOUT_CYC, false);
    var acked := Wait(empty.rest, TIMEOUT_CYC, true);
    var modeSelected := Wait(acked.rest, TIMEOUT_CYC, true);
    DeliversAfter(modeSelected.rest, true, ms, TIMEOUT_CYC, 0, bytes);
    DeliversAfter(acked.rest, true, [true] + ms, TIMEOUT_CYC, 1, bytes);
    DeliversAfter(empty.rest, true, [true] + ([true] + ms), TIMEOUT_CYC, 2, bytes);
    DeliversAfter(polls, false, [true] + ([true] + ([true] + ms)), TIMEOUT_CYC, 3, bytes);
    SwitchWaitsShape(ms);
  }

  /** Read `count` registers starting at `reg` in the combined format of a
      register-address write followed by a repeated START in receiver
      direction. A zero-length read is a no-op success; a failed START is
      returned as is; otherwise the transfer is followed by the shared exit,
      and success delivers `count` bytes. */
  function ReadRegisters(polls: seq<Poll>, reg: byte, count: nat): (r: Fetch)
    requires count < 0x100
    ensures count == 0 ==> r == Fetch(true, polls, [], [])
    ensures count > 0 && !Start(polls, Transmitter).ok ==>
              !r.ok && r.out == Start(polls, Transmitter).out
    ensures r.ok ==> |r.bytes| == count
    ensures !r.ok ==> r.bytes == []
    ensures count > 0 ==> Delivers(polls, READ_WAITS + EventWaits(count), 7, r.bytes)
  {
    if count == 0 then Fetch(true, polls, [], [])
    else
      var started := Start(polls, Transmitter);
      if !started.ok then Fetch(false, started.rest, started.out, [])
      else
        var rx := Transfer(started.rest, reg, count);
        StartDelivers(polls, Transmitter, SWITCH_WAITS + EventWaits(count), 4, rx.bytes);
        assert START_WAITS + (SWITCH_WAITS + EventWaits(count)) == READ_WAITS + EventWaits(count);
        var idle := Wait(rx.rest, TIMEOUT_CYC, false);
        Fetch(rx.ok, idle.rest, started.out + rx.out + Closing(rx.stopIssued, rx.ok),
              if rx.ok then rx.bytes else [])
  }

  /** A successful read went through the full addressing sequence: START,
      address for writing, register address, repeated START, address for
      reading. */
  lemma ReadRegistersAddressing(polls: seq<Poll>, reg: byte, count: nat)
    requires 0 < count < 0x100
    ensures var r := ReadRegisters(polls, reg, count);
            r.ok ==>
              && |r.out| >= 5
              && r.out[0] == GenStart && r.out[1] == SendAddress(AddressByte(Transmitter))
              && r.out[2] == SendData(reg)
              && r.out[3] == GenStart && r.out[4] == SendAddress(AddressByte(Receiver))
  {
    var started := Start(polls, Transmitter);
    if started.ok {
      var rx := Transfer(started.rest, reg, count);
      ClosedReadFacts(rx.out, rx.ok, rx.stopIssued, reg);
    }
  }

  /** Once a read has issued START, it issues exactly one STOP, re-enables
      acknowledge, and clears the error flags exactly when it fails. */
  lemma ReadRegistersFraming(polls: seq<Poll>, reg: byte, count: nat)
    requires 0 < count < 0x100
    ensures var r := ReadRegisters(polls, reg, count);
            r.out != [] ==>
              && r.out[0] == GenStart
              && multiset(r.out)[GenStop] == 1
              && (ClearErrors in r.out <==> !r.ok)
    ensures Start(polls, Transmitter).ok ==> AckOn in ReadRegisters(polls, reg, count).out
  {
    var r := ReadRegisters(polls, reg, count);
    var started := Start(polls, Transmitter);
    if started.ok {
      var rx := Transfer(started.rest, reg, count);
      ClosedReadFacts(rx.out, rx.ok, rx.stopIssued, reg);
    } else if r.out != [] {
      assert r.out[|r.out| - 1] == ClearErrors;
    }
  }

  /** The facts about a read that got past START, from what the transfer
      guarantees about its own commands. */
  lemma ClosedReadFacts(sent: seq<Signal>, ok: bool, stopIssued: bool, reg: byte)
    requires multiset(sent)[GenStop] == (if stopIssued then 1 else 0)
    requires ClearErrors !in sent && AckOn !in sent
    requires ok ==> && |sent| >= 3
                    && sent[0] == SendData(reg) && sent[1] == GenStart
                    && sent[2] == SendAddress(AddressByte(Receiver))
    ensures var out := WRITE_PROLOGUE + sent + Closing(stopIssued, ok);
            && out[0] == GenStart
            && multiset(out)[GenStop] == 1
            && (ClearErrors in out <==> !ok)
            && AckOn in out
            && (ok ==> && |out| >= 5
                       && out[1] == SendAddress(AddressByte(Transmitter))
                       && out[2] == SendData(reg) && out[3] == GenStart
                       && out[4] == SendAddress(AddressByte(Receiver)))
  {
    var tail := Closing(stopIssued, ok);
    var out := WRITE_PROLOGUE + sent + tail;
    assert out == (WRITE_PROLOGUE + sent) + tail;
    assert multiset(out) == multiset(WRITE_PROLOGUE) + multiset(sent) + multiset(tail);
    assert out[|WRITE_PROLOGUE + sent|] == AckOn;
    assert ClearErrors !in WRITE_PROLOGUE + sent;
  }
}

=== FILE: i2cruns.dfy ===
/** Which wait ends an I2C transaction of the driver (User/drv2605.c:583-750):
    every transaction is a run of bounded polling waits, and it stops at the
    first one that gives up. The results here complement what the engine's
    own contracts say about the bytes the waits deliver. */
module I2cRuns {
  import opened Types
  import opened I2c

  /** How many waits of a run on `polls` succeed, one after the other, before
      the first that gives up (all of them if none does). Wait `i` gives up
      on a latched error exactly when `modes[i]`. */
  function WaitsPassed(polls: seq<Poll>, modes: seq<bool>): (n: nat)
    ensures n <= |modes|
    decreases |modes|
  {
    if |modes| == 0 then 0
    else
      var w := Wait(polls, TIMEOUT_CYC, modes[0]);
      if !w.ok then 0 else 1 + WaitsPassed(w.rest, modes[1..])
  }

  /** A run with one more wait in front: none passes if that wait gives up,
      and otherwise one more than the rest pass on what it leaves. */
  lemma WaitsPassedCons(polls: seq<Poll>, m: bool, ms: seq<bool>)
    ensures var w := Wait(polls, TIMEOUT_CYC, m);
            WaitsPassed(polls, [m] + ms) == if w.ok then 1 + WaitsPassed(w.rest, ms) else 0
  {
    assert ([m] + ms)[0] == m && ([m] + ms)[1..] == ms;
  }

  /** The receive loop gets exactly one byte per wait that succeeds before
      the first that gives up: it falls short of `remaining` bytes exactly
      when the wait after the ones that delivered gives up. */
  lemma {:induction false} ReceiveCount(polls: seq<Poll>, remaining: nat)
    requires remaining >= 1
    decreases remaining
    ensures |Receive(polls, remaining).bytes| == WaitsPassed(polls, EventWaits(remaining))
  {
    var got := Wait(polls, TIMEOUT_CYC, true);
    assert EventWaits(remaining) == [true] + EventWaits(remaining - 1);
    WaitsPassedCons(polls, true, EventWaits(remaining - 1));
    if got.ok && remaining > 1 {
      ReceiveCount(got.rest, remaining - 1);
    }
  }

  /** The waits of the switch to reception, one by one. */
  function SwitchRun(ms: seq<bool>): (modes: seq<bool>)
    ensures modes == SWITCH_WAITS + ms
  {
    SwitchWaitsShape(ms);
    [false] + ([true] + ([true] + ([true] + ms)))
  }

  /** The observations left once the four waits of the switch to reception
      succeeded, if they all do. */
  function SwitchLeaves(polls: seq<Poll>): Option<seq<Poll>>
  {
    var empty := Wait(polls, TIMEOUT_CYC, false);
    var acked := Wait(empty.rest, TIMEOUT_CYC, true);
    var modeSelected := Wait(acked.rest, TIMEOUT_CYC, true);
    var selected := Wait(modeSelected.rest, TIMEOUT_CYC, true);
    if empty.ok && acked.ok && modeSelected.ok && selected.ok then Some(selected.rest) else None
  }

  /** Fewer than four waits pass when the switch to reception fails, and
      otherwise four more than pass on what it leaves. */
  lemma SwitchPassed(polls: seq<Poll>, ms: seq<bool>)
    ensures var left := SwitchLeaves(polls);
            var n := WaitsPassed(polls, SwitchRun(ms));
            && (left.None? ==> n < 4)
            && (left.Some? ==> n == 4 + WaitsPassed(left.value, ms))
  {
    var m2 := [true] + ms;
    var m1 := [true] + m2;
    var m0 := [true] + m1;
    var empty := Wait(polls, TIMEOUT_CYC, false);
    var acked := Wait(empty.rest, TIMEOUT_CYC, true);
    var modeSelected := Wait(acked.rest, TIMEOUT_CYC, true);
    WaitsPassedCons(polls, false, m0);
    WaitsPassedCons(empty.rest, true, m1);
    WaitsPassedCons(acked.rest, true, m2);
    WaitsPassedCons(modeSelected.rest, true, ms);
  }

  /** A transfer succeeds exactly when none of its waits gives up. Once it
      got past the switch to reception, the waits that pass are the four of
      the switch and one per byte received, so a short transfer stopped at
      the wait for the byte after its last. */
  lemma TransferCount(polls: seq<Poll>, reg: byte, count: nat)
    requires count >= 1
    ensures var r := Transfer(polls, reg, count);
            var modes := SWITCH_WAITS + EventWaits(count);
            var n := WaitsPassed(polls, modes);
            && (r.ok <==> n == |modes|)
            && (n >= 4 ==> n == 4 + |r.bytes|)
            && (n < 4 ==> r.bytes == [])
  {
    var ms := EventWaits(count);
    var r := Transfer(polls, reg, count);
    var left := SwitchLeaves(polls);
    SwitchPassed(polls, ms);
    if left.Some? {
      var rx := Receive(left.value, count);
      assert r.ok == rx.ok && r.bytes == rx.bytes;
      ReceiveCount(left.value, count);
    } else {
      assert !r.ok && r.bytes == [];
    }
  }

  /** A read of at least one register succeeds exactly when none of its
      waits gives up, from the wait for an idle bus to the wait for the last
      byte. */
  lemma ReadRegistersCount(polls: seq<Poll>, reg: byte, count: nat)
    requires 0 < count < 0x100
    ensures var modes := READ_WAITS + EventWaits(count);
            ReadRegisters(polls, reg, count).ok <==> WaitsPassed(polls, modes) == |modes|
  {
    var tail := SWITCH_WAITS + EventWaits(count);
    var m1 := [true] + tail;
    var m0 := [true] + m1;
    StartWaitsShape(tail);
    assert [false] + m0 == READ_WAITS + EventWaits(count);
    var idle := Wait(polls, TIMEOUT_CYC, false);
    var started := Wait(idle.rest, TIMEOUT_CYC, true);
    var selected := Wait(started.rest, TIMEOUT_CYC, true);
    WaitsPassedCons(polls, false, m0);
    WaitsPassedCons(idle.rest, true, m1);
    WaitsPassedCons(started.rest, true, tail);
    if idle.ok && started.ok && selected.ok {
      TransferCount(selected.rest, reg, count);
    }
  }
}

=== FILE: init.dfy ===
/** The recommended start-up sequence (User/drv2605.c:30-42): internal
    trigger, LRA feedback, the LRA library, a strong click in slot 0, the
    other slots cleared, overdrive, sustain and brake at 0, the audio
    maximum at 0x64 and finally real-time playback mode. It stops at the
    first failed write. */
module Init {
  import opened Types
  import opened Chip
  import opened Bus
  import Device

  /** The steps before clearing the sequencer. */
  function Opening(): seq<Action>
  {
    [ Put(ModeReg, ModeCode(IntTrig)), WaitMs(5),
      Put(Feedback, Device.FEEDBACK_LRA), Put(LibraryReg, LibraryCode(LibLra)),
      Put(WaveSeq(0), STRONG_CLICK_100) ]
  }

  /** The steps after clearing the sequencer. */
  function Closing(): seq<Action>
  {
    [ Put(Overdrive, 0), Put(SustainPos, 0), Put(SustainNeg, 0), Put(Brake, 0),
      Put(AudioMax, 0x64), Put(ModeReg, ModeCode(Realtime)) ]
  }

  function InitPlan(): seq<Action>
  {
    Opening() + Device.ClearPlan() + Closing()
  }

  function InitDefaults(bus: Bus): Done
  {
    Run(bus, InitPlan())
  }

  /** The sequence is the opening steps, then clearing the sequencer, then
      the closing steps, each stage reached only when the previous one
      succeeded. */
  lemma InitStages(bus: Bus)
    ensures var a := Run(bus, Opening());
            var c := Device.ClearWaveforms(a.bus);
            InitDefaults(bus)
            == if !a.ok then a
               else if !c.ok then c
               else Run(c.bus, Closing())
  {
    RunAppend(bus, Opening(), Device.ClearPlan() + Closing());
    assert InitPlan() == Opening() + (Device.ClearPlan() + Closing());
    var a := Run(bus, Opening());
    RunAppend(a.bus, Device.ClearPlan(), Closing());
  }

  /** The opening steps as the driver spells them: one setter call each,
      with the settling delay after the mode change, stopping at the first
      failure. */
  function OpeningByCalls(bus: Bus): Done
  {
    var mode := Device.SetMode(bus, IntTrig);
    if !mode.ok then mode
    else
      var lra := Device.SelectLra(SleepMs(mode.bus, 5));
      if !lra.ok then lra
      else
        var library := Device.SetLibrary(lra.bus, LibraryCode(LibLra));
        if !library.ok then library
        else Device.SetWaveform(library.bus, 0, STRONG_CLICK_100)
  }

  /** The closing steps as the driver spells them, the two sustain levels
      through the one two-write setter. */
  function ClosingByCalls(bus: Bus): Done
  {
    var overdrive := Device.Set(bus, Device.OverdriveClamp, 0);
    if !overdrive.ok then overdrive
    else
      var sustain := Device.SetSustainLevel(overdrive.bus, 0, 0);
      if !sustain.ok then sustain
      else
        var brake := Device.Set(sustain.bus, Device.BrakeLevel, 0);
        if !brake.ok then brake
        else
          var audio := Device.Set(brake.bus, Device.AudioUpper, 0x64);
          if !audio.ok then audio
          else Device.SetMode(audio.bus, Realtime)
  }

  /** Start-up as the driver spells it: the opening setters, the sequencer
      clear, the closing setters, stopping at the first failure. */
  function InitByCalls(bus: Bus): Done
  {
    var begun := OpeningByCalls(bus);
    if !begun.ok then begun
    else
      var cleared := Device.ClearWaveforms(begun.bus);
      if !cleared.ok then cleared
      else ClosingByCalls(cleared.bus)
  }

  /** The opening plan does what the opening setter calls do. */
  lemma OpeningRuns(bus: Bus)
    ensures Run(bus, Opening()) == OpeningByCalls(bus)
  {
    var p := Opening();
    assert p[1..][1..][1..][1..][1..] == [];
  }

  /** The closing plan does what the closing setter calls do. */
  lemma ClosingRuns(bus: Bus)
    ensures Run(bus, Closing()) == ClosingByCalls(bus)
  {
    var overdrive := [Put(Overdrive, 0)];
    var sustain := [Put(SustainPos, 0), Put(SustainNeg, 0)];
    var rest := [Put(Brake, 0), Put(AudioMax, 0x64), Put(ModeReg, ModeCode(Realtime))];
    assert Closing() == overdrive + (sustain + rest);
    RunAppend(bus, overdrive, sustain + rest);
    RunAppend(Run(bus, overdrive).bus, sustain, rest);
  }

  /** Running the start-up plan is exactly the chain of setter calls the
      driver makes: the same writes, delays, outcome and replies used. */
  lemma InitIsSetterCalls(bus: Bus)
    ensures InitDefaults(bus) == InitByCalls(bus)
  {
    InitStages(bus);
    OpeningRuns(bus);
    var a := Run(bus, Opening());
    if a.ok {
      var c := Device.ClearWaveforms(a.bus);
      if c.ok {
        ClosingRuns(c.bus);
      }
    }
  }

  /** The seventeen writes of the sequence, in order. */
  function InitWrites(): (ws: seq<Xfer>)
    ensures |ws| == 17
  {
    [ Write(ModeReg, 0), Write(Feedback, 0xB6), Write(LibraryReg, 6), Write(WaveSeq(0), 1) ]
    + seq(7, i requires 0 <= i < 7 => Write(WaveSeq(i + 1), 0))
    + [ Write(Overdrive, 0), Write(SustainPos, 0), Write(SustainNeg, 0), Write(Brake, 0),
        Write(AudioMax, 0x64), Write(ModeReg, 5) ]
  }

  lemma InitPlanWrites()
    ensures Writes(InitPlan()) == InitWrites()
  {
    WritesAppend(Opening(), Device.ClearPlan());
    WritesAppend(Opening() + Device.ClearPlan(), Closing());
    OpeningWrites();
    ClosingWrites();
    Device.ClearPlanWrites();
    var ws := InitWrites();
    assert Writes(Device.ClearPlan()) == ws[4..11];
    assert ws == ws[..4] + ws[4..11] + ws[11..];
  }

  lemma OpeningWrites()
    ensures Writes(Opening()) == InitWrites()[..4]
  {
    var p := Opening();
    var tail := p[2..];
    PutsOnly(tail);
    assert Writes(p[1..]) == Writes(tail);
  }

  lemma ClosingWrites()
    ensures Writes(Closing()) == InitWrites()[11..]
  {
    PutsOnly(Closing());
  }

  /** Start-up succeeds exactly when all seventeen writes are acknowledged.
      It attempts the writes in order up to and including the first failed
      one, and none after it. */
  lemma InitSpec(bus: Bus)
    ensures var d := InitDefaults(bus);
            var acks := AckRun(bus.replies);
            && (d.ok <==> acks >= 17)
            && Transfers(Added(bus, d.bus)) == InitWrites()[..Min(acks + 1, 17)]
  {
    RunTransfers(bus, InitPlan());
    InitPlanWrites();
  }

  /** The last write puts the device in real-time playback mode, slot 0
      holds the strong click and slot 1 terminates the sequence. */
  lemma InitWritesLandmarks()
    ensures InitWrites()[16] == Write(ModeReg, ModeCode(Realtime))
    ensures InitWrites()[3] == Write(WaveSeq(0), STRONG_CLICK_100)
    ensures InitWrites()[4] == Write(WaveSeq(1), 0)
  {
  }
}

=== FILE: types.dfy ===
/** Machine-width integer types and small helpers shared by every module of the
    DRV2605 driver model. The driver works on 8-, 16- and 32-bit unsigned
    integers; Dafny integers are unbounded, so the widths are subset types and
    every narrowing the driver performs is written out where it happens. */
module Types {

  /** An unsigned 8-bit value (`u8` in the driver). */
  type byte = x: int | 0 <= x < 0x100

  /** An unsigned 16-bit value (`u16` in the driver). */
  type u16 = x: int | 0 <= x < 0x1_0000

  /** One past the largest unsigned 32-bit value; the driver's intermediate
      products are `uint32_t`. */
  const U32_LIMIT: int := 0x1_0000_0000

  /** A value that may be absent; stands for a null pointer argument or for a
      getter whose transaction failed. */
  datatype Option<+T> = None | Some(value: T)

  function Min(a: int, b: int): int
  {
    if a <= b then a else b
  }

  function Max(a: int, b: int): int
  {
    if a >= b then a else b
  }
}
